=== FILE: README.md ===
# CV analysis system — a Dafny model of its deterministic core

The CV analysis system ingests CVs (PDF or DOCX), turns them into structured
records with a language model, and answers questions about the candidates
through a chat page. Everything around the foreign calls is ordinary,
deterministic code over strings, sequences and maps, and that code is what
this project models and proves things about:

- **Records** (`Documents`): the CV records and their defaults, the
  document-status and file-type enumerations.
- **Text extraction** (`Normalization`, `Extraction`):
  - `_preprocess_text`;
  - the PDF decision between direct text, OCR and fallback;
  - the DOCX assembly of paragraphs and table rows;
  - the empty-text branch of `process_document`;
  - the name and link rules of `_extract_personal_info`.
- **Reading the model's answer** (`JsonValues`, `ResponseRepair`, `CvMapping`):
  - `_extract_json_from_response`, which picks a span and makes one repair
    attempt;
  - `_cv_from_json`, which maps decoded JSON onto the records, including all
    three shapes of skills.
- **Entity resolution** (`EntityResolver`): name variants, the entity map
  threaded as explicit state, and `_resolve_entity`.
- **Query context** (`SkillGroups`, `EmbeddingText`, `Focus`, `Mentions`,
  `VectorIndex`):
  - the embedding text and the focused CV text;
  - the entity-mention scanner;
  - the valid-embedding filter of `build_index` and the fallback of
    `_get_relevant_cvs`.
- **Conversation** (`Conversation`, `ChatHistory`, `RoundTrip`):
  - the service's `_parse_conversation_context` line machine;
  - the chat page's `formatConversationForContext` and its history pruning;
  - a lemma joining the two: what the page sends, the service reads back.

**Foreign calls** are parameters:
- the PDF reader, OCR and python-docx outputs are abstract outcomes, each
  either text or "raised";
- spaCy's PERSON entities are a list;
- the email and phone matches are optional strings;
- `json.loads`, `dateparser.parse` and the float coercion of a GPA string are
  functions;
- whether the embedding model is loaded is a flag;
- the positions the nearest-neighbour search returns are a sequence;
- the length of the page's serialised history is a number.

**Python and JavaScript semantics** are modelled where they matter:
- `str.split()`, `str.strip()` and `\s` use Python's whitespace set;
- JavaScript's `slice(-5)`, and `Math.max(2.5, 5)`, which is 5.

`Wrappers`, `Text` and `Seqs` hold the shared `Option`/`Result` types, the
string helpers and the sequence helpers.

`build_index` returns early, and keeps the previous index, when it gets no
CVs, has no model, or finds no CV with an embedding
(backend/app/services/llm_service.py:556-561). `VectorIndex.BuildIndex`
keeps the previous state in those cases.

## Model

| member | source | states |
|---|---|---|
| Documents.ParseStatus | backend/app/models/documents.py:6-10 | A status is read only from one of the four values pending, processing, completed and failed, and reads back as the status that prints as that text. |
| Documents.ParseType | backend/app/models/documents.py:12-14 | A file type is read only from "pdf" or "docx", and reads back as the type that prints as that text. |
| Documents.EnumValuesRoundTrip | backend/app/models/documents.py:6-14 | Every status and every file type is read back from its own value. |
| Documents.NewPersonalInfo | backend/app/models/documents.py:16-23 | Every personal field starts as None. |
| Documents.NewEducation | backend/app/models/documents.py:25-32 | The degree starts as "Not Specified" and every other education field as None. |
| Documents.NewWorkExperience | backend/app/models/documents.py:34-41 | Company and position are the required arguments; the dates, location and description start as None and the highlights empty. |
| Documents.NewProject | backend/app/models/documents.py:43-49 | The name is required; the technologies start empty and the other fields as None. |
| Documents.NewCertification | backend/app/models/documents.py:51-56 | The name is required and every other field starts as None. |
| Documents.NewSkill | backend/app/models/documents.py:58-61 | The name is required; category and level start as None. |
| Documents.NewParsedCV | backend/app/models/documents.py:63-72 | A new CV keeps its raw text and has no id, no embedding, empty personal information and empty collections. |
| Documents.NewCVDocument | backend/app/models/documents.py:74-83 | A new document is pending, with no error message, no parsed-data id and no id, and keeps its name, type, size, path and upload time. |
| Normalization.Preprocess | backend/app/services/document_processing.py:39-43 | The output is ASCII only, has no leading or trailing whitespace, and every whitespace character in it is one space not followed by another. |
| Normalization.PreprocessKeepsVisible | backend/app/services/document_processing.py:39-43 | Preprocessing keeps exactly the visible ASCII characters of the text, in order, once bullets have become dashes. |
| Normalization.PreprocessEmptyIff | backend/app/services/document_processing.py:39-43 | The output is empty exactly when the bullet-replaced input holds no visible ASCII character. |
| Normalization.PreprocessOfNormalized | backend/app/services/document_processing.py:39-43 | A text that is already ASCII, stripped and single-spaced comes out unchanged. |
| Normalization.PreprocessIdempotent | backend/app/services/document_processing.py:39-43 | Preprocessing twice is the same as preprocessing once. |
| Normalization.PreprocessDashes | backend/app/services/document_processing.py:40-41 | The output has as many dashes as the input had dashes and bullets together: each bullet becomes a dash before non-ASCII runs are removed. |
| Extraction.ExtractPdf | backend/app/services/document_processing.py:69-134 | The result is normalised. Stripped direct text over 200 characters is used without OCR. Otherwise, when OCR succeeds, the direct text wins exactly when the OCR text is shorter than the non-empty stripped direct text. When OCR raises, the direct text wins exactly when it is non-empty, and the result is "" otherwise. |
| Extraction.LongDirectTextSkipsOcr | backend/app/services/document_processing.py:84-90 | With more than 200 stripped direct characters, the OCR outcome never changes the result. |
| Extraction.ShortDirectTextDefersToOcr | backend/app/services/document_processing.py:120-128 | With at most 200 stripped direct characters and OCR text at least that long, the result is the preprocessed OCR pages joined by blank lines. |
| Extraction.RowTextBlankIff | backend/app/services/document_processing.py:154-155 | A table row's text is empty exactly when all its cells are blank, and a row that is not empty is not blank. |
| Extraction.NonBlank | backend/app/services/document_processing.py:145-147 | The kept paragraphs are exactly the input texts that are not blank, and none of them is blank. |
| Extraction.NonBlankIsSelection | backend/app/services/document_processing.py:145-147 | Keeping the non-blank texts is the order-preserving selection of the texts whose strip is non-empty. |
| Extraction.NonBlankRowsIsSelection | backend/app/services/document_processing.py:152-156 | The contributing rows are the order-preserving selection of the rows with at least one non-blank cell. |
| Extraction.RowParts | backend/app/services/document_processing.py:152-156 | There is one part per contributing row, and no part is blank. |
| Extraction.RowPartsTexts | backend/app/services/document_processing.py:154-156 | The k-th row part is the non-blank cells of the k-th contributing row joined with a spaced vertical bar. |
| Extraction.DocxParts | backend/app/services/document_processing.py:142-158 | The parts are the non-blank paragraphs, then for each contributing table row, in order, its joined cell text; no part is blank. |
| Extraction.DocxPartsAreSelected | backend/app/services/document_processing.py:142-158 | The parts equal the comprehension statement: the paragraphs whose strip is non-empty, then the joined cell texts of the rows of all tables, table after table, that have a non-blank cell. |
| Extraction.ExtractDocx | backend/app/services/document_processing.py:137-163 | A reader error gives "". Otherwise the text is the preprocessed blank-line join of the selected paragraphs and row texts, and it is normalised. |
| Extraction.DocxTextNonEmpty | backend/app/services/document_processing.py:142-160 | A document whose first part holds a visible character yields a non-empty text. |
| Extraction.NameFromEntities | backend/app/services/document_processing.py:223-228 | A name is set only from the first PERSON entity, cleaned and stripped. It is accepted exactly when it has at least two words and more than three characters, and it holds only letters, whitespace, dots and dashes. |
| Extraction.KeepNameChars | backend/app/services/document_processing.py:225 | The substitution keeps exactly the letters, whitespace, dots and dashes, in their order, and drops everything else. |
| Extraction.CleanNameChars | backend/app/services/document_processing.py:225 | The cleaned name holds only letters, whitespace, dots and dashes. |
| Extraction.FindLink | backend/app/services/document_processing.py:239-249 | A link found is a lower-case slice of the lower-cased text at the first position where a prefix and its character class match, with no match anywhere before it; no link means no match anywhere. |
| Extraction.MatchAtShape | backend/app/services/document_processing.py:239-240 | A match is one of the prefixes followed by at least one character of its class, up to the longest run. |
| Extraction.ExtractPersonalInfo | backend/app/services/document_processing.py:208-251 | The name follows the entity rule, email and phone are the given matches, and location and website stay None. The LinkedIn and GitHub links are the leftmost matches of their patterns in the lower-cased text, so they are lower case. |
| Extraction.RawTextDispatch | backend/app/services/document_processing.py:173-176 | A PDF's raw text depends only on the PDF outcomes, and any other type's only on the DOCX outcome. |
| Extraction.ProcessDocument | backend/app/services/document_processing.py:166-205 | An empty raw text gives an empty CV and exactly the message "Failed to extract text from document". Otherwise the CV starts from the raw text and the extracted personal information. A successful language-model step gives its CV and no error. A failing one keeps the raw text and reports exactly "Error processing document: " followed by the error. |
| JsonValues.GetBinding | backend/app/services/llm_service.py:268 | A key is present in a decoded object exactly when some member carries it, and the lookup returns that member's value. |
| ResponseRepair.FencedSpanIff | backend/app/services/llm_service.py:238-239 | A fenced span is found exactly when the text holds two non-overlapping fences. |
| ResponseRepair.CurlySpan | backend/app/services/llm_service.py:244-245 | The brace span runs from the first `{` to the last `}` after it, and there is none exactly when no `{` precedes a `}`. |
| ResponseRepair.CandidateText | backend/app/services/llm_service.py:238-249 | The fenced span is preferred; otherwise the brace span is used; there is no candidate exactly when neither exists. |
| ResponseRepair.ExtractJson | backend/app/services/llm_service.py:236-261 | With no candidate the result is None. A candidate that parses is returned as parsed. Otherwise the result is the single parse of the repaired candidate, and a second failure is None. |
| ResponseRepair.FenceTakesPriority | backend/app/services/llm_service.py:241-242 | When a fence exists, the result depends only on the fenced text, whatever braces surround it. |
| ResponseRepair.DropTrailingCommas | backend/app/services/llm_service.py:256-257 | One pass only deletes: the output is no longer than the input and holds no character that is not in the input, apart from the closer. What it deletes is stated by DropKeepsSolid, DropCountsCommas and DropRemovesInserted. |
| ResponseRepair.DropKeepsSolid | backend/app/services/llm_service.py:256-257 | One pass keeps every character that is neither a comma nor whitespace, in order: the two texts agree once commas and whitespace are filtered out. |
| ResponseRepair.DropCountsCommas | backend/app/services/llm_service.py:256-257 | One pass keeps every copy of the closer and never adds a comma. It deletes at most one comma per closer. |
| ResponseRepair.DropRemovesInserted | backend/app/services/llm_service.py:256-257 | Inserting a comma and any whitespace just before a closer, in a text with no trailing comma before that closer, is undone exactly by one pass. |
| ResponseRepair.Repair | backend/app/services/llm_service.py:255-257 | The repaired text holds no single quote. What else it changes is stated by RepairKeepsSolid, RepairCountsCommas and RepairRemovesInserted. |
| ResponseRepair.RepairKeepsSolid | backend/app/services/llm_service.py:255-257 | Apart from commas and whitespace, the repaired text is the quote-replaced text, character for character and in order. |
| ResponseRepair.RepairCountsCommas | backend/app/services/llm_service.py:255-257 | The repair never adds a comma. It deletes at most as many commas as the input has `}` and `]` characters. |
| ResponseRepair.RepairRemovesInserted | backend/app/services/llm_service.py:255-257 | In a text with no single quote and no trailing comma before a closer, a comma and whitespace inserted just before one `}` or `]` are removed, giving back the text exactly. |
| ResponseRepair.RepairRemovesTrailingCommas | backend/app/services/llm_service.py:255-257 | After the repair no single quote is left, and no comma is followed by whitespace and then `}` or `]`, given no comma of the input is followed, after whitespace, by another comma. |
| ResponseRepair.RepairOfClean | backend/app/services/llm_service.py:255-257 | A text with no single quote and no trailing comma before a closer is left unchanged by the repair. |
| ResponseRepair.DropAvoids | backend/app/services/llm_service.py:256-257 | Deleting the commas before one closer keeps every earlier guarantee and adds that closer to the characters no comma precedes. |
| CvMapping.CvFromJson | backend/app/services/llm_service.py:263-371 | The CV keeps the raw text and has no id or embedding. A present personal-information value is read by the personal mapper, and each of education, work experience, projects and certifications is its section read item by item by its own mapper. A collection is replaced only when its key is present and truthy, the skills follow their shape, and an empty object gives the default CV. A non-object answer fails unless the key tests all pass. |
| CvMapping.CategorySkills | backend/app/services/llm_service.py:321-324 | A list-valued category gives one skill per listed name, in order, filed under that category with no level. It fails exactly when a listed item is not a string. Any other value gives nothing. |
| CvMapping.SkillsFromDict | backend/app/services/llm_service.py:320-324 | Dictionary skills succeed exactly when every list-valued category holds only strings, and every skill is listed under its category there. |
| CvMapping.SkillsFromDictListed | backend/app/services/llm_service.py:320-324 | Dictionary skills are exactly the nested loop's output: for each category in order, each of its listed names in order, filed under it, and nothing for values that are not lists. |
| CvMapping.SkillsFromDictNoLists | backend/app/services/llm_service.py:322 | Categories whose value is not a list give no skills. |
| CvMapping.SkillsFromList | backend/app/services/llm_service.py:326-334 | A list fails exactly when some kept item does not validate. Every skill it yields has no level, and a list of strings yields one uncategorised skill per string, in order. A list with no kept item yields no skills. |
| CvMapping.SkillsFromListKept | backend/app/services/llm_service.py:326-334 | List skills are, in order, the skills of exactly the kept items: strings as uncategorised skills, and objects with a name as named skills. Every other item is dropped. |
| CvMapping.SkillsFromJson | backend/app/services/llm_service.py:317-334 | A dictionary is read per category, a list item by item, and any other value gives no skills. |
| CvMapping.PersonalFromJson | backend/app/services/llm_service.py:268-278 | A non-object fails. An object succeeds exactly when each of the seven fields is absent, null or a string, and each field is read from its own key. |
| CvMapping.EducationFromJson | backend/app/services/llm_service.py:280-295 | A non-object fails. Institution, degree, field of study, GPA and both dates are read from their own keys; a missing degree is None, and the description is never read. |
| CvMapping.ProjectFromJson | backend/app/services/llm_service.py:336-353 | A non-object fails. The name is the required string under "name"; description, URL, technologies and both dates are read from their own keys, and technologies stay empty unless present and truthy. |
| CvMapping.CertificationFromJson | backend/app/services/llm_service.py:355-369 | A non-object fails. The name is the required string under "name"; issuer, URL, date and expiration date are read from their own keys. |
| CvMapping.WorkFromJson | backend/app/services/llm_service.py:299-315 | A job without a string company or position fails; otherwise they are the given strings. Location and description are read from their own keys, both dates are parsed from their own keys, and highlights are the list under their key, empty unless present and truthy. |
| CvMapping.Section | backend/app/services/llm_service.py:280-282 | A missing or falsy section gives an empty list, a non-list fails, and a list is mapped item by item. |
| CvMapping.PersonalRoundTrip | backend/app/services/llm_service.py:268-278 | Writing personal information as a JSON object of its seven fields and mapping it back gives it unchanged. |
| CvMapping.EducationRoundTrip | backend/app/services/llm_service.py:280-295 | An education entry without a description survives writing and mapping back, given dates that parse back. |
| CvMapping.WorkRoundTrip | backend/app/services/llm_service.py:297-315 | A job survives writing and mapping back, given dates that parse back. |
| CvMapping.ProjectRoundTrip | backend/app/services/llm_service.py:336-353 | A project survives writing and mapping back. |
| CvMapping.CertificationRoundTrip | backend/app/services/llm_service.py:355-369 | A certification survives writing and mapping back. |
| CvMapping.SkillsRoundTrip | backend/app/services/llm_service.py:326-334 | Skills without a level survive writing as objects and mapping back. |
| CvMapping.CvRoundTrip | backend/app/services/llm_service.py:263-371 | A CV the JSON can carry survives writing as JSON that `_cv_from_json` accepts and mapping back. Skills are written as a list of objects and the GPA as a number. |
| EntityResolver.NameVariants | backend/app/services/llm_service.py:128-143 | The name is always a variant, and a name of at most one word has no other variant. A name of several words also has "first last", the initials of all words but the last followed by ". last", the first initial followed by ". last", and the last word. There are at most five variants. |
| EntityResolver.VariantsOfSeveralWords | backend/app/services/llm_service.py:133-141 | The variants of a name of several words are exactly the name, "first last", initials ". " last, first initial ". " last, and last. Every variant other than the name ends with the last word. |
| EntityResolver.VariantsOfLowerCase | backend/app/services/llm_service.py:128-143 | The variants of a lower-case name are lower case. |
| EntityResolver.Grow | backend/app/services/llm_service.py:116-126 | Id and aliases are kept, and the skill, company and institution sets grow by exactly the CV's lower-cased non-empty values. |
| EntityResolver.UpdateEntityMap | backend/app/services/llm_service.py:100-126 | A CV without a name changes nothing. Otherwise the entry under the lower-cased name is created with the CV's id and the name's variants if new, and then grown. No other entry changes, and insertion order gains the key only when it is new. |
| EntityResolver.UpdateKeepsLowerCase | backend/app/services/llm_service.py:116-126 | An update keeps every stored skill, company and institution lower case. |
| EntityResolver.UpdateIdempotent | backend/app/services/llm_service.py:100-126 | Repeating the same update changes nothing. |
| EntityResolver.AliasMatches | backend/app/services/llm_service.py:429-433 | Every CV of the second pass comes from the pool and carries the id of an entry whose aliases hold the query. Every such pool CV appears at least once. Order and repeats are stated by AliasOrder and AliasMultiplicity. |
| EntityResolver.AliasOrder | backend/app/services/llm_service.py:429-433 | The pass follows the entries' insertion order. Each key contributes, between the matches of earlier and later keys, the pool CVs with its id in pool order, and only when its aliases hold the query. |
| EntityResolver.AliasMultiplicity | backend/app/services/llm_service.py:429-433 | A pool CV appears once for every entry that holds the query and carries its id, times its copies in the pool. So a CV is repeated when several matching entries share its id, for example two people filed without an id who share a surname. |
| EntityResolver.ResolveEntity | backend/app/services/llm_service.py:414-435 | An empty name gives nothing. If some pool CV has the name, case-insensitively, the result is exactly those CVs in pool order. Otherwise it holds the CVs reached through aliases and no others. Each appears once per matching entry with its id, times its copies in the pool. Results always come from the pool. |
| EntityResolver.VariantResolvesBack | backend/app/services/llm_service.py:100-143 | After a CV is added to the map, every variant of its name resolves to that CV. Two conditions apply. No pool CV's full name may equal the variant. Any entry already filed under the CV's lowered name must carry the CV's id. Under the first-filed rule (lines 107-114), a second CV with the same name and a different id is not reached through the variants. |
| SkillGroups.GroupByCategory | backend/app/services/llm_service.py:381-386 | No category is a key twice. |
| SkillGroups.GroupNames | backend/app/services/llm_service.py:381-386 | Each category lists exactly the names of the skills filed under it, in skill order. |
| SkillGroups.GroupKeys | backend/app/services/llm_service.py:381-386 | The groups' categories are the skills' categories, each once, in order of first appearance. |
| SkillGroups.SkillGrouped | backend/app/services/llm_service.py:381-386 | Every skill is listed under its own category. |
| EmbeddingText.EmbeddingPartCount | backend/app/services/llm_service.py:373-412 | The embedding text is joined from one part for the name, one per category plus one more per weighted category, two per job plus one per job with highlights, and one per education entry. |
| EmbeddingText.SkillInText | backend/app/services/llm_service.py:388-392 | Every skill appears in its category's line, and that line is written twice for the weighted categories. |
| EmbeddingText.PositionTwice | backend/app/services/llm_service.py:395-398 | Every job's position line is written twice in a row. |
| EmbeddingText.PrepareTextForEmbedding | backend/app/services/llm_service.py:373-412 | A CV with no name, skills, jobs or education gives the empty text. |
| Focus.SectionGates | backend/app/services/llm_service.py:592-651 | Each of the skills, education and work sections appears exactly when the CV has entries and its focus is hit or no other focus is. Projects appear exactly when the CV has projects and a project term is present; the header is always written, and the name line whenever there is a name. |
| Focus.NoFocusDefault | backend/app/services/llm_service.py:605-651 | With no focus, every non-empty section except projects is written. |
| Focus.SkillsFocusOnly | backend/app/services/llm_service.py:605-651 | A skills-only question writes the skills and none of the other sections. |
| Focus.BlocksOrdered | backend/app/services/llm_service.py:600-662 | Sections come in the fixed order header, name, skills, education, work, projects. |
| Focus.HighlightLines | backend/app/services/llm_service.py:646-649 | Exactly the first three highlights are shown, or all of them when there are fewer. |
| Focus.TechnologiesCapped | backend/app/services/llm_service.py:655-656 | Technologies after the fifth never change a project's line. |
| Focus.ShortDescription | backend/app/services/llm_service.py:661 | A description over 200 characters is cut to its first 200 followed by "..."; a shorter one is kept. |
| Focus.DescriptionShownIff | backend/app/services/llm_service.py:659-662 | A project description is shown exactly when it has more than ten characters. |
| Focus.PrepareFocusedCvData | backend/app/services/llm_service.py:588-666 | No CVs give the empty text, and a single CV gives its own numbered text. |
| Focus.FocusedAppend | backend/app/services/llm_service.py:597-666 | One more CV appends its text after a blank line, numbered by its position. |
| Conversation.SplitJoin | backend/app/services/llm_service.py:479 | Splitting on newlines and joining back gives the context. |
| Conversation.ParseConversationContext | backend/app/services/llm_service.py:474-528 | An empty context gives no pairs, and every pair returned has a non-empty question and answer. |
| Conversation.Step | backend/app/services/llm_service.py:484-521 | With the guard, no line can fail the parse. |
| Conversation.StepEffect | backend/app/services/llm_service.py:484-521 | One line fails exactly when, unguarded, a `User:` line follows a non-empty assistant message with no pair open. A blank line changes nothing. A `User:` line opens one new empty pair and makes the user the speaker. Any other line keeps the number of pairs. |
| Conversation.StepBlank | backend/app/services/llm_service.py:485-487 | A blank line changes nothing. |
| Conversation.ContinuationJoined | backend/app/services/llm_service.py:517-521 | Untagged lines after a message are appended to it, each after a single space. |
| Conversation.AssistantFirstRaises | backend/app/services/llm_service.py:489-491 | An assistant message before any `User:` line, followed by a `User:` line, raises. |
| Conversation.GuardedAgrees | backend/app/services/llm_service.py:474-528 | Wherever the code does not raise, the guarded reading gives the same pairs. |
| Mentions.NameLikeMeans | backend/app/services/llm_service.py:536 | A word is name-like exactly when it has two or more characters, starts upper case and holds a lower-case letter. |
| Mentions.ExtractEntityMentions | backend/app/services/llm_service.py:530-552 | The mentions are exactly the maximal runs of at least two name-like words, in query order and without overlap, each joined with single spaces. |
| VectorIndex.ValidCvs | backend/app/services/llm_service.py:559 | The valid CVs are exactly the CVs that have a non-empty embedding. |
| VectorIndex.BuildIndex | backend/app/services/llm_service.py:554-572 | No CVs, no model, or no CV with an embedding leaves the state as it was. Otherwise the index holds the embeddings of the CVs that have one, in order, and the ids count positions of that filtered list. |
| VectorIndex.GetRelevantCvs | backend/app/services/llm_service.py:574-586 | Without an index or a model the first `top_k` CVs are returned; otherwise every result is a CV of the list, and there are at most as many as hits. |
| VectorIndex.HitsAsWritten | backend/app/services/llm_service.py:583-584 | Every hit is read as a position in the unfiltered list. |
| VectorIndex.FilteredPositionMismatch | backend/app/services/llm_service.py:559-584 | A CV without an embedding followed by one with an embedding: the index holds only the second, yet a hit on it returns the first. The corrected lookup returns the second. |
| VectorIndex.HitsCorrected | backend/app/services/llm_service.py:559-584 | With ids kept as positions in the original list, each hit returns the CV whose embedding is the vector matched. |
| ChatHistory.HistoryPairs | frontend/src/pages/Chatbot.js:69-95 | The backward scan yields, in chronological order, each answer directly followed by a question, paired as that question with that earlier answer. |
| ChatHistory.AsWrittenAlternating | frontend/src/pages/Chatbot.js:75-95 | On a history of alternating questions and answers, the k-th pair is the (k+2)-th question with the (k+1)-th answer, and the first question is never paired. |
| ChatHistory.TwoExchanges | frontend/src/pages/Chatbot.js:75-95 | Two exchanges read back as one pair of the second question with the first answer; the corrected scan gives both exchanges. |
| ChatHistory.HistoryPairsCorrectedReplies | frontend/src/pages/Chatbot.js:69-95 | The corrected scan pairs each question with the answer directly after it. |
| ChatHistory.RepliesAlternating | frontend/src/pages/Chatbot.js:75-95 | On an alternating history the corrected pairs are the exchanges, in order. |
| ChatHistory.FormatConversationForContext | frontend/src/pages/Chatbot.js:67-104 | A history with no pairs gives the empty context. |
| ChatHistory.PruneHistory | frontend/src/pages/Chatbot.js:143-168 | While the JSON text of the new history is at most `MAX_CONVERSATION_HISTORY` (10000) characters, the new history is the old one plus the answer. |
| ChatHistory.PruneKeepsOldest | frontend/src/pages/Chatbot.js:147-164 | Over the limit the history becomes the oldest stretch of at most ten messages after an odd leading message. |
| ChatHistory.PruneDropsAnswer | frontend/src/pages/Chatbot.js:152-164 | Once the history reaches twelve messages, pruning drops the answer just received. |
| ChatHistory.PruneKeepsNewest | frontend/src/pages/Chatbot.js:147-164 | The corrected pruning keeps the newest stretch of at most ten messages. |
| ChatHistory.PruneKeepsAnswer | frontend/src/pages/Chatbot.js:143-164 | The corrected pruning always ends with the answer just received. |
| RoundTrip.ReadFormattedPairs | backend/app/services/llm_service.py:474-528 | The service reads the page's rendering of plain pairs back as those pairs. |
| RoundTrip.ContextRoundTrip | frontend/src/pages/Chatbot.js:97-103 | The context the page sends is read by the service as the page's last five pairs, both as written and with the corrected pairing. |

## Left out

- Case operations are ASCII only: `str.lower()`, `str.isupper()` and `[A-Z]` are modelled on ASCII letters, with no Unicode case mapping.
- Foreign libraries are inputs and are not modelled: image enhancement, OCR, PDF rendering, PdfReader, python-docx, spaCy loading and NER, and the email and phone regular expressions (backend/app/services/document_processing.py:24-66, 99-118, 214-237).
- The language-model calls, retry decorators, the embedding-model load, the prompts and `query_cv_data` are not modelled (backend/app/services/llm_service.py:17-98, 145-234, 438-472). They are network and asynchronous code, and `query_cv_data` uses none of the modelled helpers.
- Embedding, array conversion and L2 search are not modelled (backend/app/services/llm_service.py:566-581): they are floating point and foreign. The search's hits are a free parameter, so the bound `min(top_k, len(cv_ids))` on their number is not modelled, and embeddings of different lengths are not rejected.
- VectorIndex.GetRelevantCvs: `top_k` is a natural number, so Python's negative-slice reading of a negative `top_k` is not modelled.
- Dates are an opaque `Date` with a year; `dateparser.parse` and the float coercion of a GPA string are parameters.
- Record validation: a wrongly typed optional field fails rather than being coerced. A skill's level is never read from the answer, and neither is an education description.
- Highlights and technologies are assigned to the record without validation (backend/app/services/llm_service.py:312-313, 345-346), so the source accepts any truthy value there. The model requires a list of strings and fails otherwise, a restriction on top of the source.
- Duplicate keys in the answer text: `json.loads` keeps the last binding of a repeated key, while `JsonValues.Get` reads the first. Decoded objects are modelled as having distinct keys, which is where the two agree.
- `\w` is ASCII in the model (`Text.IsWordChar`) where Python's is Unicode. The only uses are the link patterns, which run on preprocessed text, and preprocessing has already removed every non-ASCII character.
- CvMapping.CvRoundTrip: holds for CVs without id, embedding, education descriptions or skill levels, because the answer has no place for them.
- ChatHistory.PruneHistory: the length of `JSON.stringify(updated)` is a parameter, since JSON serialisation of the messages is not modelled; the comparison with `MAX_CONVERSATION_HISTORY` is modelled.
- The chat page's React state, rendering, timers and HTTP calls are left out, and so are the other pages and components: they are UI plumbing.
- The API endpoints, database, configuration and logging are I/O plumbing and are not modelled. So is the upload status lifecycle that the endpoints drive.
- EmbeddingText.PrepareTextForEmbedding: the contract of the function itself covers only the empty CV. The line structure is stated by EmbeddingPartCount, SkillInText and PositionTwice.
- ChatHistory.FormatConversationForContext: the contract of the function covers only the empty context. What the text holds is stated by ContextRoundTrip.

## Findings

| source | as written | input that shows it | evidently intended | confidence | as-written member | corrected member |
|---|---|---|---|---|---|---|
| frontend/src/pages/Chatbot.js:78-87 | the backward scan takes a user message and then the assistant message BEFORE it | history q1, a1, q2, a2 gives the single pair (q2, a1) | each question paired with the answer that follows it: (q1, a1), (q2, a2) | not executed | ChatHistory.TwoExchanges | ChatHistory.HistoryPairsCorrectedReplies |
| frontend/src/pages/Chatbot.js:163-164 | pruning keeps `pairs.slice(0, 5)`, the OLDEST five pairs | any history of twelve or more messages over the size limit | keep the most recent pairs, including the answer just received | not executed | ChatHistory.PruneDropsAnswer | ChatHistory.PruneKeepsNewest |
| backend/app/services/llm_service.py:559-584 | `cv_ids` numbers the filtered CVs, but hits index the unfiltered `cv_data` | CVs [a, b], where only b has an embedding: the hit 0 returns a | a hit returns the CV whose vector matched | not executed | VectorIndex.FilteredPositionMismatch | VectorIndex.HitsCorrected |
| backend/app/services/llm_service.py:490-491 | a `User:` line after a pending assistant message writes `qa_pairs[-1]` with no pair open | "Assistant: hi\nUser: q" raises IndexError | guard the write as the `Assistant:` branch does (line 505) | not executed | Conversation.AssistantFirstRaises | Conversation.GuardedAgrees |

=== FILE: chat_history.dfy ===
/** The chat page's conversation history (`Chatbot.js`): the messages sent
    and received, read back into question/answer pairs for the context sent
    with each query, and pruned when its JSON form grows too long. */
module ChatHistory {
  import opened Wrappers
  import opened Text
  import opened Seqs
  import opened Conversation

  /** Longest JSON text of the history kept without pruning. */
  const MaxConversationHistory := 10000
  const MinConversationMessages := 5
  /** `Math.max(MIN_CONVERSATION_MESSAGES / 2, 5)`. JavaScript divides
      exactly (2.5 here), but `slice` truncates its bound, so the integer
      quotient gives the same count. */
  const KeptPairs := if MinConversationMessages / 2 > 5 then MinConversationMessages / 2 else 5
  /** `structuredHistory.slice(-5)`. */
  const ContextPairs := 5

  /** `{ text, isUser }`. */
  datatype Message = Message(text: string, isUser: bool)

  // ------------------------------------------------------------ pairing

  /** The backward scan of `formatConversationForContext` over positions
      `n - 1` down to `0`. `pending` is `currentPair.user`: a user message
      seen and not yet paired. A user message becomes the pending one (the
      first branch when none is pending, the third when one is); a non-user
      message with a pending user closes the pair `{user: pending,
      assistant: text}` and puts it in front; any other message is skipped. */
  function ScanPairs(h: seq<Message>, n: nat, pending: Option<string>): seq<QA>
    requires n <= |h|
    decreases n
  {
    if n == 0 then []
    else
      var m := h[n - 1];
      if m.isUser then ScanPairs(h, n - 1, Some(m.text))
      else if pending.Some? then ScanPairs(h, n - 1, None) + [QA(pending.value, m.text)]
      else ScanPairs(h, n - 1, None)
  }

  /** `structuredHistory`: the pairs read from the whole history. They are
      exactly its answer-then-question neighbours: each question goes with
      the answer just before it. */
  function HistoryPairs(h: seq<Message>): (r: seq<QA>)
    ensures r == AnswerThenQuestion(h, |h|)
  {
    ScanIsAnswerThenQuestion(h, |h|, None);
    ScanPairs(h, |h|, None)
  }

  /** Reference for the scan: for every answer at `i` directly followed by a
      question at `i + 1`, in order, the pair of that question with that
      answer. The question is paired with the answer that came BEFORE it. */
  function AnswerThenQuestion(h: seq<Message>, n: nat): seq<QA>
    requires n <= |h|
  {
    if n == 0 then []
    else
      AnswerThenQuestion(h, n - 1)
        + (if n < |h| && !h[n - 1].isUser && h[n].isUser then [QA(h[n].text, h[n - 1].text)] else [])
  }

  /** The pending user is always the message just after the scanned prefix,
      when that is a user message. */
  ghost predicate PendingAt(h: seq<Message>, n: nat, pending: Option<string>) {
    pending == if n < |h| && h[n].isUser then Some(h[n].text) else None
  }

  lemma {:induction false} ScanIsAnswerThenQuestion(h: seq<Message>, n: nat, pending: Option<string>)
    requires n <= |h|
    requires PendingAt(h, n, pending)
    ensures ScanPairs(h, n, pending) == AnswerThenQuestion(h, n)
  {
    if n > 0 {
      var m := h[n - 1];
      if m.isUser {
        ScanIsAnswerThenQuestion(h, n - 1, Some(m.text));
      } else {
        ScanIsAnswerThenQuestion(h, n - 1, None);
      }
    }
  }

  /** The intended pairing: every question at `i` directly followed by an
      answer at `i + 1`, in order. */
  function QuestionThenAnswer(h: seq<Message>, n: nat): seq<QA>
    requires n <= |h|
  {
    if n == 0 then []
    else
      QuestionThenAnswer(h, n - 1)
        + (if n < |h| && h[n - 1].isUser && !h[n].isUser then [QA(h[n - 1].text, h[n].text)] else [])
  }

  /** The corrected scan: it remembers the pending ANSWER and closes the
      pair at the question before it. */
  function ScanReplies(h: seq<Message>, n: nat, pending: Option<string>): seq<QA>
    requires n <= |h|
    decreases n
  {
    if n == 0 then []
    else
      var m := h[n - 1];
      if !m.isUser then ScanReplies(h, n - 1, Some(m.text))
      else if pending.Some? then ScanReplies(h, n - 1, None) + [QA(m.text, pending.value)]
      else ScanReplies(h, n - 1, None)
  }

  function HistoryPairsCorrected(h: seq<Message>): seq<QA> {
    ScanReplies(h, |h|, None)
  }

  ghost predicate AnswerPendingAt(h: seq<Message>, n: nat, pending: Option<string>) {
    pending == if n < |h| && !h[n].isUser then Some(h[n].text) else None
  }

  lemma {:induction false} ScanIsQuestionThenAnswer(h: seq<Message>, n: nat, pending: Option<string>)
    requires n <= |h|
    requires AnswerPendingAt(h, n, pending)
    ensures ScanReplies(h, n, pending) == QuestionThenAnswer(h, n)
  {
    if n > 0 {
      var m := h[n - 1];
      if !m.isUser {
        ScanIsQuestionThenAnswer(h, n - 1, Some(m.text));
      } else {
        ScanIsQuestionThenAnswer(h, n - 1, None);
      }
    }
  }

  /** The corrected scan pairs each question with the answer right after it. */
  lemma HistoryPairsCorrectedReplies(h: seq<Message>)
    ensures HistoryPairsCorrected(h) == QuestionThenAnswer(h, |h|)
  {
    ScanIsQuestionThenAnswer(h, |h|, None);
  }

  /** A history of exchanges that starts with a question: questions at even
      positions, answers at odd ones. The page's history has this shape
      until `clearConversation` puts the welcome answer first. */
  ghost predicate Alternating(h: seq<Message>) {
    forall i :: 0 <= i < |h| ==> h[i].isUser == (i % 2 == 0)
  }

  /** On an alternating history the corrected pairs are the exchanges
      themselves: question `2k` with answer `2k + 1`. */
  lemma {:induction false} RepliesAlternating(h: seq<Message>, n: nat)
    requires n <= |h| && Alternating(h)
    ensures |QuestionThenAnswer(h, n)| == (if n < |h| then (n + 1) / 2 else |h| / 2)
    ensures forall k :: 0 <= k < |QuestionThenAnswer(h, n)| ==>
      QuestionThenAnswer(h, n)[k] == QA(h[2 * k].text, h[2 * k + 1].text)
  {
    if n > 0 {
      RepliesAlternating(h, n - 1);
    }
  }

  /** On an alternating history the pairs as written shift by one: question
      `2k + 2` with answer `2k + 1`, and the last question is never paired
      with its answer. */
  lemma {:induction false} AsWrittenAlternating(h: seq<Message>, n: nat)
    requires n <= |h| && Alternating(h)
    ensures |AnswerThenQuestion(h, n)| == (if n < |h| || n == 0 then n / 2 else (n - 1) / 2)
    ensures forall k :: 0 <= k < |AnswerThenQuestion(h, n)| ==>
      AnswerThenQuestion(h, n)[k] == QA(h[2 * k + 2].text, h[2 * k + 1].text)
  {
    if n > 0 {
      var prev := AnswerThenQuestion(h, n - 1);
      AsWrittenAlternating(h, n - 1);
      if n < |h| && !h[n - 1].isUser && h[n].isUser {
        assert n % 2 == 0;
        assert |prev| == n / 2 - 1;
        assert AnswerThenQuestion(h, n) == prev + [QA(h[n].text, h[n - 1].text)];
      } else {
        assert AnswerThenQuestion(h, n) == prev;
        if n < |h| {
          assert h[n - 1].isUser == ((n - 1) % 2 == 0);
          assert n % 2 == 1;
        }
      }
    }
  }

  /** Two exchanges read back as one pair of the second question with the
      first answer; the corrected scan gives both exchanges. */
  lemma TwoExchanges()
    ensures var h := [Message("q1", true), Message("a1", false), Message("q2", true), Message("a2", false)];
      HistoryPairs(h) == [QA("q2", "a1")]
      && HistoryPairsCorrected(h) == [QA("q1", "a1"), QA("q2", "a2")]
  {
    var h := [Message("q1", true), Message("a1", false), Message("q2", true), Message("a2", false)];
    assert Alternating(h);
    AsWrittenAlternating(h, |h|);
    HistoryPairsCorrectedReplies(h);
    RepliesAlternating(h, |h|);
  }

  // ------------------------------------------------------------ context text

  function RenderPair(p: QA): string {
    "User: " + p.user + "\nAssistant: " + p.assistant
  }

  function RenderPairs(ps: seq<QA>): (r: seq<string>)
    ensures |r| == |ps|
    ensures forall k :: 0 <= k < |ps| ==> r[k] == RenderPair(ps[k])
  {
    seq(|ps|, k requires 0 <= k < |ps| => RenderPair(ps[k]))
  }

  /** `formatConversationForContext()` as written: the last five pairs,
      each as a `User:` line and an `Assistant:` line, separated by a blank
      line. */
  function FormatConversationForContext(h: seq<Message>): (r: string)
    ensures HistoryPairs(h) == [] ==> r == ""
  {
    Join("\n\n", RenderPairs(TakeLast(HistoryPairs(h), ContextPairs)))
  }

  /** The same with the corrected pairing. */
  function FormatConversationCorrected(h: seq<Message>): (r: string)
    ensures HistoryPairsCorrected(h) == [] ==> r == ""
  {
    Join("\n\n", RenderPairs(TakeLast(HistoryPairsCorrected(h), ContextPairs)))
  }

  // ------------------------------------------------------------ pruning

  /** The backward loop of the pruning code over positions `n - 1` down to
      `0`; `carry` says that `u[n]` is waiting in `currentPair`. Every two
      messages make a pair put in front; a message left over at the start is
      dropped. */
  function Chunks(u: seq<Message>, n: nat, carry: bool): seq<seq<Message>>
    requires n + (if carry then 1 else 0) <= |u|
    decreases n
  {
    if n == 0 then []
    else if carry then Chunks(u, n - 1, false) + [u[n - 1..n + 1]]
    else Chunks(u, n - 1, true)
  }

  /** The pairs are the consecutive two-message slices of `u[o..m]`, where
      `m = o + 2 h` ends the scanned part and `o` is `0` or `1`. */
  lemma {:induction false} ChunksShape(u: seq<Message>, n: nat, carry: bool, o: nat, h: nat)
    requires n + (if carry then 1 else 0) <= |u|
    requires o < 2 && o + 2 * h == n + (if carry then 1 else 0)
    ensures |Chunks(u, n, carry)| == h
    ensures forall k :: 0 <= k < h ==> Chunks(u, n, carry)[k] == u[o + 2 * k..o + 2 * k + 2]
  {
    if n > 0 {
      if carry {
        ChunksShape(u, n - 1, false, o, h - 1);
      } else {
        ChunksShape(u, n - 1, true, o, h);
      }
    }
  }

  /** Consecutive two-message slices flatten back to the stretch they cover. */
  lemma {:induction false} FlattenSlices(u: seq<Message>, o: nat, cs: seq<seq<Message>>)
    requires o + 2 * |cs| <= |u|
    requires forall k :: 0 <= k < |cs| ==> cs[k] == u[o + 2 * k..o + 2 * k + 2]
    ensures Flatten(cs) == u[o..o + 2 * |cs|]
    decreases |cs|
  {
    if cs != [] {
      assert forall k :: 0 <= k < |cs| - 1 ==> cs[1..][k] == cs[k + 1];
      FlattenSlices(u, o + 2, cs[1..]);
      assert Flatten(cs) == cs[0] + Flatten(cs[1..]);
      assert u[o..o + 2 * |cs|] == u[o..o + 2] + u[o + 2..o + 2 + 2 * |cs[1..]|];
    }
  }

  /** The functional update of `setConversationHistory` after an answer:
      the answer is appended, and when the JSON text of the new history
      (`size` characters, computed by the caller) is longer than
      `MAX_CONVERSATION_HISTORY`, the history is cut into pairs from the end
      and the FIRST five pairs are kept. */
  function PruneHistory(prev: seq<Message>, answer: Message, size: nat): (r: seq<Message>)
    ensures size <= MaxConversationHistory ==> r == prev + [answer]
  {
    var updated := prev + [answer];
    if size <= MaxConversationHistory then updated
    else Flatten(Take(Chunks(updated, |updated|, false), KeptPairs))
  }

  /** A pruned history is the OLDEST stretch of ten messages, starting at
      the first or second message so that the rest splits into pairs. */
  lemma PruneKeepsOldest(prev: seq<Message>, answer: Message, size: nat)
    requires size > MaxConversationHistory
    ensures var u := prev + [answer];
      var o := |u| % 2;
      var c := if |u| / 2 < KeptPairs then |u| / 2 else KeptPairs;
      PruneHistory(prev, answer, size) == u[o..o + 2 * c]
  {
    var u := prev + [answer];
    HalfAndRest(|u|);
    OldestPairs(u, |u| % 2, |u| / 2);
  }

  /** With `|u| == o + 2 h`, the first five pairs cut from the end of `u`
      are its `2 min(h, 5)` messages after the first `o`. */
  lemma OldestPairs(u: seq<Message>, o: nat, h: nat)
    requires o < 2 && o + 2 * h == |u|
    ensures var c := if h < KeptPairs then h else KeptPairs;
      Flatten(Take(Chunks(u, |u|, false), KeptPairs)) == u[o..o + 2 * c]
  {
    ChunksCover(u, o, h);
    FlattenSlices(u, o, Take(Chunks(u, |u|, false), KeptPairs));
  }

  /** Once the history reaches twelve messages, pruning drops the answer
      just received: the kept stretch ends before the last message. */
  lemma PruneDropsAnswer(prev: seq<Message>, answer: Message, size: nat)
    requires size > MaxConversationHistory
    requires |prev| + 1 >= 12
    ensures var u := prev + [answer];
      PruneHistory(prev, answer, size) == u[|u| % 2..|u| % 2 + 10]
      && |u| % 2 + 10 < |u|
  {
    PruneKeepsOldest(prev, answer, size);
  }

  /** The intended pruning: keep the LAST five pairs. */
  function PruneHistoryCorrected(prev: seq<Message>, answer: Message, size: nat): (r: seq<Message>)
    ensures size <= MaxConversationHistory ==> r == prev + [answer]
  {
    var updated := prev + [answer];
    if size <= MaxConversationHistory then updated
    else Flatten(TakeLast(Chunks(updated, |updated|, false), KeptPairs))
  }

  /** A suffix of the slices flattens to the end of the stretch they cover. */
  lemma SlicesSuffix(u: seq<Message>, o: nat, cs: seq<seq<Message>>, j: nat)
    requires j <= |cs| && o + 2 * |cs| == |u|
    requires forall k :: 0 <= k < |cs| ==> cs[k] == u[o + 2 * k..o + 2 * k + 2]
    ensures Flatten(cs[j..]) == u[o + 2 * j..]
  {
    var tail := cs[j..];
    forall k | 0 <= k < |tail|
      ensures tail[k] == u[o + 2 * j + 2 * k..o + 2 * j + 2 * k + 2]
    {
      assert tail[k] == cs[j + k];
    }
    FlattenSlices(u, o + 2 * j, tail);
  }

  lemma HalfAndRest(n: nat)
    ensures n % 2 + 2 * (n / 2) == n
  {
  }

  /** The corrected pruning keeps the newest stretch of up to ten messages. */
  lemma PruneKeepsNewest(prev: seq<Message>, answer: Message, size: nat)
    requires size > MaxConversationHistory
    ensures var u := prev + [answer];
      var c := if |u| / 2 < KeptPairs then |u| / 2 else KeptPairs;
      PruneHistoryCorrected(prev, answer, size) == u[|u| - 2 * c..]
  {
    var u := prev + [answer];
    HalfAndRest(|u|);
    NewestPairs(u, |u| % 2, |u| / 2);
  }

  /** With `|u| == o + 2 h`, the last five pairs cut from the end of `u`
      are its last `2 min(h, 5)` messages. */
  lemma NewestPairs(u: seq<Message>, o: nat, h: nat)
    requires o < 2 && o + 2 * h == |u|
    ensures var c := if h < KeptPairs then h else KeptPairs;
      Flatten(TakeLast(Chunks(u, |u|, false), KeptPairs)) == u[|u| - 2 * c..]
  {
    ChunksCover(u, o, h);
    NewestSlices(u, o, Chunks(u, |u|, false));
  }

  /** The pairs cut from all of `u` are its two-message slices after the
      first `o` messages. */
  lemma ChunksCover(u: seq<Message>, o: nat, h: nat)
    requires o < 2 && o + 2 * h == |u|
    ensures |Chunks(u, |u|, false)| == h && o + 2 * |Chunks(u, |u|, false)| == |u|
    ensures forall k :: 0 <= k < |Chunks(u, |u|, false)| ==> Chunks(u, |u|, false)[k] == u[o + 2 * k..o + 2 * k + 2]
  {
    ChunksShape(u, |u|, false, o, h);
  }

  lemma NewestSlices(u: seq<Message>, o: nat, cs: seq<seq<Message>>)
    requires o + 2 * |cs| == |u|
    requires forall k :: 0 <= k < |cs| ==> cs[k] == u[o + 2 * k..o + 2 * k + 2]
    ensures var c := if |cs| < KeptPairs then |cs| else KeptPairs;
      Flatten(TakeLast(cs, KeptPairs)) == u[|u| - 2 * c..]
  {
    var c := if |cs| < KeptPairs then |cs| else KeptPairs;
    var j := |cs| - c;
    assert TakeLast(cs, KeptPairs) == cs[j..];
    SlicesSuffix(u, o, cs, j);
  }

  /** A pruned history of at least two messages ends with the answer just
      received. */
  lemma PruneKeepsAnswer(prev: seq<Message>, answer: Message, size: nat)
    requires size > MaxConversationHistory
    requires |prev| >= 1
    ensures var r := PruneHistoryCorrected(prev, answer, size);
      r != [] && r[|r| - 1] == answer
  {
    PruneKeepsNewest(prev, answer, size);
  }
}

=== FILE: conversation.dfy ===
/** `LLMService._parse_conversation_context`: the conversation text the
    front end sends is read back into (user, assistant) pairs by a state
    machine over its lines. The machine remembers the role of the message
    being read, the message so far, and the pairs opened so far; a `User:`
    line opens a pair, and a message is written into the last pair when the
    next role starts or the text ends. */
module Conversation {
  import opened Wrappers
  import opened Text
  import opened Seqs

  /** `str.split(sep)` with a one-character separator: the pieces between
      separators, an empty piece where two separators meet or at an end. */
  function Split(s: string, sep: char): (r: seq<string>)
    ensures |r| >= 1
    ensures forall k :: 0 <= k < |r| ==> sep !in r[k]
    decreases |s|
  {
    if s == [] then [""]
    else if s[0] == sep then [""] + Split(s[1..], sep)
    else
      var rest := Split(s[1..], sep);
      assert forall k :: 1 <= k < |rest| ==> ([[s[0]] + rest[0]] + rest[1..])[k] == rest[k];
      [[s[0]] + rest[0]] + rest[1..]
  }

  /** Splitting and joining back with the separator gives the text. */
  lemma {:induction false} SplitJoin(s: string, sep: char)
    ensures Join([sep], Split(s, sep)) == s
    decreases |s|
  {
    if s != [] {
      var rest := Split(s[1..], sep);
      SplitJoin(s[1..], sep);
      if s[0] == sep {
        assert ([""] + rest)[1..] == rest;
      } else {
        var r := [[s[0]] + rest[0]] + rest[1..];
        assert r[1..] == rest[1..];
        if |rest| > 1 {
          assert Join([sep], rest) == rest[0] + [sep] + Join([sep], rest[1..]);
        }
      }
    }
  }

  /** Joining lines that hold no separator and splitting again gives the
      lines back. */
  lemma {:induction false} JoinSplit(lines: seq<string>, sep: char)
    requires lines != []
    requires forall k :: 0 <= k < |lines| ==> sep !in lines[k]
    ensures Split(Join([sep], lines), sep) == lines
    decreases |lines|, |lines[0]|
  {
    if |lines| == 1 {
      SplitNoSep(lines[0], sep);
    } else {
      var j := Join([sep], lines);
      if lines[0] == [] {
        assert j == [sep] + Join([sep], lines[1..]);
        assert j[1..] == Join([sep], lines[1..]);
        JoinSplit(lines[1..], sep);
        assert [""] + lines[1..] == lines;
      } else {
        var shorter := [lines[0][1..]] + lines[1..];
        assert shorter[1..] == lines[1..];
        assert j == [lines[0][0]] + Join([sep], shorter);
        assert j[1..] == Join([sep], shorter);
        JoinSplit(shorter, sep);
        assert [lines[0][0]] + shorter[0] == lines[0];
        assert [[lines[0][0]] + shorter[0]] + shorter[1..] == lines;
      }
    }
  }

  lemma {:induction false} SplitNoSep(s: string, sep: char)
    requires sep !in s
    ensures Split(s, sep) == [s]
    decreases |s|
  {
    if s != [] {
      assert s[0] != sep;
      assert sep !in s[1..];
      SplitNoSep(s[1..], sep);
      assert [s[0]] + s[1..] == s;
    }
  }

  datatype Role = UserRole | AssistantRole

  /** `{"user": ..., "assistant": ...}`. */
  datatype QA = QA(user: string, assistant: string)

  /** `current_role`, `current_message` and `qa_pairs`. */
  datatype State = State(role: Option<Role>, message: string, pairs: seq<QA>)

  const Start := State(None, "", [])

  /** `qa_pairs[-1][role] = text` on a non-empty list. */
  function SetLast(pairs: seq<QA>, role: Role, text: string): (r: seq<QA>)
    requires pairs != []
    ensures |r| == |pairs| && r[..|r| - 1] == pairs[..|pairs| - 1]
    ensures role == UserRole ==> r[|r| - 1] == pairs[|pairs| - 1].(user := text)
    ensures role == AssistantRole ==> r[|r| - 1] == pairs[|pairs| - 1].(assistant := text)
  {
    var last := pairs[|pairs| - 1];
    pairs[..|pairs| - 1] + [if role == UserRole then last.(user := text) else last.(assistant := text)]
  }

  /** One line of the loop. A `User:` line that ends an assistant message
      writes it into the last pair; with no pair opened yet, `qa_pairs[-1]`
      raises. `guarded` adds the emptiness test the `Assistant:` branch
      already has, which the line does not have as written. */
  function Step(st: State, raw: string, guarded: bool): (r: Result<State>)
    ensures guarded ==> r.Success?
  {
    var line := Strip(raw);
    if line == "" then Success(st)
    else if StartsWith(line, "User:") then
      var closed :-
        if st.role == Some(AssistantRole) && st.message != "" then
          if st.pairs == [] then
            if guarded then Success(st.pairs) else Failure("IndexError: list index out of range")
          else Success(SetLast(st.pairs, AssistantRole, Strip(st.message)))
        else Success(st.pairs);
      Success(State(Some(UserRole), Strip(line[5..]), closed + [QA("", "")]))
    else if StartsWith(line, "Assistant:") then
      var closed :=
        if st.role == Some(UserRole) && st.message != "" && st.pairs != [] then SetLast(st.pairs, UserRole, Strip(st.message))
        else st.pairs;
      Success(State(Some(AssistantRole), Strip(line[10..]), closed))
    else
      Success(st.(message := if st.message != "" then st.message + " " + line else line))
  }

  /** What one line does: it fails exactly when, unguarded, a `User:` line
      ends an assistant message with no pair open; a blank line changes
      nothing; a `User:` line opens one new empty pair; any other line keeps
      the number of pairs. */
  lemma StepEffect(st: State, raw: string, guarded: bool)
    ensures Step(st, raw, guarded).Failure? <==>
      !guarded && StartsWith(Strip(raw), "User:") && st.role == Some(AssistantRole) && st.message != "" && st.pairs == []
    ensures Strip(raw) == "" ==> Step(st, raw, guarded) == Success(st)
    ensures Step(st, raw, guarded).Success? && StartsWith(Strip(raw), "User:") ==>
      var r := Step(st, raw, guarded).value;
      r.role == Some(UserRole) && |r.pairs| == |st.pairs| + 1 && r.pairs[|st.pairs|] == QA("", "")
    ensures Step(st, raw, guarded).Success? && !StartsWith(Strip(raw), "User:") ==>
      |Step(st, raw, guarded).value.pairs| == |st.pairs|
  {
  }

  function Run(st: State, lines: seq<string>, guarded: bool): (r: Result<State>)
    ensures guarded ==> r.Success?
    decreases |lines|
  {
    if lines == [] then Success(st)
    else
      var next :- Step(st, lines[0], guarded);
      Run(next, lines[1..], guarded)
  }

  predicate Complete(qa: QA) {
    qa.user != "" && qa.assistant != ""
  }

  /** After the loop: the pending message goes into the last pair, then only
      pairs with both sides are kept. */
  function Finish(st: State): (r: seq<QA>)
    ensures forall k :: 0 <= k < |r| ==> Complete(r[k])
  {
    var pairs :=
      if st.role.Some? && st.message != "" && st.pairs != [] then SetLast(st.pairs, st.role.value, Strip(st.message))
      else st.pairs;
    var kept := Filter(pairs, Complete);
    FilterMembers(pairs, Complete);
    assert forall k :: 0 <= k < |kept| ==> kept[k] in kept;
    kept
  }

  /** `_parse_conversation_context(context)` as written: the result, or the
      `IndexError` it raises. */
  function ParseConversationContext(context: string): (r: Result<seq<QA>>)
    ensures context == "" ==> r == Success([])
    ensures r.Success? ==> forall k :: 0 <= k < |r.value| ==> Complete(r.value[k])
  {
    if context == "" then Success([])
    else
      var st :- Run(Start, Split(context, '\n'), false);
      Success(Finish(st))
  }

  /** The same with the `User:` branch guarded like the `Assistant:` one:
      it never raises. */
  function ParseConversationContextGuarded(context: string): (r: seq<QA>)
    ensures forall k :: 0 <= k < |r| ==> Complete(r[k])
  {
    if context == "" then [] else Finish(Run(Start, Split(context, '\n'), true).value)
  }

  // ------------------------------------------------------------ lemmas

  lemma StepGuardAgrees(st: State, raw: string)
    ensures Step(st, raw, false).Success? ==> Step(st, raw, false) == Step(st, raw, true)
  {
  }

  lemma {:induction false} RunGuardAgrees(st: State, lines: seq<string>)
    ensures Run(st, lines, false).Success? ==> Run(st, lines, false) == Run(st, lines, true)
    decreases |lines|
  {
    if lines != [] {
      StepGuardAgrees(st, lines[0]);
      if Step(st, lines[0], false).Success? {
        RunGuardAgrees(Step(st, lines[0], false).value, lines[1..]);
      }
    }
  }

  /** Whenever the text as written does not raise, the guarded reading gives
      the same pairs: the guard changes nothing but the raising case. */
  lemma GuardedAgrees(context: string)
    ensures ParseConversationContext(context).Success? ==>
      ParseConversationContext(context).value == ParseConversationContextGuarded(context)
  {
    if context != "" {
      RunGuardAgrees(Start, Split(context, '\n'));
    }
  }

  /** A `User:` line closes a pending assistant message and opens a pair. */
  lemma StepUser(st: State, line: string, guarded: bool)
    requires line != "" && IsStripped(line) && StartsWith(line, "User:")
    requires st.role == Some(AssistantRole) && st.message != "" ==> st.pairs != []
    ensures Step(st, line, guarded) == Success(State(Some(UserRole), Strip(line[5..]),
      (if st.role == Some(AssistantRole) && st.message != "" then SetLast(st.pairs, AssistantRole, Strip(st.message))
       else st.pairs) + [QA("", "")]))
  {
  }

  /** An `Assistant:` line closes a pending user message into the last pair. */
  lemma StepAssistant(st: State, line: string, guarded: bool)
    requires line != "" && IsStripped(line) && StartsWith(line, "Assistant:") && !StartsWith(line, "User:")
    ensures Step(st, line, guarded) == Success(State(Some(AssistantRole), Strip(line[10..]),
      if st.role == Some(UserRole) && st.message != "" && st.pairs != [] then SetLast(st.pairs, UserRole, Strip(st.message))
      else st.pairs))
  {
  }

  /** A blank line changes nothing. */
  lemma StepBlank(st: State, raw: string, guarded: bool)
    requires AllSpace(raw)
    ensures Step(st, raw, guarded) == Success(st)
  {
  }

  /** The text after a `User:` or `Assistant:` tag and its space, stripped,
      is the message itself when that is stripped and not empty. */
  lemma StripAfterSpace(t: string)
    requires t != "" && IsStripped(t)
    ensures Strip(" " + t) == t
  {
    assert LeadCount(" " + t) == 1 by {
      assert (" " + t)[1..] == t;
      assert LeadCount(t) == 0;
    }
    assert (" " + t)[1..] == t;
    assert TrailCount(t) == 0;
  }

  /** A tag ending in a space, followed by a text that is not empty and
      has no whitespace at either end: the line is stripped, starts with
      the tag, and after the tag's last visible character holds the space
      and the text. */
  lemma TaggedLine(tag: string, t: string)
    requires |tag| >= 2 && !IsSpace(tag[0]) && tag[|tag| - 1] == ' ' && t != "" && IsStripped(t)
    ensures IsStripped(tag + t) && tag + t != ""
    ensures (tag + t)[..|tag| - 1] == tag[..|tag| - 1]
    ensures Strip((tag + t)[|tag| - 1..]) == t
  {
    assert (tag + t)[0] == tag[0];
    assert (tag + t)[|tag + t| - 1] == t[|t| - 1];
    assert (tag + t)[..|tag| - 1] == tag[..|tag| - 1] by {
      assert (tag + t)[..|tag|] == tag;
    }
    assert (tag + t)[|tag| - 1..] == [tag[|tag| - 1]] + t;
    StripAfterSpace(t);
  }

  lemma UserTagged(t: string)
    requires t != "" && IsStripped(t)
    ensures var u := "User: " + t;
      u != "" && IsStripped(u) && StartsWith(u, "User:") && Strip(u[5..]) == t
  {
    TaggedLine("User: ", t);
    assert "User: "[..5] == "User:";
  }

  lemma AssistantTagged(t: string)
    requires t != "" && IsStripped(t)
    ensures var a := "Assistant: " + t;
      a != "" && IsStripped(a) && StartsWith(a, "Assistant:") && !StartsWith(a, "User:")
      && Strip(a[10..]) == t
  {
    var a := "Assistant: " + t;
    TaggedLine("Assistant: ", t);
    assert "Assistant: "[..10] == "Assistant:";
    assert a[..5] != "User:" by {
      assert a[..5][0] == a[..10][0] == 'A';
    }
  }

  /** A `User:` line ending an assistant message when no pair is open
      raises. */
  lemma StepUserRaises(st: State, line: string)
    requires line != "" && IsStripped(line) && StartsWith(line, "User:")
    requires st.role == Some(AssistantRole) && st.message != "" && st.pairs == []
    ensures Step(st, line, false).Failure?
  {
  }

  lemma RunCons(st: State, x: string, rest: seq<string>, guarded: bool)
    ensures Step(st, x, guarded).Success? ==> Run(st, [x] + rest, guarded) == Run(Step(st, x, guarded).value, rest, guarded)
    ensures Step(st, x, guarded).Failure? ==> Run(st, [x] + rest, guarded).Failure?
  {
    assert ([x] + rest)[0] == x && ([x] + rest)[1..] == rest;
  }

  /** The two lines of an assistant message followed by a question. */
  lemma TwoLines(a: string, q: string)
    requires '\n' !in a && '\n' !in q
    ensures Split("Assistant: " + a + "\n" + "User: " + q, '\n') == ["Assistant: " + a, "User: " + q]
  {
    var l1, l2 := "Assistant: " + a, "User: " + q;
    assert Join("\n", [l1, l2]) == "Assistant: " + a + "\n" + "User: " + q by {
      assert [l1, l2][1..] == [l2];
    }
    assert '\n' !in l1 && '\n' !in l2;
    JoinSplit([l1, l2], '\n');
  }

  /** An assistant message before the first `User:` line makes the next
      `User:` line raise: `qa_pairs[-1]` on an empty list. */
  lemma AssistantFirstRaises(a: string, q: string)
    requires a != "" && IsStripped(a) && '\n' !in a
    requires q != "" && IsStripped(q) && '\n' !in q
    ensures ParseConversationContext("Assistant: " + a + "\n" + "User: " + q).Failure?
  {
    var l1, l2 := "Assistant: " + a, "User: " + q;
    var context := "Assistant: " + a + "\n" + "User: " + q;
    TwoLines(a, q);
    AssistantTagged(a);
    UserTagged(q);
    RaisesOnLines(l1, l2, a);
    assert context != "" by {
      assert context[0] == 'A';
    }
    ParseRaises(context);
  }

  lemma RaisesOnLines(l1: string, l2: string, a: string)
    requires l1 != "" && IsStripped(l1) && StartsWith(l1, "Assistant:") && !StartsWith(l1, "User:")
    requires Strip(l1[10..]) == a && a != ""
    requires l2 != "" && IsStripped(l2) && StartsWith(l2, "User:")
    ensures Run(Start, [l1, l2], false).Failure?
  {
    StepAssistant(Start, l1, false);
    var st := State(Some(AssistantRole), a, []);
    StepUserRaises(st, l2);
    RunCons(st, l2, [], false);
    assert [l2] + [] == [l2];
    RunCons(Start, l1, [l2], false);
    assert [l1] + [l2] == [l1, l2];
  }

  lemma ParseRaises(context: string)
    requires context != "" && Run(Start, Split(context, '\n'), false).Failure?
    ensures ParseConversationContext(context).Failure?
  {
  }

  /** A line that is neither blank nor tagged continues the current message. */
  predicate Continuation(line: string) {
    line != "" && IsStripped(line) && !StartsWith(line, "User:") && !StartsWith(line, "Assistant:")
  }

  lemma JoinSplitFirst(sep: string, x: string, y: string, rest: seq<string>)
    ensures Join(sep, [x + sep + y] + rest) == Join(sep, [x, y] + rest)
  {
    if rest != [] {
      assert ([x + sep + y] + rest)[1..] == rest;
      assert ([x, y] + rest)[1..] == [y] + rest;
      assert ([y] + rest)[1..] == rest;
    }
  }

  /** Continuation lines after a message are appended to it, each after a
      single space. */
  lemma {:induction false} ContinuationJoined(st: State, cs: seq<string>, guarded: bool)
    requires st.message != ""
    requires forall k :: 0 <= k < |cs| ==> Continuation(cs[k])
    ensures Run(st, cs, guarded) == Success(st.(message := Join(" ", [st.message] + cs)))
    decreases |cs|
  {
    if cs != [] {
      var next := st.(message := st.message + " " + cs[0]);
      assert Step(st, cs[0], guarded) == Success(next);
      ContinuationJoined(next, cs[1..], guarded);
      JoinSplitFirst(" ", st.message, cs[0], cs[1..]);
      assert [st.message, cs[0]] + cs[1..] == [st.message] + cs;
    }
  }
}

=== FILE: cv_mapping.dfy ===
/** `LLMService._cv_from_json`: the mapping of the language model's decoded
    JSON answer onto the CV records, with the validation the record classes
    apply to each field. `dateparser.parse` is the parameter `parseDate`, and
    the conversion of a numeric string into a GPA is `parseNumber`; a Python
    exception raised anywhere in the mapping is a `Failure`. */
module CvMapping {
  import opened Wrappers
  import opened Text
  import opened JsonValues
  import opened Documents
  import opened Seqs

  const KeyPersonal := "personal_information"
  const KeyEducation := "education"
  const KeyWork := "work_experience"
  const KeySkills := "skills"
  const KeyProjects := "projects"
  const KeyCertifications := "certifications"

  /** The top-level keys the mapping tests, in the order it tests them. */
  const CvKeys := [KeyPersonal, KeyEducation, KeyWork, KeySkills, KeyProjects, KeyCertifications]

  // ------------------------------------------------------ field validation

  /** An `Optional[str]` field given `d.get(key)`: absent or null is None,
      a string is kept, anything else fails validation. */
  function OptStr(v: Option<Json>): (r: Result<Option<string>>)
    ensures r.Success? <==> v.None? || v.value.JNull? || v.value.JString?
    ensures r.Success? && r.value.Some? ==> v == Some(JString(r.value.value))
  {
    match v
    case None => Success(None)
    case Some(JNull) => Success(None)
    case Some(JString(s)) => Success(Some(s))
    case Some(_) => Failure("validation error: expected a string")
  }

  /** A required `str` field given `d.get(key)`: only a string passes. */
  function ReqStr(v: Option<Json>): (r: Result<string>)
    ensures r.Success? <==> v.Some? && v.value.JString?
    ensures r.Success? ==> v == Some(JString(r.value))
  {
    match v
    case Some(JString(s)) => Success(s)
    case _ => Failure("validation error: a string is required")
  }

  /** `Optional[float]` in lax mode: numbers and booleans convert, a string
      converts when `parseNumber` reads it as a number. */
  function Gpa(v: Option<Json>, parseNumber: string -> Option<real>): (r: Result<Option<real>>)
    ensures v.None? || v.value.JNull? ==> r == Success(None)
    ensures v.Some? && v.value.JNumber? ==> r == Success(Some(v.value.n))
    ensures v.Some? && (v.value.JArray? || v.value.JObject?) ==> r.Failure?
  {
    match v
    case None => Success(None)
    case Some(JNull) => Success(None)
    case Some(JNumber(n)) => Success(Some(n))
    case Some(JBool(b)) => Success(Some(if b then 1.0 else 0.0))
    case Some(JString(s)) =>
      (match parseNumber(s)
       case Some(x) => Success(Some(x))
       case None => Failure("validation error: not a number"))
    case Some(_) => Failure("validation error: not a number")
  }

  /** `if key in d and d[key]: field = dateparser.parse(d[key])`: a falsy or
      missing value leaves the date None, a string goes to the date parser,
      and any other value makes the parser raise. */
  function DateField(members: seq<(string, Json)>, key: string, parseDate: string -> Option<Date>): (r: Result<Option<Date>>)
    ensures !HasTruthy(members, key) ==> r == Success(None)
    ensures HasTruthy(members, key) && Get(members, key).value.JString? ==>
      r == Success(parseDate(Get(members, key).value.s))
    ensures HasTruthy(members, key) && !Get(members, key).value.JString? ==> r.Failure?
  {
    if !HasTruthy(members, key) then Success(None)
    else
      match Get(members, key).value
      case JString(s) => Success(parseDate(s))
      case _ => Failure("TypeError: input type must be str")
  }

  /** A JSON list of strings, as the `List[str]` fields hold it. */
  function StrList(j: Json): (r: Result<seq<string>>)
    ensures r.Success? <==> j.JArray? && forall i :: 0 <= i < |j.items| ==> j.items[i].JString?
    ensures r.Success? ==> (|r.value| == |j.items| &&
      forall i :: 0 <= i < |r.value| ==> j.items[i] == JString(r.value[i]))
  {
    match j
    case JArray(items) =>
      var r := MapAll(items, (x: Json) => ReqStr(Some(x)));
      r
    case _ => Failure("validation error: expected a list of strings")
  }

  /** A list field that is set only when the key is present with a truthy
      value, in which case that value must be a list of strings. */
  function ListField(members: seq<(string, Json)>, key: string): (r: Result<seq<string>>)
    ensures !HasTruthy(members, key) ==> r == Success([])
    ensures HasTruthy(members, key) ==> r == StrList(Get(members, key).value)
  {
    if HasTruthy(members, key) then StrList(Get(members, key).value) else Success([])
  }

  /** `[f(x) for x in items]` where `f` may raise: the first failure wins,
      otherwise every item is mapped in order. */
  function MapAll<T>(items: seq<Json>, f: Json -> Result<T>): (r: Result<seq<T>>)
    ensures r.Success? <==> forall i :: 0 <= i < |items| ==> f(items[i]).Success?
    ensures r.Success? ==> (|r.value| == |items| &&
      forall i :: 0 <= i < |items| ==> r.value[i] == f(items[i]).value)
  {
    if items == [] then Success([])
    else
      match f(items[0])
      case Failure(e) => Failure(e)
      case Success(x) =>
        match MapAll(items[1..], f)
        case Failure(e) =>
          Failure(e)
        case Success(xs) =>
          Success([x] + xs)
  }

  // ------------------------------------------------------- the sections

  /** `PersonalInfo(name=personal.get('name'), ...)`: the value must be a
      dict, and each of the seven fields absent, null or a string. */
  function PersonalFromJson(j: Json): (r: Result<PersonalInfo>)
    ensures !j.JObject? ==> r.Failure?
    ensures j.JObject? ==> (r.Success? <==>
      && OptStr(Get(j.members, "name")).Success? && OptStr(Get(j.members, "email")).Success?
      && OptStr(Get(j.members, "phone")).Success? && OptStr(Get(j.members, "location")).Success?
      && OptStr(Get(j.members, "linkedin")).Success? && OptStr(Get(j.members, "github")).Success?
      && OptStr(Get(j.members, "website")).Success?)
    ensures r.Success? ==> OptStr(Get(j.members, "name")) == Success(r.value.name)
    ensures r.Success? ==> OptStr(Get(j.members, "email")) == Success(r.value.email)
    ensures r.Success? ==> OptStr(Get(j.members, "phone")) == Success(r.value.phone)
    ensures r.Success? ==> OptStr(Get(j.members, "location")) == Success(r.value.location)
    ensures r.Success? ==> OptStr(Get(j.members, "linkedin")) == Success(r.value.linkedin)
    ensures r.Success? ==> OptStr(Get(j.members, "github")) == Success(r.value.github)
    ensures r.Success? ==> OptStr(Get(j.members, "website")) == Success(r.value.website)
    ensures j == JObject([]) ==> r == Success(NewPersonalInfo())
  {
    match j
    case JObject(ms) =>
      var name :- OptStr(Get(ms, "name"));
      var email :- OptStr(Get(ms, "email"));
      var phone :- OptStr(Get(ms, "phone"));
      var location :- OptStr(Get(ms, "location"));
      var linkedin :- OptStr(Get(ms, "linkedin"));
      var github :- OptStr(Get(ms, "github"));
      var website :- OptStr(Get(ms, "website"));
      Success(PersonalInfo(name, email, phone, location, linkedin, github, website))
    case _ => Failure("AttributeError: object has no attribute 'get'")
  }

  /** One education entry. The degree is passed explicitly, so a missing
      degree is None rather than the class default; the description is
      never read from the answer. */
  function EducationFromJson(j: Json, parseDate: string -> Option<Date>, parseNumber: string -> Option<real>): (r: Result<Education>)
    ensures !j.JObject? ==> r.Failure?
    ensures r.Success? ==> r.value.description.None?
    ensures r.Success? && !Has(j.members, "degree") ==> r.value.degree.None?
    ensures r.Success? ==> OptStr(Get(j.members, "institution")) == Success(r.value.institution)
    ensures r.Success? ==> OptStr(Get(j.members, "degree")) == Success(r.value.degree)
    ensures r.Success? ==> OptStr(Get(j.members, "field_of_study")) == Success(r.value.fieldOfStudy)
    ensures r.Success? ==> Gpa(Get(j.members, "gpa"), parseNumber) == Success(r.value.gpa)
    ensures r.Success? ==> DateField(j.members, "start_date", parseDate) == Success(r.value.startDate)
    ensures r.Success? ==> DateField(j.members, "end_date", parseDate) == Success(r.value.endDate)
  {
    match j
    case JObject(ms) =>
      var institution :- OptStr(Get(ms, "institution"));
      var degree :- OptStr(Get(ms, "degree"));
      var field :- OptStr(Get(ms, "field_of_study"));
      var gpa :- Gpa(Get(ms, "gpa"), parseNumber);
      var start :- DateField(ms, "start_date", parseDate);
      var end :- DateField(ms, "end_date", parseDate);
      Success(Education(institution, degree, field, start, end, gpa, None))
    case _ => Failure("AttributeError: object has no attribute 'get'")
  }

  /** One work entry: company and position are required strings. */
  function WorkFromJson(j: Json, parseDate: string -> Option<Date>): (r: Result<WorkExperience>)
    ensures !j.JObject? ==> r.Failure?
    ensures j.JObject? && (ReqStr(Get(j.members, "company")).Failure? || ReqStr(Get(j.members, "position")).Failure?) ==> r.Failure?
    ensures r.Success? ==> Get(j.members, "company") == Some(JString(r.value.company))
    ensures r.Success? ==> Get(j.members, "position") == Some(JString(r.value.position))
    ensures r.Success? && !HasTruthy(j.members, "highlights") ==> r.value.highlights == []
    ensures r.Success? ==> OptStr(Get(j.members, "location")) == Success(r.value.location)
    ensures r.Success? ==> OptStr(Get(j.members, "description")) == Success(r.value.description)
    ensures r.Success? ==> DateField(j.members, "start_date", parseDate) == Success(r.value.startDate)
    ensures r.Success? ==> DateField(j.members, "end_date", parseDate) == Success(r.value.endDate)
    ensures r.Success? ==> ListField(j.members, "highlights") == Success(r.value.highlights)
  {
    match j
    case JObject(ms) =>
      var company :- ReqStr(Get(ms, "company"));
      var position :- ReqStr(Get(ms, "position"));
      var location :- OptStr(Get(ms, "location"));
      var description :- OptStr(Get(ms, "description"));
      var start :- DateField(ms, "start_date", parseDate);
      var end :- DateField(ms, "end_date", parseDate);
      var highlights :- ListField(ms, "highlights");
      Success(WorkExperience(company, position, start, end, location, description, highlights))
    case _ => Failure("AttributeError: object has no attribute 'get'")
  }

  /** One project entry: the name is a required string. */
  function ProjectFromJson(j: Json, parseDate: string -> Option<Date>): (r: Result<Project>)
    ensures !j.JObject? ==> r.Failure?
    ensures r.Success? ==> Get(j.members, "name") == Some(JString(r.value.name))
    ensures r.Success? && !HasTruthy(j.members, "technologies") ==> r.value.technologies == []
    ensures r.Success? ==> ListField(j.members, "technologies") == Success(r.value.technologies)
    ensures r.Success? ==> OptStr(Get(j.members, "description")) == Success(r.value.description)
    ensures r.Success? ==> OptStr(Get(j.members, "url")) == Success(r.value.url)
    ensures r.Success? ==> DateField(j.members, "start_date", parseDate) == Success(r.value.startDate)
    ensures r.Success? ==> DateField(j.members, "end_date", parseDate) == Success(r.value.endDate)
  {
    match j
    case JObject(ms) =>
      var name :- ReqStr(Get(ms, "name"));
      var description :- OptStr(Get(ms, "description"));
      var url :- OptStr(Get(ms, "url"));
      var technologies :- ListField(ms, "technologies");
      var start :- DateField(ms, "start_date", parseDate);
      var end :- DateField(ms, "end_date", parseDate);
      Success(Project(name, description, technologies, start, end, url))
    case _ => Failure("AttributeError: object has no attribute 'get'")
  }

  /** One certification entry: the name is a required string. */
  function CertificationFromJson(j: Json, parseDate: string -> Option<Date>): (r: Result<Certification>)
    ensures !j.JObject? ==> r.Failure?
    ensures r.Success? ==> Get(j.members, "name") == Some(JString(r.value.name))
    ensures r.Success? ==> OptStr(Get(j.members, "issuer")) == Success(r.value.issuer)
    ensures r.Success? ==> OptStr(Get(j.members, "url")) == Success(r.value.url)
    ensures r.Success? ==> DateField(j.members, "date", parseDate) == Success(r.value.date)
    ensures r.Success? ==> DateField(j.members, "expiration_date", parseDate) == Success(r.value.expirationDate)
  {
    match j
    case JObject(ms) =>
      var name :- ReqStr(Get(ms, "name"));
      var issuer :- OptStr(Get(ms, "issuer"));
      var url :- OptStr(Get(ms, "url"));
      var date :- DateField(ms, "date", parseDate);
      var expiration :- DateField(ms, "expiration_date", parseDate);
      Success(Certification(name, issuer, date, expiration, url))
    case _ => Failure("AttributeError: object has no attribute 'get'")
  }

  /** A collection section: kept at its default `[]` unless the key is
      present and truthy; a truthy value must then be a list whose every
      item maps. A truthy string or dict is iterated item by item and its
      first item, a `str`, has no `get`, so it fails too. */
  function Section<T>(members: seq<(string, Json)>, key: string, f: Json -> Result<T>): (r: Result<seq<T>>)
    ensures !HasTruthy(members, key) ==> r == Success([])
    ensures HasTruthy(members, key) && !Get(members, key).value.JArray? ==> r.Failure?
    ensures HasTruthy(members, key) && Get(members, key).value.JArray? ==>
      r == MapAll(Get(members, key).value.items, f)
  {
    if !HasTruthy(members, key) then Success([])
    else
      match Get(members, key).value
      case JArray(items) => MapAll(items, f)
      case _ => Failure("AttributeError: 'str' object has no attribute 'get'")
  }

  // ------------------------------------------------------------- skills

  /** The skill is a name listed, as a string, under its own category of
      dict-form skills, and has no level. */
  predicate ListedUnder(members: seq<(string, Json)>, s: Skill) {
    && s.level.None?
    && s.category.Some?
    && exists i :: 0 <= i < |members| && members[i].0 == s.category.value &&
         members[i].1.JArray? && JString(s.name) in members[i].1.items
  }

  lemma ListedUnderShift(members: seq<(string, Json)>, s: Skill)
    requires members != [] && ListedUnder(members[1..], s)
    ensures ListedUnder(members, s)
  {
    var i :| 0 <= i < |members[1..]| && members[1..][i].0 == s.category.value &&
         members[1..][i].1.JArray? && JString(s.name) in members[1..][i].1.items;
    assert members[i + 1] == members[1..][i];
  }

  /** The skills one category of the dict form contributes: its names, in
      order, filed under it, when its value is a list; nothing otherwise. */
  function CategorySkills(category: string, value: Json): (r: Result<seq<Skill>>)
    ensures value.JArray? ==> (r.Success? <==> StrList(value).Success?)
    ensures !value.JArray? ==> r == Success([])
    ensures r.Success? ==> forall k :: 0 <= k < |r.value| ==>
      (r.value[k].category == Some(category) && r.value[k].level.None? &&
       value.JArray? && JString(r.value[k].name) in value.items)
    ensures r.Success? && value.JArray? ==> (|r.value| == |value.items| &&
      forall k :: 0 <= k < |r.value| ==>
        value.items[k] == JString(r.value[k].name) && r.value[k] == Skill(r.value[k].name, Some(category), None))
  {
    match value
    case JArray(items) =>
      var names :- StrList(value);
      var here := seq(|names|, k requires 0 <= k < |names| => Skill(names[k], Some(category), None));
      assert forall k :: 0 <= k < |names| ==> items[k] == JString(here[k].name);
      Success(here)
    case _ => Success([])
  }

  /** Dict-form skills `{category: [names]}`: every list-valued category
      contributes its names in order with that category; other values are
      skipped; a name that is not a string fails validation. */
  function SkillsFromDict(members: seq<(string, Json)>): (r: Result<seq<Skill>>)
    ensures r.Success? <==> forall i :: 0 <= i < |members| && members[i].1.JArray? ==> StrList(members[i].1).Success?
    ensures r.Success? ==> forall k :: 0 <= k < |r.value| ==> ListedUnder(members, r.value[k])
  {
    if members == [] then Success([])
    else
      assert forall i :: 0 <= i < |members[1..]| ==> members[1..][i] == members[i + 1];
      var here :- CategorySkills(members[0].0, members[0].1);
      var rest :- SkillsFromDict(members[1..]);
      assert forall k :: 0 <= k < |here + rest| ==> ListedUnder(members, (here + rest)[k]) by {
        forall k | 0 <= k < |here + rest| ensures ListedUnder(members, (here + rest)[k]) {
          if k >= |here| {
            assert (here + rest)[k] == rest[k - |here|];
            ListedUnderShift(members, rest[k - |here|]);
          }
        }
      }
      Success(here + rest)
  }

  /** Every list value of a dict holds only strings: the dicts whose skills
      validate. */
  predicate StringLists(members: seq<(string, Json)>) {
    forall i :: 0 <= i < |members| && members[i].1.JArray? ==> StrList(members[i].1).Success?
  }

  /** The loop body for one `category, skills` pair:
      `for skill_name in skills: Skill(name=skill_name, category=category)`
      when `skills` is a list, nothing otherwise. */
  function ListedSkills(category: string, value: Json): seq<Skill>
    requires value.JArray? ==> StrList(value).Success?
  {
    match value
    case JArray(items) =>
      var names := StrList(value).value;
      seq(|names|, k requires 0 <= k < |names| => Skill(names[k], Some(category), None))
    case _ => []
  }

  /** The skills of a dict, pair after pair, as the nested loop appends
      them. */
  function DictSkills(members: seq<(string, Json)>): seq<Skill>
    requires StringLists(members)
  {
    Flatten(seq(|members|, i requires 0 <= i < |members| => ListedSkills(members[i].0, members[i].1)))
  }

  /** Dict-form skills read every listed name, in order, under its own
      category, and nothing else. */
  lemma {:induction false} SkillsFromDictListed(members: seq<(string, Json)>)
    ensures SkillsFromDict(members).Success? <==> StringLists(members)
    ensures SkillsFromDict(members).Success? ==> SkillsFromDict(members).value == DictSkills(members)
  {
    if members != [] && StringLists(members) {
      var tail := members[1..];
      assert forall i :: 0 <= i < |tail| ==> tail[i] == members[i + 1];
      SkillsFromDictListed(tail);
      var here := CategorySkills(members[0].0, members[0].1);
      assert here.value == ListedSkills(members[0].0, members[0].1);
      var xss := seq(|members|, i requires 0 <= i < |members| => ListedSkills(members[i].0, members[i].1));
      var yss := seq(|tail|, i requires 0 <= i < |tail| => ListedSkills(tail[i].0, tail[i].1));
      assert xss[1..] == yss;
      assert DictSkills(members) == xss[0] + Flatten(xss[1..]);
    }
  }

  /** A dict with no list-valued category holds no skills. */
  lemma {:induction false} SkillsFromDictNoLists(members: seq<(string, Json)>)
    requires forall i :: 0 <= i < |members| ==> !members[i].1.JArray?
    ensures SkillsFromDict(members) == Success([])
  {
    if members != [] {
      assert forall i :: 0 <= i < |members[1..]| ==> members[1..][i] == members[i + 1];
      SkillsFromDictNoLists(members[1..]);
      assert CategorySkills(members[0].0, members[0].1) == Success([]);
      var none: seq<Skill> := [];
      assert none + none == none;
    }
  }

  /** An item of list-form skills that the mapping keeps: a string, or an
      object with a `name`. */
  predicate KeptSkillItem(j: Json) {
    j.JString? || (j.JObject? && Has(j.members, "name"))
  }

  /** The skill a kept item gives: a string is a bare name; an object needs
      a string `name` and an optional string `category`. */
  function SkillOfItem(j: Json): (r: Result<Skill>)
    requires KeptSkillItem(j)
    ensures j.JString? ==> r == Success(NewSkill(j.s))
    ensures r.Success? ==> r.value.level.None?
    ensures j.JObject? && r.Success? ==> Get(j.members, "name") == Some(JString(r.value.name))
  {
    match j
    case JString(s) => Success(NewSkill(s))
    case JObject(ms) =>
      var name :- ReqStr(Get(ms, "name"));
      var category :- OptStr(Get(ms, "category"));
      Success(Skill(name, category, None))
  }

  /** List-form skills: kept items map in order, every other item is
      dropped. */
  function SkillsFromList(items: seq<Json>): (r: Result<seq<Skill>>)
    ensures r.Success? <==> forall i :: 0 <= i < |items| && KeptSkillItem(items[i]) ==> SkillOfItem(items[i]).Success?
    ensures r.Success? ==> |r.value| <= |items|
    ensures r.Success? ==> forall k :: 0 <= k < |r.value| ==> r.value[k].level.None?
    ensures (forall i :: 0 <= i < |items| ==> items[i].JString?) ==>
      (r.Success? && |r.value| == |items| && forall i :: 0 <= i < |items| ==> r.value[i] == NewSkill(items[i].s))
    ensures (forall i :: 0 <= i < |items| ==> !KeptSkillItem(items[i])) ==> r == Success([])
  {
    if items == [] then Success([])
    else
      var rest := SkillsFromList(items[1..]);
      assert forall i :: 0 <= i < |items[1..]| ==> items[1..][i] == items[i + 1];
      if !KeptSkillItem(items[0]) then rest
      else
        match SkillOfItem(items[0])
        case Failure(e) => Failure(e)
        case Success(s) =>
          match rest
          case Failure(e) => Failure(e)
          case Success(skills) =>
            assert forall k :: 0 < k < |skills| + 1 ==> ([s] + skills)[k] == skills[k - 1];
            Success([s] + skills)
  }

  /** `skills` are, in order, the skills of the items `kept`, one each. */
  predicate SkillsOfKept(kept: seq<Json>, skills: seq<Skill>) {
    |skills| == |kept| &&
    forall k :: 0 <= k < |skills| ==> KeptSkillItem(kept[k]) && SkillOfItem(kept[k]) == Success(skills[k])
  }

  /** A successful list yields, in order, one skill per kept item and
      nothing for the dropped ones. */
  lemma {:induction false} SkillsFromListKept(items: seq<Json>)
    ensures SkillsFromList(items).Success? ==> SkillsOfKept(Filter(items, KeptSkillItem), SkillsFromList(items).value)
  {
    if items != [] {
      SkillsFromListKept(items[1..]);
      var kept := Filter(items[1..], KeptSkillItem);
      assert items == [items[0]] + items[1..];
      FilterCons(items[0], items[1..], KeptSkillItem);
      var r := SkillsFromList(items);
      if !KeptSkillItem(items[0]) {
        assert Filter(items, KeptSkillItem) == kept;
        assert r == SkillsFromList(items[1..]);
      } else if r.Success? {
        assert Filter(items, KeptSkillItem) == [items[0]] + kept;
        var s := SkillOfItem(items[0]).value;
        assert r.value == [s] + SkillsFromList(items[1..]).value;
        SkillsOfKeptCons(items[0], kept, s, SkillsFromList(items[1..]).value);
      }
    }
  }

  lemma SkillsOfKeptCons(x: Json, kept: seq<Json>, s: Skill, skills: seq<Skill>)
    requires KeptSkillItem(x) && SkillOfItem(x) == Success(s)
    requires SkillsOfKept(kept, skills)
    ensures SkillsOfKept([x] + kept, [s] + skills)
  {
    forall k | 0 < k < |skills| + 1
      ensures KeptSkillItem(([x] + kept)[k]) && SkillOfItem(([x] + kept)[k]) == Success(([s] + skills)[k])
    {
      assert ([s] + skills)[k] == skills[k - 1];
      assert ([x] + kept)[k] == kept[k - 1];
    }
  }

  /** The `skills` value: a dict or a list as above; any other truthy value
      leaves the skills empty. */
  function SkillsFromJson(j: Json): (r: Result<seq<Skill>>)
    ensures !j.JObject? && !j.JArray? ==> r == Success([])
    ensures j.JObject? ==> r == SkillsFromDict(j.members)
    ensures j.JArray? ==> r == SkillsFromList(j.items)
  {
    match j
    case JObject(ms) => SkillsFromDict(ms)
    case JArray(items) => SkillsFromList(items)
    case _ => Success([])
  }

  // ------------------------------------------------------ the whole CV

  /** Python's `key in value` for a value that is not a dict: membership for
      a list, substring for a string, a TypeError for anything else. */
  function PyIn(j: Json, key: string): (r: Result<bool>)
    requires !j.JObject?
    ensures r.Success? <==> j.JArray? || j.JString?
  {
    match j
    case JArray(items) => Success(JString(key) in items)
    case JString(s) => Success(Contains(s, key))
    case _ => Failure("TypeError: argument of type is not iterable")
  }

  /** A value that is not a dict: every key test passes through `in`; a key
      found is then subscripted with a string, which raises. */
  function FromNonObject(raw: string, j: Json, keys: seq<string>): (r: Result<ParsedCV>)
    requires !j.JObject?
    ensures r.Success? <==> (j.JArray? || j.JString?) && forall i :: 0 <= i < |keys| ==> PyIn(j, keys[i]) == Success(false)
    ensures r.Success? ==> r.value == NewParsedCV(raw)
  {
    if keys == [] then
      if j.JArray? || j.JString? then Success(NewParsedCV(raw)) else Failure("TypeError: argument of type is not iterable")
    else
      match PyIn(j, keys[0])
      case Failure(e) => Failure(e)
      case Success(true) => Failure("TypeError: indices must be integers")
      case Success(false) =>
        var r := FromNonObject(raw, j, keys[1..]);
        assert forall i :: 0 <= i < |keys[1..]| ==> keys[1..][i] == keys[i + 1];
        r
  }

  function FromObject(raw: string, ms: seq<(string, Json)>, parseDate: string -> Option<Date>, parseNumber: string -> Option<real>): (r: Result<ParsedCV>)
  {
    var personal :- if Has(ms, KeyPersonal) then PersonalFromJson(Get(ms, KeyPersonal).value) else Success(NewPersonalInfo());
    var education :- Section(ms, KeyEducation, (e: Json) => EducationFromJson(e, parseDate, parseNumber));
    var work :- Section(ms, KeyWork, (w: Json) => WorkFromJson(w, parseDate));
    var skills :- if HasTruthy(ms, KeySkills) then SkillsFromJson(Get(ms, KeySkills).value) else Success([]);
    var projects :- Section(ms, KeyProjects, (p: Json) => ProjectFromJson(p, parseDate));
    var certifications :- Section(ms, KeyCertifications, (c: Json) => CertificationFromJson(c, parseDate));
    Success(ParsedCV(None, personal, education, work, skills, projects, certifications, raw, None))
  }

  /** `_cv_from_json(raw_text, json_data)`. */
  function CvFromJson(raw: string, j: Json, parseDate: string -> Option<Date>, parseNumber: string -> Option<real>): (r: Result<ParsedCV>)
    ensures r.Success? ==> r.value.rawText == raw && r.value.id.None? && r.value.embedding.None?
    ensures !j.JObject? ==> (r.Success? <==> (j.JArray? || j.JString?) && forall i :: 0 <= i < |CvKeys| ==> PyIn(j, CvKeys[i]) == Success(false))
    ensures !j.JObject? && r.Success? ==> r.value == NewParsedCV(raw)
    ensures j.JObject? && !Has(j.members, KeyPersonal) && r.Success? ==> r.value.personalInfo == NewPersonalInfo()
    ensures j.JObject? && Has(j.members, KeyPersonal) && !Get(j.members, KeyPersonal).value.JObject? ==> r.Failure?
    ensures j.JObject? && !HasTruthy(j.members, KeyEducation) && r.Success? ==> r.value.education == []
    ensures j.JObject? && !HasTruthy(j.members, KeyWork) && r.Success? ==> r.value.workExperience == []
    ensures j.JObject? && !HasTruthy(j.members, KeySkills) && r.Success? ==> r.value.skills == []
    ensures j.JObject? && !HasTruthy(j.members, KeyProjects) && r.Success? ==> r.value.projects == []
    ensures j.JObject? && !HasTruthy(j.members, KeyCertifications) && r.Success? ==> r.value.certifications == []
    ensures j.JObject? && HasTruthy(j.members, KeySkills) && r.Success? ==> Success(r.value.skills) == SkillsFromJson(Get(j.members, KeySkills).value)
    ensures j.JObject? && Has(j.members, KeyPersonal) && r.Success? ==>
      PersonalFromJson(Get(j.members, KeyPersonal).value) == Success(r.value.personalInfo)
    ensures j.JObject? && r.Success? ==>
      Section(j.members, KeyEducation, (e: Json) => EducationFromJson(e, parseDate, parseNumber)) == Success(r.value.education)
    ensures j.JObject? && r.Success? ==>
      Section(j.members, KeyWork, (w: Json) => WorkFromJson(w, parseDate)) == Success(r.value.workExperience)
    ensures j.JObject? && r.Success? ==>
      Section(j.members, KeyProjects, (p: Json) => ProjectFromJson(p, parseDate)) == Success(r.value.projects)
    ensures j.JObject? && r.Success? ==>
      Section(j.members, KeyCertifications, (c: Json) => CertificationFromJson(c, parseDate)) == Success(r.value.certifications)
    ensures j == JObject([]) ==> r == Success(NewParsedCV(raw))
  {
    match j
    case JObject(ms) => FromObject(raw, ms, parseDate, parseNumber)
    case _ => FromNonObject(raw, j, CvKeys)
  }

  // ------------------------------------- writing a CV as accepted JSON

  /** `formatDate` writes every date as a non-empty text that `parseDate`
      reads back to the same date. */
  ghost predicate DateCodec(parseDate: string -> Option<Date>, formatDate: Date -> string) {
    forall d :: formatDate(d) != "" && parseDate(formatDate(d)) == Some(d)
  }

  function OptJson(o: Option<string>): Json {
    match o
    case Some(s) => JString(s)
    case None => JNull
  }

  function DateJson(o: Option<Date>, formatDate: Date -> string): Json {
    match o
    case Some(d) => JString(formatDate(d))
    case None => JNull
  }

  function GpaJson(o: Option<real>): Json {
    match o
    case Some(g) => JNumber(g)
    case None => JNull
  }

  function Encode<T>(xs: seq<T>, enc: T -> Json): (r: Json)
    ensures r.JArray? && |r.items| == |xs|
    ensures forall i :: 0 <= i < |xs| ==> r.items[i] == enc(xs[i])
  {
    JArray(seq(|xs|, i requires 0 <= i < |xs| => enc(xs[i])))
  }

  function PersonalToJson(p: PersonalInfo): Json {
    JObject([("name", OptJson(p.name)), ("email", OptJson(p.email)), ("phone", OptJson(p.phone)),
             ("location", OptJson(p.location)), ("linkedin", OptJson(p.linkedin)),
             ("github", OptJson(p.github)), ("website", OptJson(p.website))])
  }

  function EducationToJson(e: Education, formatDate: Date -> string): Json {
    JObject([("institution", OptJson(e.institution)), ("degree", OptJson(e.degree)),
             ("field_of_study", OptJson(e.fieldOfStudy)), ("gpa", GpaJson(e.gpa)),
             ("start_date", DateJson(e.startDate, formatDate)), ("end_date", DateJson(e.endDate, formatDate))])
  }

  function WorkToJson(w: WorkExperience, formatDate: Date -> string): Json {
    JObject([("company", JString(w.company)), ("position", JString(w.position)),
             ("location", OptJson(w.location)), ("description", OptJson(w.description)),
             ("start_date", DateJson(w.startDate, formatDate)), ("end_date", DateJson(w.endDate, formatDate)),
             ("highlights", Encode(w.highlights, (h: string) => JString(h)))])
  }

  function ProjectToJson(p: Project, formatDate: Date -> string): Json {
    JObject([("name", JString(p.name)), ("description", OptJson(p.description)), ("url", OptJson(p.url)),
             ("technologies", Encode(p.technologies, (t: string) => JString(t))),
             ("start_date", DateJson(p.startDate, formatDate)), ("end_date", DateJson(p.endDate, formatDate))])
  }

  function CertificationToJson(c: Certification, formatDate: Date -> string): Json {
    JObject([("name", JString(c.name)), ("issuer", OptJson(c.issuer)), ("url", OptJson(c.url)),
             ("date", DateJson(c.date, formatDate)), ("expiration_date", DateJson(c.expirationDate, formatDate))])
  }

  function SkillToJson(s: Skill): Json {
    JObject([("name", JString(s.name)), ("category", OptJson(s.category))])
  }

  /** A CV written as JSON that `_cv_from_json` accepts: the section keys
      of the parsing prompt, with skills as a list of objects and the GPA
      as a number (the prompt itself shows skills as a dict and the GPA as
      a string). */
  function CvToJson(cv: ParsedCV, formatDate: Date -> string): Json {
    JObject([(KeyPersonal, PersonalToJson(cv.personalInfo)),
             (KeyEducation, Encode(cv.education, (e: Education) => EducationToJson(e, formatDate))),
             (KeyWork, Encode(cv.workExperience, (w: WorkExperience) => WorkToJson(w, formatDate))),
             (KeySkills, Encode(cv.skills, SkillToJson)),
             (KeyProjects, Encode(cv.projects, (p: Project) => ProjectToJson(p, formatDate))),
             (KeyCertifications, Encode(cv.certifications, (c: Certification) => CertificationToJson(c, formatDate)))])
  }

  /** The parts of a CV the answer cannot carry are at their defaults: no
      id, no embedding, no education description, no skill level. */
  ghost predicate Representable(cv: ParsedCV) {
    && cv.id.None?
    && cv.embedding.None?
    && (forall i :: 0 <= i < |cv.education| ==> cv.education[i].description.None?)
    && (forall i :: 0 <= i < |cv.skills| ==> cv.skills[i].level.None?)
  }

  lemma DateRoundTrip(ms: seq<(string, Json)>, key: string, o: Option<Date>,
                      parseDate: string -> Option<Date>, formatDate: Date -> string)
    requires DateCodec(parseDate, formatDate)
    requires Get(ms, key) == Some(DateJson(o, formatDate))
    ensures DateField(ms, key, parseDate) == Success(o)
  {
    if o.Some? {
      assert formatDate(o.value) != "";
    }
  }

  lemma StrListRoundTrip(xs: seq<string>)
    ensures StrList(Encode(xs, (h: string) => JString(h))) == Success(xs)
  {
    var r := StrList(Encode(xs, (h: string) => JString(h)));
    assert r.Success?;
    assert r.value == xs;
  }

  lemma ListFieldRoundTrip(ms: seq<(string, Json)>, key: string, xs: seq<string>)
    requires Get(ms, key) == Some(Encode(xs, (h: string) => JString(h)))
    ensures ListField(ms, key) == Success(xs)
  {
    StrListRoundTrip(xs);
  }

  lemma MapAllRoundTrip<T>(xs: seq<T>, enc: T -> Json, f: Json -> Result<T>)
    requires forall i :: 0 <= i < |xs| ==> f(enc(xs[i])) == Success(xs[i])
    ensures MapAll(Encode(xs, enc).items, f) == Success(xs)
  {
    var r := MapAll(Encode(xs, enc).items, f);
    assert r.Success?;
    assert r.value == xs;
  }

  lemma SectionRoundTrip<T>(ms: seq<(string, Json)>, key: string, xs: seq<T>, enc: T -> Json, f: Json -> Result<T>)
    requires Get(ms, key) == Some(Encode(xs, enc))
    requires forall i :: 0 <= i < |xs| ==> f(enc(xs[i])) == Success(xs[i])
    ensures Section(ms, key, f) == Success(xs)
  {
    MapAllRoundTrip(xs, enc, f);
  }

  lemma OptStrRoundTrip(ms: seq<(string, Json)>, key: string, o: Option<string>)
    requires Get(ms, key) == Some(OptJson(o))
    ensures OptStr(Get(ms, key)) == Success(o)
  {
  }

  // Each record is read back in two steps: the lookups in the written
  // member list, and the mapping applied to any members with those lookups.

  lemma PersonalLookups(p: PersonalInfo)
    ensures var ms := PersonalToJson(p).members;
      && Get(ms, "name") == Some(OptJson(p.name))
      && Get(ms, "email") == Some(OptJson(p.email))
      && Get(ms, "phone") == Some(OptJson(p.phone))
      && Get(ms, "location") == Some(OptJson(p.location))
      && Get(ms, "linkedin") == Some(OptJson(p.linkedin))
      && Get(ms, "github") == Some(OptJson(p.github))
      && Get(ms, "website") == Some(OptJson(p.website))
  {
    var ms := PersonalToJson(p).members;
    GetFirstBinding(ms, 0, "name");
    GetFirstBinding(ms, 1, "email");
    GetFirstBinding(ms, 2, "phone");
    GetFirstBinding(ms, 3, "location");
    GetFirstBinding(ms, 4, "linkedin");
    GetFirstBinding(ms, 5, "github");
    GetFirstBinding(ms, 6, "website");
  }

  lemma PersonalRoundTrip(p: PersonalInfo)
    ensures PersonalFromJson(PersonalToJson(p)) == Success(p)
  {
    var ms := PersonalToJson(p).members;
    PersonalLookups(p);
    OptStrRoundTrip(ms, "name", p.name);
    OptStrRoundTrip(ms, "email", p.email);
    OptStrRoundTrip(ms, "phone", p.phone);
    OptStrRoundTrip(ms, "location", p.location);
    OptStrRoundTrip(ms, "linkedin", p.linkedin);
    OptStrRoundTrip(ms, "github", p.github);
    OptStrRoundTrip(ms, "website", p.website);
  }

  lemma EducationLookups(e: Education, formatDate: Date -> string)
    ensures var ms := EducationToJson(e, formatDate).members;
      && Get(ms, "institution") == Some(OptJson(e.institution))
      && Get(ms, "degree") == Some(OptJson(e.degree))
      && Get(ms, "field_of_study") == Some(OptJson(e.fieldOfStudy))
      && Get(ms, "gpa") == Some(GpaJson(e.gpa))
      && Get(ms, "start_date") == Some(DateJson(e.startDate, formatDate))
      && Get(ms, "end_date") == Some(DateJson(e.endDate, formatDate))
  {
    var ms := EducationToJson(e, formatDate).members;
    GetFirstBinding(ms, 0, "institution");
    GetFirstBinding(ms, 1, "degree");
    GetFirstBinding(ms, 2, "field_of_study");
    GetFirstBinding(ms, 3, "gpa");
    GetFirstBinding(ms, 4, "start_date");
    GetFirstBinding(ms, 5, "end_date");
  }

  lemma EducationRoundTrip(e: Education, parseDate: string -> Option<Date>, formatDate: Date -> string,
                           parseNumber: string -> Option<real>)
    requires DateCodec(parseDate, formatDate) && e.description.None?
    ensures EducationFromJson(EducationToJson(e, formatDate), parseDate, parseNumber) == Success(e)
  {
    var ms := EducationToJson(e, formatDate).members;
    EducationLookups(e, formatDate);
    OptStrRoundTrip(ms, "institution", e.institution);
    OptStrRoundTrip(ms, "degree", e.degree);
    OptStrRoundTrip(ms, "field_of_study", e.fieldOfStudy);
    assert Gpa(Get(ms, "gpa"), parseNumber) == Success(e.gpa);
    DateRoundTrip(ms, "start_date", e.startDate, parseDate, formatDate);
    DateRoundTrip(ms, "end_date", e.endDate, parseDate, formatDate);
  }

  lemma WorkLookups(w: WorkExperience, formatDate: Date -> string)
    ensures var ms := WorkToJson(w, formatDate).members;
      && Get(ms, "company") == Some(JString(w.company))
      && Get(ms, "position") == Some(JString(w.position))
      && Get(ms, "location") == Some(OptJson(w.location))
      && Get(ms, "description") == Some(OptJson(w.description))
  {
    var ms := WorkToJson(w, formatDate).members;
    GetFirstBinding(ms, 0, "company");
    GetFirstBinding(ms, 1, "position");
    GetFirstBinding(ms, 2, "location");
    GetFirstBinding(ms, 3, "description");
  }

  lemma WorkDateLookups(w: WorkExperience, formatDate: Date -> string)
    ensures var ms := WorkToJson(w, formatDate).members;
      && Get(ms, "start_date") == Some(DateJson(w.startDate, formatDate))
      && Get(ms, "end_date") == Some(DateJson(w.endDate, formatDate))
      && Get(ms, "highlights") == Some(Encode(w.highlights, (h: string) => JString(h)))
  {
    var ms := WorkToJson(w, formatDate).members;
    GetFirstBinding(ms, 4, "start_date");
    GetFirstBinding(ms, 5, "end_date");
    GetFirstBinding(ms, 6, "highlights");
  }

  lemma WorkRoundTrip(w: WorkExperience, parseDate: string -> Option<Date>, formatDate: Date -> string)
    requires DateCodec(parseDate, formatDate)
    ensures WorkFromJson(WorkToJson(w, formatDate), parseDate) == Success(w)
  {
    var ms := WorkToJson(w, formatDate).members;
    WorkLookups(w, formatDate);
    WorkDateLookups(w, formatDate);
    OptStrRoundTrip(ms, "location", w.location);
    OptStrRoundTrip(ms, "description", w.description);
    DateRoundTrip(ms, "start_date", w.startDate, parseDate, formatDate);
    DateRoundTrip(ms, "end_date", w.endDate, parseDate, formatDate);
    ListFieldRoundTrip(ms, "highlights", w.highlights);
  }

  lemma ProjectLookups(p: Project, formatDate: Date -> string)
    ensures var ms := ProjectToJson(p, formatDate).members;
      && Get(ms, "name") == Some(JString(p.name))
      && Get(ms, "description") == Some(OptJson(p.description))
      && Get(ms, "url") == Some(OptJson(p.url))
      && Get(ms, "technologies") == Some(Encode(p.technologies, (t: string) => JString(t)))
      && Get(ms, "start_date") == Some(DateJson(p.startDate, formatDate))
      && Get(ms, "end_date") == Some(DateJson(p.endDate, formatDate))
  {
    var ms := ProjectToJson(p, formatDate).members;
    GetFirstBinding(ms, 0, "name");
    GetFirstBinding(ms, 1, "description");
    GetFirstBinding(ms, 2, "url");
    GetFirstBinding(ms, 3, "technologies");
    GetFirstBinding(ms, 4, "start_date");
    GetFirstBinding(ms, 5, "end_date");
  }

  lemma ProjectRoundTrip(p: Project, parseDate: string -> Option<Date>, formatDate: Date -> string)
    requires DateCodec(parseDate, formatDate)
    ensures ProjectFromJson(ProjectToJson(p, formatDate), parseDate) == Success(p)
  {
    var ms := ProjectToJson(p, formatDate).members;
    ProjectLookups(p, formatDate);
    OptStrRoundTrip(ms, "description", p.description);
    OptStrRoundTrip(ms, "url", p.url);
    ListFieldRoundTrip(ms, "technologies", p.technologies);
    DateRoundTrip(ms, "start_date", p.startDate, parseDate, formatDate);
    DateRoundTrip(ms, "end_date", p.endDate, parseDate, formatDate);
  }

  lemma CertificationLookups(c: Certification, formatDate: Date -> string)
    ensures var ms := CertificationToJson(c, formatDate).members;
      && Get(ms, "name") == Some(JString(c.name))
      && Get(ms, "issuer") == Some(OptJson(c.issuer))
      && Get(ms, "url") == Some(OptJson(c.url))
      && Get(ms, "date") == Some(DateJson(c.date, formatDate))
      && Get(ms, "expiration_date") == Some(DateJson(c.expirationDate, formatDate))
  {
    var ms := CertificationToJson(c, formatDate).members;
    GetFirstBinding(ms, 0, "name");
    GetFirstBinding(ms, 1, "issuer");
    GetFirstBinding(ms, 2, "url");
    GetFirstBinding(ms, 3, "date");
    GetFirstBinding(ms, 4, "expiration_date");
  }

  lemma CertificationRoundTrip(c: Certification, parseDate: string -> Option<Date>, formatDate: Date -> string)
    requires DateCodec(parseDate, formatDate)
    ensures CertificationFromJson(CertificationToJson(c, formatDate), parseDate) == Success(c)
  {
    var ms := CertificationToJson(c, formatDate).members;
    CertificationLookups(c, formatDate);
    OptStrRoundTrip(ms, "issuer", c.issuer);
    OptStrRoundTrip(ms, "url", c.url);
    DateRoundTrip(ms, "date", c.date, parseDate, formatDate);
    DateRoundTrip(ms, "expiration_date", c.expirationDate, parseDate, formatDate);
  }

  lemma SkillRoundTrip(s: Skill)
    requires s.level.None?
    ensures KeptSkillItem(SkillToJson(s)) && SkillOfItem(SkillToJson(s)) == Success(s)
  {
    var ms := SkillToJson(s).members;
    GetFirstBinding(ms, 0, "name");
    GetFirstBinding(ms, 1, "category");
    OptStrRoundTrip(ms, "category", s.category);
  }

  lemma {:induction false} SkillsRoundTrip(skills: seq<Skill>)
    requires forall i :: 0 <= i < |skills| ==> skills[i].level.None?
    ensures SkillsFromList(Encode(skills, SkillToJson).items) == Success(skills)
  {
    var items := Encode(skills, SkillToJson).items;
    if skills != [] {
      SkillsRoundTrip(skills[1..]);
      assert items[1..] == Encode(skills[1..], SkillToJson).items;
      SkillRoundTrip(skills[0]);
      assert skills == [skills[0]] + skills[1..];
    }
  }

  lemma CvLookups(cv: ParsedCV, formatDate: Date -> string)
    ensures var ms := CvToJson(cv, formatDate).members;
      && Get(ms, KeyPersonal) == Some(PersonalToJson(cv.personalInfo))
      && Get(ms, KeyEducation) == Some(Encode(cv.education, (e: Education) => EducationToJson(e, formatDate)))
      && Get(ms, KeyWork) == Some(Encode(cv.workExperience, (w: WorkExperience) => WorkToJson(w, formatDate)))
      && Get(ms, KeySkills) == Some(Encode(cv.skills, SkillToJson))
      && Get(ms, KeyProjects) == Some(Encode(cv.projects, (p: Project) => ProjectToJson(p, formatDate)))
      && Get(ms, KeyCertifications) == Some(Encode(cv.certifications, (c: Certification) => CertificationToJson(c, formatDate)))
  {
    var ms := CvToJson(cv, formatDate).members;
    GetFirstBinding(ms, 0, KeyPersonal);
    GetFirstBinding(ms, 1, KeyEducation);
    GetFirstBinding(ms, 2, KeyWork);
    GetFirstBinding(ms, 3, KeySkills);
    GetFirstBinding(ms, 4, KeyProjects);
    GetFirstBinding(ms, 5, KeyCertifications);
  }

  lemma EducationSectionRoundTrip(ms: seq<(string, Json)>, xs: seq<Education>, parseDate: string -> Option<Date>,
                                  formatDate: Date -> string, parseNumber: string -> Option<real>)
    requires DateCodec(parseDate, formatDate)
    requires forall i :: 0 <= i < |xs| ==> xs[i].description.None?
    requires Get(ms, KeyEducation) == Some(Encode(xs, (e: Education) => EducationToJson(e, formatDate)))
    ensures Section(ms, KeyEducation, (e: Json) => EducationFromJson(e, parseDate, parseNumber)) == Success(xs)
  {
    forall i | 0 <= i < |xs|
      ensures EducationFromJson(EducationToJson(xs[i], formatDate), parseDate, parseNumber) == Success(xs[i])
    {
      EducationRoundTrip(xs[i], parseDate, formatDate, parseNumber);
    }
    SectionRoundTrip(ms, KeyEducation, xs, (e: Education) => EducationToJson(e, formatDate),
                     (e: Json) => EducationFromJson(e, parseDate, parseNumber));
  }

  lemma WorkSectionRoundTrip(ms: seq<(string, Json)>, xs: seq<WorkExperience>, parseDate: string -> Option<Date>,
                             formatDate: Date -> string)
    requires DateCodec(parseDate, formatDate)
    requires Get(ms, KeyWork) == Some(Encode(xs, (w: WorkExperience) => WorkToJson(w, formatDate)))
    ensures Section(ms, KeyWork, (w: Json) => WorkFromJson(w, parseDate)) == Success(xs)
  {
    forall i | 0 <= i < |xs|
      ensures WorkFromJson(WorkToJson(xs[i], formatDate), parseDate) == Success(xs[i])
    {
      WorkRoundTrip(xs[i], parseDate, formatDate);
    }
    SectionRoundTrip(ms, KeyWork, xs, (w: WorkExperience) => WorkToJson(w, formatDate),
                     (w: Json) => WorkFromJson(w, parseDate));
  }

  lemma ProjectSectionRoundTrip(ms: seq<(string, Json)>, xs: seq<Project>, parseDate: string -> Option<Date>,
                                formatDate: Date -> string)
    requires DateCodec(parseDate, formatDate)
    requires Get(ms, KeyProjects) == Some(Encode(xs, (p: Project) => ProjectToJson(p, formatDate)))
    ensures Section(ms, KeyProjects, (p: Json) => ProjectFromJson(p, parseDate)) == Success(xs)
  {
    forall i | 0 <= i < |xs|
      ensures ProjectFromJson(ProjectToJson(xs[i], formatDate), parseDate) == Success(xs[i])
    {
      ProjectRoundTrip(xs[i], parseDate, formatDate);
    }
    SectionRoundTrip(ms, KeyProjects, xs, (p: Project) => ProjectToJson(p, formatDate),
                     (p: Json) => ProjectFromJson(p, parseDate));
  }

  lemma CertificationSectionRoundTrip(ms: seq<(string, Json)>, xs: seq<Certification>, parseDate: string -> Option<Date>,
                                      formatDate: Date -> string)
    requires DateCodec(parseDate, formatDate)
    requires Get(ms, KeyCertifications) == Some(Encode(xs, (c: Certification) => CertificationToJson(c, formatDate)))
    ensures Section(ms, KeyCertifications, (c: Json) => CertificationFromJson(c, parseDate)) == Success(xs)
  {
    forall i | 0 <= i < |xs|
      ensures CertificationFromJson(CertificationToJson(xs[i], formatDate), parseDate) == Success(xs[i])
    {
      CertificationRoundTrip(xs[i], parseDate, formatDate);
    }
    SectionRoundTrip(ms, KeyCertifications, xs, (c: Certification) => CertificationToJson(c, formatDate),
                     (c: Json) => CertificationFromJson(c, parseDate));
  }

  lemma SkillsSectionRoundTrip(ms: seq<(string, Json)>, xs: seq<Skill>)
    requires forall i :: 0 <= i < |xs| ==> xs[i].level.None?
    requires Get(ms, KeySkills) == Some(Encode(xs, SkillToJson))
    ensures (if HasTruthy(ms, KeySkills) then SkillsFromJson(Get(ms, KeySkills).value) else Success([])) == Success(xs)
  {
    var j := Encode(xs, SkillToJson);
    assert j.JArray? && |j.items| == |xs|;
    SkillsRoundTrip(xs);
    if xs != [] {
      assert SkillsFromJson(j) == SkillsFromList(j.items);
    }
  }

  /** A CV written as JSON by `CvToJson` maps back to itself: every field
      the JSON carries is read from its own key, and nothing else is
      changed. */
  lemma CvRoundTrip(cv: ParsedCV, parseDate: string -> Option<Date>, formatDate: Date -> string,
                    parseNumber: string -> Option<real>)
    requires DateCodec(parseDate, formatDate)
    requires Representable(cv)
    ensures CvFromJson(cv.rawText, CvToJson(cv, formatDate), parseDate, parseNumber) == Success(cv)
  {
    FieldsRoundTrip(cv, parseDate, formatDate, parseNumber);
  }

  lemma FieldsRoundTrip(cv: ParsedCV, parseDate: string -> Option<Date>, formatDate: Date -> string,
                        parseNumber: string -> Option<real>)
    requires DateCodec(parseDate, formatDate)
    requires Representable(cv)
    ensures FromObject(cv.rawText, CvToJson(cv, formatDate).members, parseDate, parseNumber) == Success(cv)
  {
    var ms := CvToJson(cv, formatDate).members;
    CvLookups(cv, formatDate);
    PersonalRoundTrip(cv.personalInfo);
    EducationSectionRoundTrip(ms, cv.education, parseDate, formatDate, parseNumber);
    WorkSectionRoundTrip(ms, cv.workExperience, parseDate, formatDate);
    ProjectSectionRoundTrip(ms, cv.projects, parseDate, formatDate);
    CertificationSectionRoundTrip(ms, cv.certifications, parseDate, formatDate);
    SkillsSectionRoundTrip(ms, cv.skills);
  }
}

=== FILE: documents.dfy ===
/** The pydantic data model of backend/app/models/documents.py: document
    status and type enumerations, the parsed-CV records and the uploaded
    document record, each with the defaults its class declares. */
module Documents {
  import opened Wrappers

  /** A calendar date as `dateparser` produces it; only the year is ever
      read by the services. */
  datatype Date = Date(year: int, month: int, day: int)

  /** `DocumentStatus(str, Enum)`. */
  datatype DocumentStatus = Pending | Processing | Completed | Failed

  /** `DocumentType(str, Enum)`. */
  datatype DocumentType = Pdf | Docx

  function StatusValue(s: DocumentStatus): string {
    match s
    case Pending => "pending"
    case Processing => "processing"
    case Completed => "completed"
    case Failed => "failed"
  }

  /** `DocumentStatus(value)`: the member whose value is `value`, if any. */
  function ParseStatus(value: string): (r: Option<DocumentStatus>)
    ensures r.Some? ==> StatusValue(r.value) == value
    ensures r.None? ==> value !in {"pending", "processing", "completed", "failed"}
  {
    if value == "pending" then Some(Pending)
    else if value == "processing" then Some(Processing)
    else if value == "completed" then Some(Completed)
    else if value == "failed" then Some(Failed)
    else None
  }

  function TypeValue(t: DocumentType): string {
    match t
    case Pdf => "pdf"
    case Docx => "docx"
  }

  /** `DocumentType(value)`. */
  function ParseType(value: string): (r: Option<DocumentType>)
    ensures r.Some? ==> TypeValue(r.value) == value
    ensures r.None? ==> value != "pdf" && value != "docx"
  {
    if value == "pdf" then Some(Pdf) else if value == "docx" then Some(Docx) else None
  }

  /** The two enumerations have exactly the values the class bodies list:
      every member round-trips through its value, so the values are
      pairwise distinct. */
  lemma EnumValuesRoundTrip(s: DocumentStatus, t: DocumentType)
    ensures ParseStatus(StatusValue(s)) == Some(s)
    ensures ParseType(TypeValue(t)) == Some(t)
  {
  }

  datatype PersonalInfo = PersonalInfo(
    name: Option<string>,
    email: Option<string>,
    phone: Option<string>,
    location: Option<string>,
    linkedin: Option<string>,
    github: Option<string>,
    website: Option<string>)

  datatype Education = Education(
    institution: Option<string>,
    degree: Option<string>,
    fieldOfStudy: Option<string>,
    startDate: Option<Date>,
    endDate: Option<Date>,
    gpa: Option<real>,
    description: Option<string>)

  datatype WorkExperience = WorkExperience(
    company: string,
    position: string,
    startDate: Option<Date>,
    endDate: Option<Date>,
    location: Option<string>,
    description: Option<string>,
    highlights: seq<string>)

  datatype Project = Project(
    name: string,
    description: Option<string>,
    technologies: seq<string>,
    startDate: Option<Date>,
    endDate: Option<Date>,
    url: Option<string>)

  datatype Certification = Certification(
    name: string,
    issuer: Option<string>,
    date: Option<Date>,
    expirationDate: Option<Date>,
    url: Option<string>)

  datatype Skill = Skill(name: string, category: Option<string>, level: Option<string>)

  datatype ParsedCV = ParsedCV(
    id: Option<string>,
    personalInfo: PersonalInfo,
    education: seq<Education>,
    workExperience: seq<WorkExperience>,
    skills: seq<Skill>,
    projects: seq<Project>,
    certifications: seq<Certification>,
    rawText: string,
    embedding: Option<seq<real>>)

  datatype CVDocument = CVDocument(
    id: Option<string>,
    filename: string,
    fileType: DocumentType,
    uploadDate: Date,
    status: DocumentStatus,
    errorMessage: Option<string>,
    fileSize: int,
    filePath: string,
    parsedDataId: Option<string>)

  /** `PersonalInfo()`: every field absent. */
  function NewPersonalInfo(): (p: PersonalInfo)
    ensures p.name.None? && p.email.None? && p.phone.None? && p.location.None?
    ensures p.linkedin.None? && p.github.None? && p.website.None?
  {
    PersonalInfo(None, None, None, None, None, None, None)
  }

  /** `Education()`: the degree defaults to "Not Specified", everything
      else to None. */
  function NewEducation(): (e: Education)
    ensures e.degree == Some("Not Specified")
    ensures e.institution.None? && e.fieldOfStudy.None? && e.gpa.None? && e.description.None?
    ensures e.startDate.None? && e.endDate.None?
  {
    Education(None, Some("Not Specified"), None, None, None, None, None)
  }

  /** `WorkExperience(company=..., position=...)`: the two required fields
      as given, no dates or texts, no highlights. */
  function NewWorkExperience(company: string, position: string): (w: WorkExperience)
    ensures w.company == company && w.position == position
    ensures w.highlights == []
    ensures w.startDate.None? && w.endDate.None? && w.location.None? && w.description.None?
  {
    WorkExperience(company, position, None, None, None, None, [])
  }

  /** `Project(name=...)`: no technologies and nothing else. */
  function NewProject(name: string): (p: Project)
    ensures p.name == name && p.technologies == []
    ensures p.description.None? && p.startDate.None? && p.endDate.None? && p.url.None?
  {
    Project(name, None, [], None, None, None)
  }

  /** `Certification(name=...)`. */
  function NewCertification(name: string): (c: Certification)
    ensures c.name == name
    ensures c.issuer.None? && c.date.None? && c.expirationDate.None? && c.url.None?
  {
    Certification(name, None, None, None, None)
  }

  /** `Skill(name=...)`: no category and no level. */
  function NewSkill(name: string): (s: Skill)
    ensures s.name == name && s.category.None? && s.level.None?
  {
    Skill(name, None, None)
  }

  /** `ParsedCV(raw_text=...)`: no id, empty personal info, empty
      collections and no embedding. */
  function NewParsedCV(rawText: string): (cv: ParsedCV)
    ensures cv.rawText == rawText
    ensures cv.id.None? && cv.embedding.None?
    ensures cv.personalInfo == NewPersonalInfo()
    ensures cv.education == [] && cv.workExperience == [] && cv.skills == []
    ensures cv.projects == [] && cv.certifications == []
  {
    ParsedCV(None, NewPersonalInfo(), [], [], [], [], [], rawText, None)
  }

  /** `CVDocument(filename=..., file_type=..., file_size=..., file_path=...)`:
      a new upload is pending, has no id, no error and no parsed data; its
      upload date is the clock reading `now`. */
  function NewCVDocument(filename: string, fileType: DocumentType, fileSize: int, filePath: string, now: Date): (d: CVDocument)
    ensures d.status == Pending
    ensures d.errorMessage.None? && d.parsedDataId.None? && d.id.None?
    ensures d.filename == filename && d.fileType == fileType && d.fileSize == fileSize
    ensures d.filePath == filePath && d.uploadDate == now
  {
    CVDocument(None, filename, fileType, now, Pending, None, fileSize, filePath, None)
  }
}

=== FILE: embedding_text.dfy ===
/** `LLMService._prepare_text_for_embedding`: the text a CV is embedded
    from. It weights what matters for search by repetition: skill lines of
    three technical categories and every position line appear twice. */
module EmbeddingText {
  import opened Wrappers
  import opened Text
  import opened Documents
  import opened SkillGroups

  /** The categories whose skill line is written twice. */
  const Weighted: seq<string> := ["Programming Languages", "Frameworks", "Technologies"]

  function SkillLine(c: string, names: seq<string>): string {
    c + " Skills: " + Join(", ", names)
  }

  /** One category's lines: its skill line, twice for a weighted category. */
  function SkillBlock(c: string, names: seq<string>): (r: seq<string>)
    ensures |r| == if c in Weighted then 2 else 1
    ensures forall k :: 0 <= k < |r| ==> r[k] == SkillLine(c, names)
  {
    var line := SkillLine(c, names);
    if c in Weighted then [line, line] else [line]
  }

  function SkillParts(g: Groups): seq<string> {
    if g == [] then [] else SkillBlock(g[0].0, g[0].1) + SkillParts(g[1..])
  }

  function PositionLine(w: WorkExperience): string {
    "Position: " + w.position + " at " + w.company
  }

  /** One job's lines: the position line twice, then the highlights joined
      with ". " when there are any. */
  function WorkBlock(w: WorkExperience): (r: seq<string>)
    ensures |r| == if w.highlights == [] then 2 else 3
    ensures r[0] == r[1] == PositionLine(w)
  {
    var position := PositionLine(w);
    [position, position] + (if w.highlights != [] then ["Work Highlights: " + Join(". ", w.highlights)] else [])
  }

  function WorkParts(ws: seq<WorkExperience>): seq<string> {
    if ws == [] then [] else WorkBlock(ws[0]) + WorkParts(ws[1..])
  }

  /** An f-string renders a missing degree or institution as `None`. */
  function EducationLine(e: Education): string {
    "Education: " + Show(e.degree)
      + (if Present(e.fieldOfStudy) then " in " + e.fieldOfStudy.value else "")
      + " at " + Show(e.institution)
  }

  function EducationParts(es: seq<Education>): (r: seq<string>)
    ensures |r| == |es|
    ensures forall i :: 0 <= i < |es| ==> r[i] == EducationLine(es[i])
  {
    seq(|es|, i requires 0 <= i < |es| => EducationLine(es[i]))
  }

  function NamePart(cv: ParsedCV): seq<string> {
    if Present(cv.personalInfo.name) then ["Name: " + cv.personalInfo.name.value] else []
  }

  /** The list `text_parts` in the order the method fills it. */
  function EmbeddingParts(cv: ParsedCV): seq<string> {
    NamePart(cv) + SkillParts(GroupByCategory(cv.skills)) + WorkParts(cv.workExperience) + EducationParts(cv.education)
  }

  /** `"\n".join(text_parts)`. */
  function PrepareTextForEmbedding(cv: ParsedCV): (r: string)
    ensures cv.skills == [] && cv.workExperience == [] && cv.education == [] && !Present(cv.personalInfo.name) ==> r == ""
  {
    Join("\n", EmbeddingParts(cv))
  }

  // ------------------------------------------------------------ lemmas

  /** The number of lines: one per category, one more per weighted
      category, two or three per job, one per education entry, and the name
      line. */
  function WeightedCount(g: Groups): nat {
    if g == [] then 0 else (if g[0].0 in Weighted then 1 else 0) + WeightedCount(g[1..])
  }

  function HighlightCount(ws: seq<WorkExperience>): nat {
    if ws == [] then 0 else (if ws[0].highlights != [] then 1 else 0) + HighlightCount(ws[1..])
  }

  lemma {:induction false} SkillPartsLength(g: Groups)
    ensures |SkillParts(g)| == |g| + WeightedCount(g)
  {
    if g != [] {
      SkillPartsLength(g[1..]);
    }
  }

  lemma {:induction false} WorkPartsLength(ws: seq<WorkExperience>)
    ensures |WorkParts(ws)| == 2 * |ws| + HighlightCount(ws)
  {
    if ws != [] {
      WorkPartsLength(ws[1..]);
    }
  }

  /** How many parts `"\n".join(text_parts)` joins. A part may itself hold
      a newline, so this counts parts, not lines of the text. */
  lemma EmbeddingPartCount(cv: ParsedCV)
    ensures var g := GroupByCategory(cv.skills);
      |EmbeddingParts(cv)| ==
        (if Present(cv.personalInfo.name) then 1 else 0) + |g| + WeightedCount(g)
        + 2 * |cv.workExperience| + HighlightCount(cv.workExperience) + |cv.education|
  {
    SkillPartsLength(GroupByCategory(cv.skills));
    WorkPartsLength(cv.workExperience);
  }

  /** The line of category `i` sits in the skill lines at a position where a
      weighted category's line is repeated right after. */
  lemma {:induction false} SkillBlockAt(g: Groups, i: nat) returns (k: nat)
    requires i < |g|
    ensures k < |SkillParts(g)| && SkillParts(g)[k] == SkillLine(g[i].0, g[i].1)
    ensures g[i].0 in Weighted ==> k + 1 < |SkillParts(g)| && SkillParts(g)[k + 1] == SkillLine(g[i].0, g[i].1)
  {
    var head := SkillBlock(g[0].0, g[0].1);
    if i == 0 {
      k := 0;
    } else {
      var k' := SkillBlockAt(g[1..], i - 1);
      k := |head| + k';
    }
  }

  /** Every job's position line appears twice, one after the other. */
  lemma {:induction false} PositionTwiceIn(ws: seq<WorkExperience>, i: nat) returns (k: nat)
    requires i < |ws|
    ensures k + 1 < |WorkParts(ws)|
    ensures WorkParts(ws)[k] == WorkParts(ws)[k + 1] == PositionLine(ws[i])
  {
    if i == 0 {
      k := 0;
    } else {
      var k' := PositionTwiceIn(ws[1..], i - 1);
      k := |WorkBlock(ws[0])| + k';
    }
  }

  lemma PositionTwice(cv: ParsedCV, i: nat) returns (k: nat)
    requires i < |cv.workExperience|
    ensures k + 1 < |EmbeddingParts(cv)|
    ensures EmbeddingParts(cv)[k] == EmbeddingParts(cv)[k + 1] == PositionLine(cv.workExperience[i])
  {
    var k' := PositionTwiceIn(cv.workExperience, i);
    k := |NamePart(cv)| + |SkillParts(GroupByCategory(cv.skills))| + k';
  }

  /** Every skill of the CV is listed on the line of its category, and that
      line is written twice when the category is weighted. */
  lemma SkillInText(cv: ParsedCV, j: nat) returns (k: nat, names: seq<string>)
    requires j < |cv.skills|
    ensures cv.skills[j].name in names
    ensures k < |EmbeddingParts(cv)| && EmbeddingParts(cv)[k] == SkillLine(CategoryOf(cv.skills[j]), names)
    ensures CategoryOf(cv.skills[j]) in Weighted ==>
      k + 1 < |EmbeddingParts(cv)| && EmbeddingParts(cv)[k + 1] == EmbeddingParts(cv)[k]
  {
    var g := GroupByCategory(cv.skills);
    var i := SkillGrouped(cv.skills, j);
    names := g[i].1;
    k := CategoryLineAt(cv, i);
  }

  /** Where the line of the `i`-th category sits among all the lines. */
  lemma CategoryLineAt(cv: ParsedCV, i: nat) returns (k: nat)
    requires i < |GroupByCategory(cv.skills)|
    ensures var g := GroupByCategory(cv.skills);
      k < |EmbeddingParts(cv)| && EmbeddingParts(cv)[k] == SkillLine(g[i].0, g[i].1)
      && (g[i].0 in Weighted ==> k + 1 < |EmbeddingParts(cv)| && EmbeddingParts(cv)[k + 1] == EmbeddingParts(cv)[k])
  {
    var g := GroupByCategory(cv.skills);
    var k' := SkillBlockAt(g, i);
    k := |NamePart(cv)| + k';
    var tail := WorkParts(cv.workExperience) + EducationParts(cv.education);
    assert EmbeddingParts(cv) == NamePart(cv) + SkillParts(g) + tail;
    InMiddle(NamePart(cv), SkillParts(g), tail, k');
    if g[i].0 in Weighted {
      InMiddle(NamePart(cv), SkillParts(g), tail, k' + 1);
    }
  }

  lemma InMiddle(a: seq<string>, b: seq<string>, c: seq<string>, k: nat)
    requires k < |b|
    ensures |a| + k < |a + b + c| && (a + b + c)[|a| + k] == b[k]
  {
  }
}

=== FILE: entity_resolver.dfy ===
/** The entity map of `LLMService`: one entry per candidate name, built by
    `_update_entity_map` and read by `_resolve_entity`. The map is state the
    service keeps between calls; here it is threaded explicitly. Python
    dicts iterate in insertion order, so the map carries its keys in that
    order next to the bindings. */
module EntityResolver {
  import opened Wrappers
  import opened Text
  import opened Seqs
  import opened Documents

  /** `{"id", "aliases", "skills", "companies", "education"}`. */
  datatype Entry = Entry(
    id: Option<string>,
    aliases: set<string>,
    skills: set<string>,
    companies: set<string>,
    education: set<string>)

  datatype EntityMap = EntityMap(keys: seq<string>, entries: map<string, Entry>)

  /** The keys list every bound key once, in insertion order, and each
      entry's aliases are the variants of its own key. */
  ghost predicate Valid(m: EntityMap) {
    && (forall k :: k in m.keys <==> k in m.entries)
    && (forall i, j :: 0 <= i < j < |m.keys| ==> m.keys[i] != m.keys[j])
    && (forall k :: k in m.entries ==> m.entries[k].aliases == NameVariants(k))
  }

  const EmptyMap := EntityMap([], map[])

  lemma EmptyMapValid()
    ensures Valid(EmptyMap)
  {
  }

  // ---------------------------------------------------------- variants

  function Last(parts: seq<string>): string
    requires parts != []
  {
    parts[|parts| - 1]
  }

  /** `"".join(p[0] for p in parts[:n])`. */
  function Initials(parts: seq<string>, n: nat): (r: string)
    requires n <= |parts|
    requires AllWords(parts)
    ensures |r| == n
    ensures forall i :: 0 <= i < n ==> r[i] == parts[i][0]
  {
    seq(n, i requires 0 <= i < n => parts[i][0])
  }

  /** The four shorter forms of a name of several words: first and last
      word, the initials of all words but the last, the first initial, and
      the last word alone. */
  function ShortForms(parts: seq<string>): (r: set<string>)
    requires |parts| > 1
    requires AllWords(parts)
    ensures parts[0] + " " + Last(parts) in r
    ensures Initials(parts, |parts| - 1) + ". " + Last(parts) in r
    ensures [parts[0][0]] + ". " + Last(parts) in r
    ensures Last(parts) in r
    ensures |r| <= 4
    ensures forall v :: v in r ==> EndsWith(v, Last(parts))
  {
    var last := Last(parts);
    var v1 := parts[0] + " " + last;
    var v2 := Initials(parts, |parts| - 1) + ". " + last;
    var v3 := [parts[0][0]] + ". " + last;
    EndsWithAppend(parts[0] + " ", last);
    EndsWithAppend(Initials(parts, |parts| - 1) + ". ", last);
    EndsWithAppend([parts[0][0]] + ". ", last);
    EndsWithAppend([], last);
    assert [] + last == last;
    {v1, v2, v3, last}
  }

  /** `_generate_name_variants(name)`: the name itself and, for a name of
      several words, four shorter forms. */
  function NameVariants(name: string): (r: set<string>)
    ensures name in r
    ensures |Words(name)| <= 1 ==> r == {name}
    ensures |Words(name)| > 1 ==> var parts := Words(name);
      && parts[0] + " " + Last(parts) in r
      && Initials(parts, |parts| - 1) + ". " + Last(parts) in r
      && [parts[0][0]] + ". " + Last(parts) in r
      && Last(parts) in r
    ensures |r| <= 5
  {
    var parts := Words(name);
    if |parts| > 1 then {name} + ShortForms(parts) else {name}
  }

  /** For a name of several words the variants add the last word and the
      initials form, and every variant but the name ends with the last
      word. */
  lemma VariantsOfSeveralWords(name: string)
    requires |Words(name)| > 1
    ensures var parts := Words(name);
      NameVariants(name) == {name, parts[0] + " " + Last(parts), Initials(parts, |parts| - 1) + ". " + Last(parts),
                             [parts[0][0]] + ". " + Last(parts), Last(parts)}
    ensures var parts := Words(name);
      && Last(parts) in NameVariants(name)
      && Initials(parts, |parts| - 1) + ". " + Last(parts) in NameVariants(name)
      && forall v :: v in NameVariants(name) ==> v == name || EndsWith(v, Last(parts))
  {
    var parts := Words(name);
    var short := ShortForms(parts);
    assert NameVariants(name) == {name} + short;
    assert forall v :: v in {name} + short ==> v == name || v in short;
  }

  /** Every variant of a lower-case name is lower case, so the lowered
      query is compared with variants of the same case. */
  lemma VariantsOfLowerCase(name: string)
    requires IsLowerCase(name)
    ensures forall v :: v in NameVariants(name) ==> IsLowerCase(v)
  {
    var parts := Words(name);
    if |parts| > 1 {
      WordsOfLowerCase(name);
      ShortFormsOfLowerCase(parts);
      assert NameVariants(name) == {name} + ShortForms(parts);
    }
  }

  lemma ShortFormsOfLowerCase(parts: seq<string>)
    requires |parts| > 1 && AllWords(parts)
    requires forall i :: 0 <= i < |parts| ==> IsLowerCase(parts[i])
    ensures forall v :: v in ShortForms(parts) ==> IsLowerCase(v)
  {
    var initials := Initials(parts, |parts| - 1);
    var last := Last(parts);
    var first := parts[0];
    InitialsOfLowerCase(parts, |parts| - 1);
    assert IsLowerCase(first) && IsLowerCase(last);
    LowerCaseAppend(first, " ");
    LowerCaseAppend(first + " ", last);
    LowerCaseAppend(initials, ". ");
    LowerCaseAppend(initials + ". ", last);
    LowerCaseAppend([first[0]], ". ");
    LowerCaseAppend([first[0]] + ". ", last);
    assert ShortForms(parts) == {first + " " + last, initials + ". " + last, [first[0]] + ". " + last, last};
  }

  lemma InitialsOfLowerCase(parts: seq<string>, n: nat)
    requires n <= |parts| && AllWords(parts)
    requires forall i :: 0 <= i < |parts| ==> IsLowerCase(parts[i])
    ensures IsLowerCase(Initials(parts, n))
  {
    var initials := Initials(parts, n);
    forall i | 0 <= i < |initials| ensures !IsAsciiUpper(initials[i]) {
      assert initials[i] == parts[i][0];
      assert IsLowerCase(parts[i]);
    }
  }

  lemma LowerCaseAppend(a: string, b: string)
    requires IsLowerCase(a) && IsLowerCase(b)
    ensures IsLowerCase(a + b)
  {
    forall i | 0 <= i < |a + b| ensures !IsAsciiUpper((a + b)[i]) {
      if i < |a| {
        assert (a + b)[i] == a[i];
      } else {
        assert (a + b)[i] == b[i - |a|];
      }
    }
  }

  // ------------------------------------------------------------ update

  /** Lowered names of the CV's skills, skipping empty names. */
  function SkillNames(cv: ParsedCV): set<string> {
    set i | 0 <= i < |cv.skills| && cv.skills[i].name != "" :: Lower(cv.skills[i].name)
  }

  /** Lowered companies of the CV's work experience, skipping empty ones. */
  function CompanyNames(cv: ParsedCV): set<string> {
    set i | 0 <= i < |cv.workExperience| && cv.workExperience[i].company != "" :: Lower(cv.workExperience[i].company)
  }

  /** Lowered institutions of the CV's education, skipping missing or empty
      ones. */
  function InstitutionNames(cv: ParsedCV): set<string> {
    set i | 0 <= i < |cv.education| && Present(cv.education[i].institution) :: Lower(cv.education[i].institution.value)
  }

  /** All members of `xs` are lower case. */
  predicate AllLowerCase(xs: set<string>) {
    forall x :: x in xs ==> IsLowerCase(x)
  }

  lemma CvNamesLowerCase(cv: ParsedCV)
    ensures AllLowerCase(SkillNames(cv)) && AllLowerCase(CompanyNames(cv)) && AllLowerCase(InstitutionNames(cv))
  {
    forall x | x in SkillNames(cv) ensures IsLowerCase(x) {
      var i :| 0 <= i < |cv.skills| && cv.skills[i].name != "" && x == Lower(cv.skills[i].name);
      LowerIsLowerCase(cv.skills[i].name);
    }
    forall x | x in CompanyNames(cv) ensures IsLowerCase(x) {
      var i :| 0 <= i < |cv.workExperience| && cv.workExperience[i].company != "" && x == Lower(cv.workExperience[i].company);
      LowerIsLowerCase(cv.workExperience[i].company);
    }
    forall x | x in InstitutionNames(cv) ensures IsLowerCase(x) {
      var i :| 0 <= i < |cv.education| && Present(cv.education[i].institution) && x == Lower(cv.education[i].institution.value);
      LowerIsLowerCase(cv.education[i].institution.value);
    }
  }

  /** The key a CV is filed under: its lowered name, when it has one. */
  function KeyOf(cv: ParsedCV): Option<string> {
    if Present(cv.personalInfo.name) then Some(Lower(cv.personalInfo.name.value)) else None
  }

  /** The entry after filing `cv` under it: the three name sets gain the
      CV's lowered skills, companies and institutions; id and aliases stay. */
  function Grow(e: Entry, cv: ParsedCV): (r: Entry)
    ensures r.id == e.id && r.aliases == e.aliases
    ensures e.skills <= r.skills && e.companies <= r.companies && e.education <= r.education
    ensures SkillNames(cv) <= r.skills && CompanyNames(cv) <= r.companies && InstitutionNames(cv) <= r.education
    ensures forall x :: x in r.skills ==> x in e.skills || x in SkillNames(cv)
    ensures forall x :: x in r.companies ==> x in e.companies || x in CompanyNames(cv)
    ensures forall x :: x in r.education ==> x in e.education || x in InstitutionNames(cv)
  {
    e.(skills := e.skills + SkillNames(cv),
       companies := e.companies + CompanyNames(cv),
       education := e.education + InstitutionNames(cv))
  }

  /** Filing the same CV twice adds nothing the first filing did not. */
  lemma GrowIdempotent(e: Entry, cv: ParsedCV)
    ensures Grow(Grow(e, cv), cv) == Grow(e, cv)
  {
  }

  /** Writes `e` under `key`, appending the key to the order when it is new. */
  function Put(m: EntityMap, key: string, e: Entry): EntityMap {
    EntityMap(if key in m.entries then m.keys else m.keys + [key], m.entries[key := e])
  }

  /** Writing an entry whose aliases are the key's variants keeps the map
      well formed. */
  lemma PutKeepsValid(m: EntityMap, key: string, e: Entry)
    requires Valid(m)
    requires e.aliases == NameVariants(key)
    ensures Valid(Put(m, key, e))
  {
    var r := Put(m, key, e);
    if key !in m.entries {
      assert key !in m.keys;
      forall i, j | 0 <= i < j < |r.keys| ensures r.keys[i] != r.keys[j] {
        if j == |m.keys| {
          assert r.keys[i] == m.keys[i];
        } else {
          assert r.keys[i] == m.keys[i] && r.keys[j] == m.keys[j];
        }
      }
      forall k ensures k in r.keys <==> k in r.entries {
        assert k in r.keys <==> k in m.keys || k == key;
      }
    }
  }

  /** Writing back the entry a key already holds changes nothing. */
  lemma PutExisting(m: EntityMap, key: string, e: Entry)
    requires key in m.entries && m.entries[key] == e
    ensures Put(m, key, e) == m
  {
    assert m.entries[key := e] == m.entries;
  }

  /** `_update_entity_map(cv)`. */
  function UpdateEntityMap(m: EntityMap, cv: ParsedCV): (r: EntityMap)
    requires Valid(m)
    ensures Valid(r)
    ensures KeyOf(cv).None? ==> r == m
    ensures KeyOf(cv).Some? ==> KeyOf(cv).value in r.entries
    ensures KeyOf(cv).Some? ==> r.keys == if KeyOf(cv).value in m.entries then m.keys else m.keys + [KeyOf(cv).value]
    ensures forall k :: k in m.entries && Some(k) != KeyOf(cv) ==> k in r.entries && r.entries[k] == m.entries[k]
    ensures forall k :: k in r.entries ==> k in m.entries || Some(k) == KeyOf(cv)
    ensures KeyOf(cv).Some? && KeyOf(cv).value in m.entries ==>
      r.entries[KeyOf(cv).value] == Grow(m.entries[KeyOf(cv).value], cv)
    ensures KeyOf(cv).Some? && KeyOf(cv).value !in m.entries ==>
      r.entries[KeyOf(cv).value] == Grow(Entry(cv.id, NameVariants(KeyOf(cv).value), {}, {}, {}), cv)
  {
    match KeyOf(cv)
    case None => m
    case Some(key) =>
      var base := if key in m.entries then m.entries[key] else Entry(cv.id, NameVariants(key), {}, {}, {});
      PutKeepsValid(m, key, Grow(base, cv));
      Put(m, key, Grow(base, cv))
  }

  /** Sets grow only by lowered values: an entry whose sets are lower case
      keeps them lower case. */
  lemma UpdateKeepsLowerCase(m: EntityMap, cv: ParsedCV)
    requires Valid(m)
    requires forall k :: k in m.entries ==> AllLowerCase(m.entries[k].skills) && AllLowerCase(m.entries[k].companies) && AllLowerCase(m.entries[k].education)
    ensures var r := UpdateEntityMap(m, cv);
      forall k :: k in r.entries ==> AllLowerCase(r.entries[k].skills) && AllLowerCase(r.entries[k].companies) && AllLowerCase(r.entries[k].education)
  {
    CvNamesLowerCase(cv);
  }

  /** Updating twice with the same CV is updating once. */
  lemma UpdateIdempotent(m: EntityMap, cv: ParsedCV)
    requires Valid(m)
    ensures UpdateEntityMap(UpdateEntityMap(m, cv), cv) == UpdateEntityMap(m, cv)
  {
    var r1 := UpdateEntityMap(m, cv);
    if KeyOf(cv).Some? {
      var key := KeyOf(cv).value;
      var e := r1.entries[key];
      GrowIdempotent(e, cv);
      PutExisting(r1, key, Grow(e, cv));
    }
  }

  // ----------------------------------------------------------- resolve

  /** The CV's own name equals the lowered query, ignoring case. */
  predicate NameMatches(cv: ParsedCV, q: string) {
    Present(cv.personalInfo.name) && Lower(cv.personalInfo.name.value) == q
  }

  /** The direct-match test as a selection predicate. */
  function NamedAs(q: string): ParsedCV -> bool {
    (cv: ParsedCV) => NameMatches(cv, q)
  }

  /** The second pass: for each entry in insertion order whose aliases hold
      the query, the pool CVs carrying that entry's id. */
  function AliasMatches(m: EntityMap, keys: seq<string>, q: string, pool: seq<ParsedCV>): (r: seq<ParsedCV>)
    requires forall k :: k in keys ==> k in m.entries
    ensures forall x :: x in r ==> x in pool
    ensures forall x :: x in r ==> exists k :: k in keys && q in m.entries[k].aliases && x.id == m.entries[k].id
    ensures forall k, x :: k in keys && q in m.entries[k].aliases && x in pool && x.id == m.entries[k].id ==> x in r
  {
    if keys == [] then []
    else
      var info := m.entries[keys[0]];
      FilterMembers(pool, SameId(info.id));
      var here := if q in info.aliases then Filter(pool, SameId(info.id)) else [];
      here + AliasMatches(m, keys[1..], q, pool)
  }

  /** The test `cv.id == info["id"]` of the inner loop. */
  function SameId(id: Option<string>): ParsedCV -> bool {
    (cv: ParsedCV) => cv.id == id
  }

  /** How many of `keys` name an entry whose aliases hold `q` and whose id
      is `id`: the number of times the outer loop appends a CV with that id. */
  function HitCount(m: EntityMap, keys: seq<string>, q: string, id: Option<string>): nat
    requires forall k :: k in keys ==> k in m.entries
  {
    if keys == [] then 0
    else
      var info := m.entries[keys[0]];
      (if q in info.aliases && info.id == id then 1 else 0) + HitCount(m, keys[1..], q, id)
  }

  /** The alias pass appends a pool CV once per matching entry: a CV is
      repeated when several entries carrying its id hold the query (two
      people filed without an id, say, who share a surname). */
  lemma {:induction false} AliasMultiplicity(m: EntityMap, keys: seq<string>, q: string, pool: seq<ParsedCV>, x: ParsedCV)
    requires forall k :: k in keys ==> k in m.entries
    ensures multiset(AliasMatches(m, keys, q, pool))[x] == HitCount(m, keys, q, x.id) * multiset(pool)[x]
  {
    if keys != [] {
      AliasMultiplicity(m, keys[1..], q, pool, x);
      AliasStep(m, keys, q, pool, x);
    }
  }

  /** The first key adds its copies to those of the keys after it. */
  lemma AliasStep(m: EntityMap, keys: seq<string>, q: string, pool: seq<ParsedCV>, x: ParsedCV)
    requires keys != [] && forall k :: k in keys ==> k in m.entries
    requires multiset(AliasMatches(m, keys[1..], q, pool))[x] == HitCount(m, keys[1..], q, x.id) * multiset(pool)[x]
    ensures multiset(AliasMatches(m, keys, q, pool))[x] == HitCount(m, keys, q, x.id) * multiset(pool)[x]
  {
    var hit := AliasHead(m, keys, q, pool, x);
    Combine(multiset(AliasMatches(m, keys, q, pool))[x], multiset(AliasMatches(m, keys[1..], q, pool))[x],
      HitCount(m, keys, q, x.id), if hit then 1 else 0, HitCount(m, keys[1..], q, x.id), multiset(pool)[x]);
  }

  /** The first key adds every pool copy of `x` when it is a hit for `x`,
      and none otherwise. */
  lemma AliasHead(m: EntityMap, keys: seq<string>, q: string, pool: seq<ParsedCV>, x: ParsedCV) returns (hit: bool)
    requires keys != [] && forall k :: k in keys ==> k in m.entries
    ensures HitCount(m, keys, q, x.id) == (if hit then 1 else 0) + HitCount(m, keys[1..], q, x.id)
    ensures multiset(AliasMatches(m, keys, q, pool))[x] ==
      (if hit then multiset(pool)[x] else 0) + multiset(AliasMatches(m, keys[1..], q, pool))[x]
  {
    var info := m.entries[keys[0]];
    var here := if q in info.aliases then Filter(pool, SameId(info.id)) else [];
    hit := q in info.aliases && info.id == x.id;
    assert AliasMatches(m, keys, q, pool) == here + AliasMatches(m, keys[1..], q, pool);
    FilterMultiplicity(pool, SameId(info.id), x);
  }

  /** Copies add up: all `n` pool copies when the first key is a hit, and
      `later` times `n` from the keys after it. */
  lemma Combine(total: nat, rest: nat, hits: nat, hit: nat, later: nat, n: nat)
    requires hit <= 1 && hits == hit + later
    requires total == (if hit == 1 then n else 0) + rest && rest == later * n
    ensures total == hits * n
  {
  }

  /** The alias pass follows the entries' insertion order: the matches of
      earlier keys come first, and one key contributes the pool CVs with its
      id, in pool order, when its aliases hold the query. */
  lemma {:induction false} AliasMatchesAppend(m: EntityMap, a: seq<string>, b: seq<string>, q: string, pool: seq<ParsedCV>)
    requires forall k :: k in a + b ==> k in m.entries
    ensures AliasMatches(m, a + b, q, pool) == AliasMatches(m, a, q, pool) + AliasMatches(m, b, q, pool)
  {
    if a == [] {
      assert a + b == b;
    } else {
      var info := m.entries[a[0]];
      var here := if q in info.aliases then Filter(pool, SameId(info.id)) else [];
      assert (a + b)[0] == a[0] && (a + b)[1..] == a[1..] + b;
      assert AliasMatches(m, a + b, q, pool) == here + AliasMatches(m, a[1..] + b, q, pool);
      AliasMatchesAppend(m, a[1..], b, q, pool);
    }
  }

  /** The entry under `k` contributes its block between the matches of
      the keys filed before it and those filed after it. */
  lemma AliasOrder(m: EntityMap, a: seq<string>, k: string, b: seq<string>, q: string, pool: seq<ParsedCV>)
    requires forall x :: x in a + [k] + b ==> x in m.entries
    ensures AliasMatches(m, a + [k] + b, q, pool) ==
      AliasMatches(m, a, q, pool)
      + (if q in m.entries[k].aliases then Filter(pool, SameId(m.entries[k].id)) else [])
      + AliasMatches(m, b, q, pool)
  {
    assert a + [k] + b == a + ([k] + b);
    AliasMatchesAppend(m, a, [k] + b, q, pool);
    assert ([k] + b)[1..] == b;
  }

  /** `_resolve_entity(name, cv_data)`. */
  function ResolveEntity(m: EntityMap, name: string, pool: seq<ParsedCV>): (r: seq<ParsedCV>)
    requires Valid(m)
    ensures name == "" ==> r == []
    ensures forall x :: x in r ==> x in pool
    ensures name != "" && (exists i :: 0 <= i < |pool| && NameMatches(pool[i], Lower(name))) ==>
      r == Filter(pool, NamedAs(Lower(name)))
    ensures name != "" && (forall i :: 0 <= i < |pool| ==> !NameMatches(pool[i], Lower(name))) ==>
      forall x :: x in r <==> x in pool && exists k :: k in m.entries && Lower(name) in m.entries[k].aliases && x.id == m.entries[k].id
    ensures name != "" && (forall i :: 0 <= i < |pool| ==> !NameMatches(pool[i], Lower(name))) ==>
      forall x :: multiset(r)[x] == HitCount(m, m.keys, Lower(name), x.id) * multiset(pool)[x]
  {
    if name == "" then []
    else
      var q := Lower(name);
      var direct := Filter(pool, NamedAs(q));
      FilterMembers(pool, NamedAs(q));
      if direct != [] then
        assert direct[0] in direct;
        direct
      else
        assert forall i :: 0 <= i < |pool| ==> !NameMatches(pool[i], q) by {
          forall i | 0 <= i < |pool| ensures !NameMatches(pool[i], q) {
            assert pool[i] in pool;
          }
        }
        assert forall x :: multiset(AliasMatches(m, m.keys, q, pool))[x] == HitCount(m, m.keys, q, x.id) * multiset(pool)[x] by {
          forall x: ParsedCV {
            AliasMultiplicity(m, m.keys, q, pool, x);
          }
        }
        AliasMatches(m, m.keys, q, pool)
  }

  /** Once a CV has been filed, a query whose lower case is any variant of
      its name finds that CV, as long as no pool CV is literally named like
      the query (which would short-circuit the alias pass) and the entry
      under its name, if one existed before, carries the CV's id. */
  lemma VariantResolvesBack(m: EntityMap, cv: ParsedCV, pool: seq<ParsedCV>, query: string)
    requires Valid(m)
    requires KeyOf(cv).Some?
    requires KeyOf(cv).value in m.entries ==> m.entries[KeyOf(cv).value].id == cv.id
    requires cv in pool
    requires query != "" && Lower(query) in NameVariants(KeyOf(cv).value)
    requires forall i :: 0 <= i < |pool| ==> !NameMatches(pool[i], Lower(query))
    ensures cv in ResolveEntity(UpdateEntityMap(m, cv), query, pool)
  {
    var r := UpdateEntityMap(m, cv);
    var key := KeyOf(cv).value;
    assert key in r.entries && r.entries[key].id == cv.id;
    assert Lower(query) in r.entries[key].aliases;
  }
}

=== FILE: extraction.dfy ===
/** The decision logic of `DocumentProcessor` in
    backend/app/services/document_processing.py: which text a PDF yields
    (direct extraction, OCR, or the fallback between them), how a DOCX body
    and its tables are flattened, when `process_document` reports that no
    text was found, and the personal details read from the text before the
    language model sees it.

    The PDF reader, the page renderer, the OCR engine, python-docx and spaCy
    are outside the model: their outputs are the inputs here. */
module Extraction {
  import opened Wrappers
  import opened Text
  import opened Normalization
  import opened Documents
  import opened Seqs

  /** What `PdfReader` delivered: it raised, or `page.extract_text()` for
      each page (None where a page had no text layer). */
  datatype DirectOutcome = ReaderRaised | ReaderPages(pageTexts: seq<Option<string>>)

  /** What rendering plus OCR delivered: it raised, or one text per page. */
  datatype OcrOutcome = OcrRaised | OcrPages(pageTexts: seq<string>)

  /** Which branch produced the returned text. */
  datatype Provenance = FromDirect | FromOcr | NoText

  datatype Extracted = Extracted(text: string, provenance: Provenance)

  /** Direct extraction is accepted outright above this many characters. */
  const QualityThreshold: nat := 200

  const PageSeparator := "\n\n"

  /** `"\n\n".join(page_texts)` with `page.extract_text() or ""`; the empty
      string when the reader raised, since the variable keeps its initial
      value. */
  function DirectText(d: DirectOutcome): (t: string)
    ensures d.ReaderRaised? ==> t == ""
  {
    match d
    case ReaderRaised => ""
    case ReaderPages(ps) => Join(PageSeparator, seq(|ps|, i requires 0 <= i < |ps| => ps[i].GetOr("")))
  }

  function OcrText(o: OcrOutcome): string
    requires o.OcrPages?
  {
    Join(PageSeparator, o.pageTexts)
  }

  /** `_extract_text_from_pdf`. The stripped length of the direct text
      decides whether OCR runs at all; after OCR, the direct text wins only
      when it is non-empty and strictly longer than the raw OCR text; when
      OCR raises, any non-empty direct text is still returned. */
  function ExtractPdf(d: DirectOutcome, o: OcrOutcome): (r: Extracted)
    ensures Normalized(r.text)
    ensures r.provenance == FromDirect ==> r.text == Preprocess(DirectText(d))
    ensures r.provenance == FromOcr ==> o.OcrPages? && r.text == Preprocess(OcrText(o))
    ensures r.provenance == NoText ==> r.text == "" && o.OcrRaised? && DirectText(d) == ""
    ensures |Strip(DirectText(d))| > QualityThreshold ==> r.provenance == FromDirect
    ensures |Strip(DirectText(d))| <= QualityThreshold && o.OcrPages? ==>
      (r.provenance == FromDirect <==> |OcrText(o)| < |Strip(DirectText(d))| && |Strip(DirectText(d))| > 0)
    ensures |Strip(DirectText(d))| <= QualityThreshold && o.OcrRaised? ==>
      (r.provenance == FromDirect <==> DirectText(d) != "")
  {
    var direct := DirectText(d);
    var directLength := |Strip(direct)|;
    if d.ReaderPages? && directLength > QualityThreshold then
      Extracted(Preprocess(direct), FromDirect)
    else
      match o
      case OcrPages(_) =>
        var ocr := OcrText(o);
        if |ocr| < directLength && directLength > 0 then Extracted(Preprocess(direct), FromDirect)
        else Extracted(Preprocess(ocr), FromOcr)
      case OcrRaised =>
        if direct != "" then Extracted(Preprocess(direct), FromDirect)
        else Extracted("", NoText)
  }

  /** Above the threshold the OCR outcome is never looked at: whatever it
      would have been, the result is the same. */
  lemma LongDirectTextSkipsOcr(d: DirectOutcome, o1: OcrOutcome, o2: OcrOutcome)
    requires |Strip(DirectText(d))| > QualityThreshold
    ensures ExtractPdf(d, o1) == ExtractPdf(d, o2) == Extracted(Preprocess(DirectText(d)), FromDirect)
  {
  }

  /** Up to and including the threshold, an OCR text at least as long as
      the stripped direct text is always the one returned. */
  lemma ShortDirectTextDefersToOcr(d: DirectOutcome, ocrPages: seq<string>)
    requires |Strip(DirectText(d))| <= QualityThreshold
    requires |Join(PageSeparator, ocrPages)| >= |Strip(DirectText(d))|
    ensures ExtractPdf(d, OcrPages(ocrPages)) == Extracted(Preprocess(Join(PageSeparator, ocrPages)), FromOcr)
  {
  }

  // ---------------------------------------------------------------- DOCX

  /** What python-docx delivered: it raised, or the paragraph texts and,
      per table, per row, the cell texts. */
  datatype DocxOutcome = DocxRaised | DocxContent(paragraphs: seq<string>, tables: seq<seq<seq<string>>>)

  predicate Blank(s: string) {
    Strip(s) == ""
  }

  predicate NotBlank(s: string) {
    !Blank(s)
  }

  /** The texts whose `.strip()` is non-empty, in order, unchanged. */
  function NonBlank(ts: seq<string>): (r: seq<string>)
    ensures forall i :: 0 <= i < |r| ==> !Blank(r[i])
    ensures forall x :: x in r <==> x in ts && !Blank(x)
    ensures |r| <= |ts|
  {
    if ts == [] then []
    else (if Blank(ts[0]) then [] else [ts[0]]) + NonBlank(ts[1..])
  }

  /** Keeping the non-blank texts is the list comprehension
      `[t for t in ts if t.strip()]`: the order of the kept texts is the
      order of the input. */
  lemma {:induction false} NonBlankIsSelection(ts: seq<string>)
    ensures NonBlank(ts) == Filter(ts, NotBlank)
  {
    if ts != [] {
      NonBlankIsSelection(ts[1..]);
    }
  }

  const CellSeparator := " | "

  /** `" | ".join(cell.text for cell in row.cells if cell.text.strip())`. */
  function RowText(cells: seq<string>): string {
    Join(CellSeparator, NonBlank(cells))
  }

  /** A row contributes when at least one of its cells is not blank. */
  predicate HasText(cells: seq<string>) {
    NonBlank(cells) != []
  }

  /** The rows with at least one non-blank cell: those that contribute. */
  function NonBlankRows(rows: seq<seq<string>>): (r: seq<seq<string>>)
    ensures forall i :: 0 <= i < |r| ==> HasText(r[i])
    ensures |r| <= |rows|
  {
    if rows == [] then []
    else (if HasText(rows[0]) then [rows[0]] else []) + NonBlankRows(rows[1..])
  }

  lemma {:induction false} NonBlankRowsIsSelection(rows: seq<seq<string>>)
    ensures NonBlankRows(rows) == Filter(rows, HasText)
  {
    if rows != [] {
      NonBlankRowsIsSelection(rows[1..]);
    }
  }

  /** The texts of the rows that have at least one non-blank cell, one per
      such row, in order. */
  function RowParts(rows: seq<seq<string>>): (r: seq<string>)
    ensures forall i :: 0 <= i < |r| ==> !Blank(r[i])
    ensures |r| == |NonBlankRows(rows)|
  {
    if rows == [] then []
    else
      RowTextBlankIff(rows[0]);
      (if RowText(rows[0]) == "" then [] else [RowText(rows[0])]) + RowParts(rows[1..])
  }

  /** Each row part is the text of the matching contributing row. */
  lemma {:induction false} RowPartsTexts(rows: seq<seq<string>>)
    ensures forall i :: 0 <= i < |RowParts(rows)| ==> RowParts(rows)[i] == RowText(NonBlankRows(rows)[i])
  {
    if rows != [] {
      RowPartsTexts(rows[1..]);
      RowTextBlankIff(rows[0]);
      var rest := RowParts(rows[1..]);
      var keep := NonBlankRows(rows[1..]);
      if HasText(rows[0]) {
        assert RowParts(rows) == [RowText(rows[0])] + rest;
        assert NonBlankRows(rows) == [rows[0]] + keep;
      } else {
        assert RowParts(rows) == rest;
        assert NonBlankRows(rows) == keep;
      }
    }
  }

  lemma {:induction false} JoinNotBlank(sep: string, parts: seq<string>)
    requires parts != [] && !Blank(parts[0])
    ensures Join(sep, parts) != "" && !Blank(Join(sep, parts))
  {
    var j := Join(sep, parts);
    var p := parts[0];
    assert !AllSpace(p);
    var k :| 0 <= k < |p| && !IsSpace(p[k]);
    assert j[k] == p[k];
  }

  /** A row is skipped exactly when all its cells are blank; otherwise its
      text is itself not blank. */
  lemma RowTextBlankIff(cells: seq<string>)
    ensures RowText(cells) == "" <==> NonBlank(cells) == []
    ensures RowText(cells) != "" ==> !Blank(RowText(cells))
  {
    if NonBlank(cells) != [] {
      JoinNotBlank(CellSeparator, NonBlank(cells));
    }
  }

  /** The parts joined by blank lines: the non-blank paragraphs first, then
      one part per non-empty table row, tables in order. */
  function DocxParts(paragraphs: seq<string>, tables: seq<seq<seq<string>>>): (r: seq<string>)
    ensures forall i :: 0 <= i < |r| ==> !Blank(r[i])
    ensures |r| == |NonBlank(paragraphs)| + |NonBlankRows(Flatten(tables))|
    ensures r[..|NonBlank(paragraphs)|] == NonBlank(paragraphs)
    ensures forall i :: 0 <= i < |NonBlankRows(Flatten(tables))| ==>
      r[|NonBlank(paragraphs)| + i] == RowText(NonBlankRows(Flatten(tables))[i])
  {
    RowPartsTexts(Flatten(tables));
    NonBlank(paragraphs) + RowParts(Flatten(tables))
  }

  /** What `_extract_text_from_docx` appends to its list, stated with
      comprehensions: the paragraphs with text, then for every row of every
      table that has a cell with text, the joined texts of those cells. */
  function SelectedParts(paragraphs: seq<string>, tables: seq<seq<seq<string>>>): seq<string> {
    var rows := Filter(Flatten(tables), HasText);
    Filter(paragraphs, NotBlank) + seq(|rows|, i requires 0 <= i < |rows| => RowText(rows[i]))
  }

  /** The recursive assembly and the comprehension statement agree. */
  lemma DocxPartsAreSelected(paragraphs: seq<string>, tables: seq<seq<seq<string>>>)
    ensures DocxParts(paragraphs, tables) == SelectedParts(paragraphs, tables)
  {
    var rows := Flatten(tables);
    NonBlankIsSelection(paragraphs);
    NonBlankRowsIsSelection(rows);
    var kept := NonBlankRows(rows);
    PartsOfRows(NonBlank(paragraphs), kept, DocxParts(paragraphs, tables));
  }

  /** Paragraph parts followed by one text per kept row, read off index by
      index. */
  lemma PartsOfRows(np: seq<string>, kept: seq<seq<string>>, parts: seq<string>)
    requires |parts| == |np| + |kept| && parts[..|np|] == np
    requires forall k :: 0 <= k < |kept| ==> parts[|np| + k] == RowText(kept[k])
    ensures parts == np + seq(|kept|, i requires 0 <= i < |kept| => RowText(kept[i]))
  {
    var texts := seq(|kept|, i requires 0 <= i < |kept| => RowText(kept[i]));
    forall i | 0 <= i < |parts| ensures parts[i] == (np + texts)[i] {
      if i < |np| {
        assert parts[i] == parts[..|np|][i];
      } else {
        assert parts[i] == RowText(kept[i - |np|]);
      }
    }
  }

  /** `_extract_text_from_docx`: the selected parts joined by blank lines and
      preprocessed; any error yields the empty string. */
  function ExtractDocx(o: DocxOutcome): (r: string)
    ensures Normalized(r)
    ensures o.DocxRaised? ==> r == ""
    ensures o.DocxContent? ==> r == Preprocess(Join(PageSeparator, SelectedParts(o.paragraphs, o.tables)))
  {
    match o
    case DocxRaised => ""
    case DocxContent(ps, ts) =>
      DocxPartsAreSelected(ps, ts);
      Preprocess(Join(PageSeparator, DocxParts(ps, ts)))
  }

  lemma {:induction false} JoinHasPrefix(sep: string, parts: seq<string>)
    requires parts != []
    ensures |parts[0]| <= |Join(sep, parts)| && Join(sep, parts)[..|parts[0]|] == parts[0]
  {
  }

  lemma VisiblePrefixSurvives(s: string, k: nat)
    requires k <= |s|
    requires Visible(ReplaceBullets(s[..k])) != []
    ensures Visible(ReplaceBullets(s)) != []
  {
    assert ReplaceBullets(s) == ReplaceBullets(s[..k]) + ReplaceBullets(s[k..]);
    VisibleAppend(ReplaceBullets(s[..k]), ReplaceBullets(s[k..]));
  }

  /** A DOCX whose first kept part carries a visible character (or a
      bullet) never yields the empty text. */
  lemma DocxTextNonEmpty(ps: seq<string>, ts: seq<seq<seq<string>>>)
    requires DocxParts(ps, ts) != []
    requires Visible(ReplaceBullets(DocxParts(ps, ts)[0])) != []
    ensures ExtractDocx(DocxContent(ps, ts)) != ""
  {
    var parts := DocxParts(ps, ts);
    var joined := Join(PageSeparator, parts);
    JoinHasPrefix(PageSeparator, parts);
    VisiblePrefixSurvives(joined, |parts[0]|);
    PreprocessEmptyIff(joined);
  }

  // ---------------------------------------------------- personal details

  /** Characters `re.sub(r'[^a-zA-Z\s.-]', '', name)` keeps. */
  predicate NameChar(c: char) {
    IsAsciiLetter(c) || IsSpace(c) || c == '.' || c == '-'
  }

  function KeepNameChars(s: string): (r: string)
    ensures forall i :: 0 <= i < |r| ==> NameChar(r[i])
    ensures |r| <= |s|
    ensures r == Filter(s, NameChar)
  {
    if s == [] then [] else (if NameChar(s[0]) then [s[0]] else []) + KeepNameChars(s[1..])
  }

  /** The cleaned candidate name: stripped, filtered, stripped again. */
  function CleanName(entity: string): string {
    Strip(KeepNameChars(Strip(entity)))
  }

  /** At least two words and more than three characters. */
  predicate AcceptableName(name: string) {
    |Words(name)| >= 2 && |name| > 3
  }

  /** The name rule of `_extract_personal_info`: only the first PERSON
      entity is considered, and it is kept only when its cleaned form is
      acceptable; otherwise the name stays None. */
  function NameFromEntities(persons: seq<string>): (r: Option<string>)
    ensures r.Some? ==> persons != [] && r.value == CleanName(persons[0])
    ensures r.Some? ==> AcceptableName(r.value) && IsStripped(r.value)
    ensures r.Some? ==> forall i :: 0 <= i < |r.value| ==> NameChar(r.value[i])
    ensures r.None? <==> persons == [] || !AcceptableName(CleanName(persons[0]))
  {
    if persons == [] then None
    else
      var name := CleanName(persons[0]);
      CleanNameChars(persons[0]);
      if AcceptableName(name) then Some(name) else None
  }

  lemma CleanNameChars(entity: string)
    ensures forall i :: 0 <= i < |CleanName(entity)| ==> NameChar(CleanName(entity)[i])
  {
    var k := KeepNameChars(Strip(entity));
    StripKeepsClass(k, NameChar);
  }

  /** Characters of `[\w\-./]` (LinkedIn handles) and `[\w\-]` (GitHub). */
  predicate LinkedInChar(c: char) {
    IsWordChar(c) || c == '-' || c == '.' || c == '/'
  }

  predicate GitHubChar(c: char) {
    IsWordChar(c) || c == '-'
  }

  const LinkedInPrefixes: seq<string> := ["linkedin.com/in/", "linkedin.com/profile/", "linkedin:"]
  const GitHubPrefixes: seq<string> := ["github.com/", "github:"]

  /** Length of the run of `cls` characters that starts `s`. */
  function ClassRun(s: string, cls: char -> bool): (k: nat)
    ensures k <= |s|
    ensures forall i :: 0 <= i < k ==> cls(s[i])
    ensures k < |s| ==> !cls(s[k])
  {
    if |s| > 0 && cls(s[0]) then 1 + ClassRun(s[1..], cls) else 0
  }

  /** The pattern `(?:a1|a2|...)[cls]+` matched at position `p`: the first
      alternative that occurs there and is followed by at least one class
      character, extended greedily; the result is the end of the match. */
  function MatchAt(s: string, p: nat, alts: seq<string>, cls: char -> bool): (r: Option<nat>)
    requires p <= |s|
    ensures r.Some? ==> p < r.value <= |s|
  {
    if alts == [] then None
    else
      var a := alts[0];
      if StartsWith(s[p..], a) && p + |a| < |s| && cls(s[p + |a|]) then
        Some(p + |a| + ClassRun(s[p + |a|..], cls))
      else MatchAt(s, p, alts[1..], cls)
  }

  /** The match `MatchAt` found is made of an alternative followed by a
      maximal non-empty run of class characters. */
  lemma {:induction false} MatchAtShape(s: string, p: nat, alts: seq<string>, cls: char -> bool)
    requires p <= |s|
    requires MatchAt(s, p, alts, cls).Some?
    ensures exists j :: 0 <= j < |alts| && IsMatchOf(s, p, MatchAt(s, p, alts, cls).value, alts[j], cls)
  {
    var a := alts[0];
    if StartsWith(s[p..], a) && p + |a| < |s| && cls(s[p + |a|]) {
      assert IsMatchOf(s, p, MatchAt(s, p, alts, cls).value, alts[0], cls);
    } else {
      MatchAtShape(s, p, alts[1..], cls);
      var j :| 0 <= j < |alts[1..]| && IsMatchOf(s, p, MatchAt(s, p, alts, cls).value, alts[1..][j], cls);
      assert alts[1..][j] == alts[j + 1];
    }
  }

  /** `s[p..e]` is `a` followed by a maximal non-empty run of `cls`. */
  predicate IsMatchOf(s: string, p: nat, e: nat, a: string, cls: char -> bool) {
    && p + |a| < e <= |s|
    && s[p..p + |a|] == a
    && (forall i :: p + |a| <= i < e ==> cls(s[i]))
    && (e < |s| ==> !cls(s[e]))
  }

  /** `re.search`: the leftmost position where the pattern matches. */
  function SearchFrom(s: string, p: nat, alts: seq<string>, cls: char -> bool): (r: Option<(nat, nat)>)
    requires p <= |s|
    ensures r.Some? ==> p <= r.value.0 <= |s| && MatchAt(s, r.value.0, alts, cls) == Some(r.value.1)
    ensures r.Some? ==> forall q :: p <= q < r.value.0 ==> MatchAt(s, q, alts, cls).None?
    ensures r.None? ==> forall q :: p <= q <= |s| ==> MatchAt(s, q, alts, cls).None?
    decreases |s| - p
  {
    match MatchAt(s, p, alts, cls)
    case Some(e) => Some((p, e))
    case None => if p == |s| then None else SearchFrom(s, p + 1, alts, cls)
  }

  /** The link `re.search(pattern, text.lower())` captures, if any. The
      capture is taken from the lower-cased text, so it is lower case, and
      it is the leftmost match. */
  function FindLink(text: string, alts: seq<string>, cls: char -> bool): (r: Option<string>)
    ensures r.Some? ==> IsLowerCase(r.value)
    ensures r.Some? ==> exists p, e :: (
      && 0 <= p < e <= |text|
      && r.value == Lower(text)[p..e]
      && (forall q :: 0 <= q < p ==> MatchAt(Lower(text), q, alts, cls).None?)
      && exists j :: 0 <= j < |alts| && IsMatchOf(Lower(text), p, e, alts[j], cls))
    ensures r.None? <==> forall q :: 0 <= q <= |text| ==> MatchAt(Lower(text), q, alts, cls).None?
  {
    var t := Lower(text);
    LowerIsLowerCase(text);
    match SearchFrom(t, 0, alts, cls)
    case None => None
    case Some((p, e)) =>
      MatchAtShape(t, p, alts, cls);
      Some(t[p..e])
  }

  /** `_extract_personal_info`. The e-mail and phone regular expressions are
      not part of this model: their matches are inputs. */
  function ExtractPersonalInfo(text: string, persons: seq<string>, email: Option<string>, phone: Option<string>): (p: PersonalInfo)
    ensures p.name == NameFromEntities(persons)
    ensures p.email == email && p.phone == phone
    ensures p.location.None? && p.website.None?
    ensures p.linkedin == FindLink(text, LinkedInPrefixes, LinkedInChar)
    ensures p.github == FindLink(text, GitHubPrefixes, GitHubChar)
    ensures p.linkedin.Some? ==> IsLowerCase(p.linkedin.value)
    ensures p.github.Some? ==> IsLowerCase(p.github.value)
  {
    PersonalInfo(
      NameFromEntities(persons), email, phone, None,
      FindLink(text, LinkedInPrefixes, LinkedInChar),
      FindLink(text, GitHubPrefixes, GitHubChar),
      None)
  }

  // ------------------------------------------------------ process_document

  const ExtractionFailedMessage := "Failed to extract text from document"
  const ProcessingErrorPrefix := "Error processing document: "

  /** The text `process_document` extracts: PDFs go through the PDF path,
      every other type through the DOCX path. */
  function RawText(t: DocumentType, d: DirectOutcome, o: OcrOutcome, x: DocxOutcome): string {
    if t == Pdf then ExtractPdf(d, o).text else ExtractDocx(x)
  }

  /** Dispatch: a PDF never looks at the DOCX reader's outcome and a DOCX
      never looks at the PDF reader's or the OCR engine's. */
  lemma RawTextDispatch(t: DocumentType, d1: DirectOutcome, o1: OcrOutcome, x1: DocxOutcome,
                        d2: DirectOutcome, o2: OcrOutcome, x2: DocxOutcome)
    ensures t == Pdf ==> RawText(t, d1, o1, x1) == RawText(t, d1, o1, x2)
    ensures t == Docx ==> RawText(t, d1, o1, x1) == RawText(t, d2, o2, x1)
  {
  }

  /** `process_document`. The language-model step (`enhance_cv`) is the
      parameter `enhance`; its exceptions are `Failure`s, which the source
      catches and reports with the raw text kept. */
  function ProcessDocument(
    doc: CVDocument, direct: DirectOutcome, ocr: OcrOutcome, docx: DocxOutcome,
    persons: seq<string>, email: Option<string>, phone: Option<string>,
    enhance: ParsedCV -> Result<ParsedCV>): (r: (ParsedCV, Option<string>))
    ensures RawText(doc.fileType, direct, ocr, docx) == "" ==> r == (NewParsedCV(""), Some(ExtractionFailedMessage))
    ensures r.1 == Some(ExtractionFailedMessage) <==> RawText(doc.fileType, direct, ocr, docx) == ""
    ensures r.1.Some? ==> r.0 == NewParsedCV(r.0.rawText)
    ensures RawText(doc.fileType, direct, ocr, docx) != "" && r.1.Some? ==>
      r.0.rawText == RawText(doc.fileType, direct, ocr, docx) && StartsWith(r.1.value, ProcessingErrorPrefix)
    ensures RawText(doc.fileType, direct, ocr, docx) != "" ==>
      var initial := NewParsedCV(RawText(doc.fileType, direct, ocr, docx))
        .(personalInfo := ExtractPersonalInfo(RawText(doc.fileType, direct, ocr, docx), persons, email, phone));
      match enhance(initial)
      case Success(cv) => r == (cv, None)
      case Failure(e) => r.1 == Some(ProcessingErrorPrefix + e)
  {
    var raw := RawText(doc.fileType, direct, ocr, docx);
    if raw == "" then
      (NewParsedCV(""), Some(ExtractionFailedMessage))
    else
      var initial := NewParsedCV(raw).(personalInfo := ExtractPersonalInfo(raw, persons, email, phone));
      match enhance(initial)
      case Success(cv) => (cv, None)
      case Failure(e) =>
        var message := ProcessingErrorPrefix + e;
        assert message[..|ProcessingErrorPrefix|] == ProcessingErrorPrefix;
        assert message[0] == 'E' && ExtractionFailedMessage[0] == 'F';
        (NewParsedCV(raw), Some(message))
  }
}

=== FILE: focus.dfy ===
/** `LLMService._prepare_focused_cv_data`: the per-CV context text shaped by
    the words of the query. Four keyword families decide which sections are
    written; further words decide whether dates, descriptions and
    highlights are; lists and descriptions are capped. Each CV's text is a
    sequence of tagged blocks here, so that which sections it holds can be
    stated apart from their wording. */
module Focus {
  import opened Wrappers
  import opened Text
  import opened Seqs
  import opened Documents
  import opened SkillGroups

  const SkillTerms: seq<string> := ["skill", "technology", "know", "proficiency"]
  const EducationTerms: seq<string> := ["education", "degree", "university", "school", "college", "academic", "institution"]
  const ExperienceTerms: seq<string> := ["experience", "work", "job", "position"]
  const ProjectTerms: seq<string> := ["project", "portfolio", "build"]

  /** `any(term in q for term in terms)`. */
  function AnyTerm(q: string, terms: seq<string>): (b: bool)
    ensures b <==> exists k :: 0 <= k < |terms| && Contains(q, terms[k])
  {
    if terms == [] then false
    else
      assert forall k :: 0 < k < |terms| ==> terms[1..][k - 1] == terms[k];
      Contains(q, terms[0]) || AnyTerm(q, terms[1..])
  }

  datatype Foci = Foci(skills: bool, education: bool, experience: bool, projects: bool)

  /** The four focus flags of a lower-cased query. */
  function FociOf(q: string): Foci {
    Foci(AnyTerm(q, SkillTerms), AnyTerm(q, EducationTerms), AnyTerm(q, ExperienceTerms), AnyTerm(q, ProjectTerms))
  }

  /** The sections of one CV's text, in the order they are written. */
  datatype Part = Header | NameLine | SkillsPart | EducationPart | WorkPart | ProjectsPart

  function Rank(p: Part): nat {
    match p
    case Header => 0
    case NameLine => 1
    case SkillsPart => 2
    case EducationPart => 3
    case WorkPart => 4
    case ProjectsPart => 5
  }

  type Blocks = seq<(Part, string)>

  predicate HasPart(bs: Blocks, p: Part) {
    exists k :: 0 <= k < |bs| && bs[k].0 == p
  }

  /** A block that is written only when its condition holds. */
  function When(b: bool, p: Part, text: string): (r: Blocks)
    ensures HasPart(r, p) <==> b
    ensures forall q :: q != p ==> !HasPart(r, q)
    ensures |r| <= 1
  {
    if b then
      assert [(p, text)][0].0 == p;
      [(p, text)]
    else []
  }

  lemma HasPartAppend(a: Blocks, b: Blocks, p: Part)
    ensures HasPart(a + b, p) <==> HasPart(a, p) || HasPart(b, p)
  {
    if HasPart(a, p) {
      var k :| 0 <= k < |a| && a[k].0 == p;
      assert (a + b)[k] == a[k];
    }
    if HasPart(a + b, p) {
      var k :| 0 <= k < |a + b| && (a + b)[k].0 == p;
      if k >= |a| {
        assert b[k - |a|] == (a + b)[k];
      }
    }
    if HasPart(b, p) {
      var k :| 0 <= k < |b| && b[k].0 == p;
      assert (a + b)[|a| + k] == b[k];
    }
  }

  // ------------------------------------------------------- entry lines

  /** `f" ({start.year}-{end.year})"` when both dates are set and the query
      asks when. */
  function Years(start: Option<Date>, end: Option<Date>, asked: bool): string {
    if asked && start.Some? && end.Some? then
      " (" + IntToString(start.value.year) + "-" + IntToString(end.value.year) + ")"
    else ""
  }

  function SkillsText(skills: seq<Skill>): string {
    var g := GroupByCategory(skills);
    "\nSkills:\n" + Concat(seq(|g|, k requires 0 <= k < |g| => "- " + g[k].0 + ": " + Join(", ", g[k].1) + "\n"))
  }

  function EducationEntry(e: Education, q: string): string {
    "- " + Show(e.degree)
      + (if Present(e.fieldOfStudy) then " in " + e.fieldOfStudy.value else "")
      + " at " + Show(e.institution)
      + Years(e.startDate, e.endDate, Contains(q, "when") || Contains(q, "year"))
      + "\n"
  }

  function EducationText(es: seq<Education>, q: string): string {
    "\nEducation:\n" + Concat(seq(|es|, k requires 0 <= k < |es| => EducationEntry(es[k], q)))
  }

  /** The highlights shown for a job: at most the first three. */
  function HighlightLines(hs: seq<string>): (r: seq<string>)
    ensures |r| == if |hs| < 3 then |hs| else 3
    ensures forall k :: 0 <= k < |r| ==> r[k] == "   - " + hs[k] + "\n"
  {
    var shown := Take(hs, 3);
    seq(|shown|, k requires 0 <= k < |shown| => "   - " + shown[k] + "\n")
  }

  function WorkEntry(w: WorkExperience, q: string): string {
    "- " + w.position + " at " + w.company
      + Years(w.startDate, w.endDate, Contains(q, "when") || Contains(q, "year") || Contains(q, "how long"))
      + "\n"
      + (if Present(w.description) && (Contains(q, "detail") || Contains(q, "responsibility"))
         then "  Description: " + w.description.value + "\n" else "")
      + (if w.highlights != [] && (Contains(q, "accomplish") || Contains(q, "achievement"))
         then "  Highlights:\n" + Concat(HighlightLines(w.highlights)) else "")
  }

  function WorkText(ws: seq<WorkExperience>, q: string): string {
    "\nWork Experience:\n" + Concat(seq(|ws|, k requires 0 <= k < |ws| => WorkEntry(ws[k], q)))
  }

  /** A description longer than 200 characters is cut to its first 200 and
      marked with "...". */
  function ShortDescription(d: string): (r: string)
    ensures |r| <= 203
    ensures |d| <= 200 ==> r == d
    ensures |d| > 200 ==> |r| == 203 && r[..200] == d[..200] && r[200..] == "..."
  {
    if |d| > 200 then d[..200] + "..." else d
  }

  /** The technologies shown for a project: at most the first five. */
  function ShownTechnologies(ts: seq<string>): (r: string)
    ensures ts == [] ==> r == ""
  {
    if ts != [] then " (Technologies: " + Join(", ", Take(ts, 5)) + ")" else ""
  }

  /** A project's description is shown only when it is longer than ten
      characters. */
  function ProjectEntry(p: Project): string {
    "- " + p.name + ShownTechnologies(p.technologies) + "\n"
      + (if Present(p.description) && |p.description.value| > 10
         then "  Description: " + ShortDescription(p.description.value) + "\n" else "")
  }

  /** Technologies after the fifth never change a project's line. */
  lemma TechnologiesCapped(ts: seq<string>, more: seq<string>)
    requires |ts| >= 5
    ensures ShownTechnologies(ts + more) == ShownTechnologies(ts)
  {
    assert Take(ts + more, 5) == Take(ts, 5);
  }

  /** A project's entry differs from the entry without its description
      exactly when the description has more than ten characters. */
  lemma DescriptionShownIff(p: Project)
    ensures ProjectEntry(p) != ProjectEntry(p.(description := None))
      <==> Present(p.description) && |p.description.value| > 10
  {
  }

  function ProjectsText(ps: seq<Project>): string {
    "\nProjects:\n" + Concat(seq(|ps|, k requires 0 <= k < |ps| => ProjectEntry(ps[k])))
  }

  // --------------------------------------------------------- one CV

  /** Whether the section is written for this CV and the lower-cased
      query `q`: a section needs entries in the CV and its focus hit, or no
      other focus hit; projects are written only when asked for. */
  function Gate(part: Part, cv: ParsedCV, q: string): bool {
    var f := FociOf(q);
    match part
    case Header => true
    case NameLine => Present(cv.personalInfo.name)
    case SkillsPart => cv.skills != [] && (f.skills || !(f.education || f.experience || f.projects))
    case EducationPart => cv.education != [] && (f.education || !(f.skills || f.experience || f.projects))
    case WorkPart => cv.workExperience != [] && (f.experience || !(f.skills || f.education || f.projects))
    case ProjectsPart => cv.projects != [] && (f.projects || Contains(q, "project"))
  }

  function PartText(part: Part, i: nat, cv: ParsedCV, q: string): string {
    match part
    case Header => "--- CV #" + NatToString(i + 1) + " ---\n"
    case NameLine => "Name: " + Show(cv.personalInfo.name) + "\n"
    case SkillsPart => SkillsText(cv.skills)
    case EducationPart => EducationText(cv.education, q)
    case WorkPart => WorkText(cv.workExperience, q)
    case ProjectsPart => ProjectsText(cv.projects)
  }

  const Order: seq<Part> := [Header, NameLine, SkillsPart, EducationPart, WorkPart, ProjectsPart]

  /** The blocks written for the parts in `parts`, in that order. */
  function Select(parts: seq<Part>, i: nat, cv: ParsedCV, q: string): Blocks {
    if parts == [] then []
    else When(Gate(parts[0], cv, q), parts[0], PartText(parts[0], i, cv, q)) + Select(parts[1..], i, cv, q)
  }

  /** The blocks of the `i`-th CV (counted from 0) for the lower-cased query
      `q`. */
  function CvBlocks(i: nat, cv: ParsedCV, q: string): Blocks {
    Select(Order, i, cv, q)
  }

  function Texts(bs: Blocks): (r: seq<string>)
    ensures |r| == |bs|
    ensures forall k :: 0 <= k < |bs| ==> r[k] == bs[k].1
  {
    seq(|bs|, k requires 0 <= k < |bs| => bs[k].1)
  }

  /** `cv_text` for the `i`-th CV. */
  function CvText(i: nat, cv: ParsedCV, q: string): string {
    Concat(Texts(CvBlocks(i, cv, q)))
  }

  /** `"\n\n".join(cv_texts)`. */
  function PrepareFocusedCvData(cvs: seq<ParsedCV>, query: string): (r: string)
    ensures cvs == [] ==> r == ""
    ensures |cvs| == 1 ==> r == CvText(0, cvs[0], Lower(query))
  {
    var q := Lower(query);
    Join("\n\n", seq(|cvs|, i requires 0 <= i < |cvs| => CvText(i, cvs[i], q)))
  }

  // ------------------------------------------------------------ lemmas

  /** A section is written exactly when it is one of the parts and its
      gate is open. */
  lemma {:induction false} SelectHas(parts: seq<Part>, i: nat, cv: ParsedCV, q: string, p: Part)
    ensures HasPart(Select(parts, i, cv, q), p) <==> p in parts && Gate(p, cv, q)
  {
    if parts != [] {
      var head := When(Gate(parts[0], cv, q), parts[0], PartText(parts[0], i, cv, q));
      SelectHas(parts[1..], i, cv, q, p);
      HasPartAppend(head, Select(parts[1..], i, cv, q), p);
      assert p in parts <==> p == parts[0] || p in parts[1..];
    }
  }

  predicate Increasing(parts: seq<Part>) {
    forall a, b :: 0 <= a < b < |parts| ==> Rank(parts[a]) < Rank(parts[b])
  }

  predicate OrderedBlocks(bs: Blocks) {
    forall a, b :: 0 <= a < b < |bs| ==> Rank(bs[a].0) < Rank(bs[b].0)
  }

  lemma OrderedCons(head: Blocks, rest: Blocks, r: nat)
    requires forall k :: 0 <= k < |head| ==> Rank(head[k].0) == r
    requires |head| <= 1
    requires forall k :: 0 <= k < |rest| ==> r < Rank(rest[k].0)
    requires OrderedBlocks(rest)
    ensures OrderedBlocks(head + rest)
  {
    var bs := head + rest;
    forall a, b | 0 <= a < b < |bs| ensures Rank(bs[a].0) < Rank(bs[b].0) {
      assert bs[b] == rest[b - |head|];
      if a < |head| {
        assert bs[a] == head[a];
      } else {
        assert bs[a] == rest[a - |head|];
      }
    }
  }

  lemma IncreasingHead(parts: seq<Part>)
    requires parts != [] && Increasing(parts)
    ensures Increasing(parts[1..])
    ensures forall x :: x in parts[1..] ==> Rank(parts[0]) < Rank(x)
  {
  }

  /** Selection keeps the order of the parts, and writes each at most once. */
  lemma {:induction false} SelectOrdered(parts: seq<Part>, i: nat, cv: ParsedCV, q: string)
    requires Increasing(parts)
    ensures forall k :: 0 <= k < |Select(parts, i, cv, q)| ==> Select(parts, i, cv, q)[k].0 in parts
    ensures OrderedBlocks(Select(parts, i, cv, q))
  {
    if parts != [] {
      var head := When(Gate(parts[0], cv, q), parts[0], PartText(parts[0], i, cv, q));
      var rest := Select(parts[1..], i, cv, q);
      IncreasingHead(parts);
      SelectOrdered(parts[1..], i, cv, q);
      assert forall k :: 0 <= k < |head| ==> head[k].0 == parts[0];
      OrderedStep(parts, head, rest);
      assert Select(parts, i, cv, q) == head + rest;
    }
  }

  /** At most one block of the first part in front of ordered blocks of
      the later parts keeps them ordered. */
  lemma OrderedStep(parts: seq<Part>, head: Blocks, rest: Blocks)
    requires parts != [] && Increasing(parts)
    requires |head| <= 1 && forall k :: 0 <= k < |head| ==> head[k].0 == parts[0]
    requires forall k :: 0 <= k < |rest| ==> rest[k].0 in parts[1..]
    requires OrderedBlocks(rest)
    ensures forall k :: 0 <= k < |head + rest| ==> (head + rest)[k].0 in parts
    ensures OrderedBlocks(head + rest)
  {
    IncreasingHead(parts);
    OrderedCons(head, rest, Rank(parts[0]));
    var bs := head + rest;
    forall k | 0 <= k < |bs| ensures bs[k].0 in parts {
      if k >= |head| {
        assert bs[k] == rest[k - |head|];
      }
    }
  }

  /** The sections are written in a fixed order, each at most once. */
  lemma BlocksOrdered(i: nat, cv: ParsedCV, q: string)
    ensures OrderedBlocks(CvBlocks(i, cv, q))
  {
    SelectOrdered(Order, i, cv, q);
  }

  /** Which sections a CV's text holds, as a function of the query's foci. */
  lemma SectionGates(i: nat, cv: ParsedCV, q: string)
    ensures var bs := CvBlocks(i, cv, q);
      var f := FociOf(q);
      && HasPart(bs, Header)
      && (HasPart(bs, NameLine) <==> Present(cv.personalInfo.name))
      && (HasPart(bs, SkillsPart) <==> cv.skills != [] && (f.skills || !(f.education || f.experience || f.projects)))
      && (HasPart(bs, EducationPart) <==> cv.education != [] && (f.education || !(f.skills || f.experience || f.projects)))
      && (HasPart(bs, WorkPart) <==> cv.workExperience != [] && (f.experience || !(f.skills || f.education || f.projects)))
      && (HasPart(bs, ProjectsPart) <==> cv.projects != [] && f.projects)
  {
    forall p: Part ensures HasPart(CvBlocks(i, cv, q), p) <==> Gate(p, cv, q) {
      SelectHas(Order, i, cv, q, p);
    }
    assert Contains(q, "project") ==> FociOf(q).projects by {
      assert ProjectTerms[0] == "project";
    }
  }

  /** A query that hits no focus word gets skills, education and work for
      every CV that has them, and never projects. */
  lemma NoFocusDefault(i: nat, cv: ParsedCV, q: string)
    requires FociOf(q) == Foci(false, false, false, false)
    ensures var bs := CvBlocks(i, cv, q);
      && (HasPart(bs, SkillsPart) <==> cv.skills != [])
      && (HasPart(bs, EducationPart) <==> cv.education != [])
      && (HasPart(bs, WorkPart) <==> cv.workExperience != [])
      && !HasPart(bs, ProjectsPart)
  {
    SectionGates(i, cv, q);
  }

  /** A single focus suppresses the sections of the other foci. */
  lemma SkillsFocusOnly(i: nat, cv: ParsedCV, q: string)
    requires FociOf(q) == Foci(true, false, false, false)
    ensures var bs := CvBlocks(i, cv, q);
      && (HasPart(bs, SkillsPart) <==> cv.skills != [])
      && !HasPart(bs, EducationPart) && !HasPart(bs, WorkPart) && !HasPart(bs, ProjectsPart)
  {
    SectionGates(i, cv, q);
  }

  /** Each further CV adds a blank line and its own text. */
  lemma FocusedAppend(cvs: seq<ParsedCV>, cv: ParsedCV, query: string)
    requires cvs != []
    ensures PrepareFocusedCvData(cvs + [cv], query)
      == PrepareFocusedCvData(cvs, query) + "\n\n" + CvText(|cvs|, cv, Lower(query))
  {
    var q := Lower(query);
    var all := cvs + [cv];
    var texts := seq(|all|, i requires 0 <= i < |all| => CvText(i, all[i], q));
    var front := seq(|cvs|, i requires 0 <= i < |cvs| => CvText(i, cvs[i], q));
    assert texts == front + [CvText(|cvs|, cv, q)];
    JoinSnoc("\n\n", front, CvText(|cvs|, cv, q));
  }
}

=== FILE: json.dfy ===
/** JSON values as `json.loads` hands them to the services: Python `None`,
    `bool`, numbers, `str`, `list` and `dict`. A dict is its list of
    members in insertion order; a dict never holds two members with the same
    key, so the first binding of a key is its only one. */
module JsonValues {
  import opened Wrappers

  datatype Json =
    | JNull
    | JBool(b: bool)
    | JNumber(n: real)
    | JString(s: string)
    | JArray(items: seq<Json>)
    | JObject(members: seq<(string, Json)>)

  /** Python's truth value of the decoded value. */
  predicate Truthy(j: Json) {
    match j
    case JNull => false
    case JBool(b) => b
    case JNumber(n) => n != 0.0
    case JString(s) => s != ""
    case JArray(items) => items != []
    case JObject(members) => members != []
  }

  /** `d.get(key)`: the value bound to `key`, or None. */
  function Get(members: seq<(string, Json)>, key: string): Option<Json> {
    if members == [] then None
    else if members[0].0 == key then Some(members[0].1)
    else Get(members[1..], key)
  }

  /** `key in d`. */
  predicate Has(members: seq<(string, Json)>, key: string) {
    Get(members, key).Some?
  }

  /** `Get` finds a key exactly when some member carries it, and what it
      finds is bound to that key. */
  lemma {:induction false} GetBinding(members: seq<(string, Json)>, key: string)
    ensures Has(members, key) <==> exists i :: 0 <= i < |members| && members[i].0 == key
    ensures Has(members, key) ==> exists i :: 0 <= i < |members| && members[i] == (key, Get(members, key).value)
  {
    if members != [] && members[0].0 != key {
      GetBinding(members[1..], key);
      assert forall i :: 0 <= i < |members[1..]| ==> members[1..][i] == members[i + 1];
      if Has(members, key) {
        var i :| 0 <= i < |members[1..]| && members[1..][i] == (key, Get(members, key).value);
        assert members[i + 1] == (key, Get(members, key).value);
      }
    }
  }

  /** `key in d and d[key]`: present with a truthy value. */
  predicate HasTruthy(members: seq<(string, Json)>, key: string) {
    Get(members, key).Some? && Truthy(Get(members, key).value)
  }

  /** The binding `Get` finds is the first one with that key. */
  lemma {:induction false} GetFirstBinding(members: seq<(string, Json)>, i: nat, key: string)
    requires i < |members| && members[i].0 == key
    requires forall j :: 0 <= j < i ==> members[j].0 != key
    ensures Get(members, key) == Some(members[i].1)
  {
    if i > 0 {
      GetFirstBinding(members[1..], i - 1, key);
    }
  }
}

=== FILE: mentions.dfy ===
/** `LLMService._extract_entity_mentions`: the runs of two or more
    name-like words of a query, each joined with single spaces. */
module Mentions {
  import opened Text

  /** `str.isupper()` on ASCII: there is a cased character and every cased
      character is upper case. */
  predicate StrIsUpper(w: string) {
    (exists i :: 0 <= i < |w| && IsAsciiLetter(w[i]))
      && forall i :: 0 <= i < |w| && IsAsciiLetter(w[i]) ==> IsAsciiUpper(w[i])
  }

  /** The test on one word: `w[0].isupper() and not w.isupper() and
      len(w) > 1`. */
  predicate NameLike(w: string) {
    w != [] && IsAsciiUpper(w[0]) && !StrIsUpper(w) && |w| > 1
  }

  /** A name-like word is a capitalised word of two or more characters with
      at least one lower-case letter: "Alice" and "McDonald" are, "IBM", "A"
      and "alice" are not. */
  lemma NameLikeMeans(w: string)
    ensures NameLike(w) <==>
      |w| > 1 && IsAsciiUpper(w[0]) && exists i :: 0 <= i < |w| && IsAsciiLower(w[i])
  {
    if |w| > 1 && IsAsciiUpper(w[0]) {
      assert IsAsciiLetter(w[0]);
    }
  }

  /** Positions `a` to `b` hold a run of name-like words that cannot be
      extended on either side and has at least two words. */
  ghost predicate MaximalRun(ws: seq<string>, a: int, b: int) {
    0 <= a && a + 2 <= b <= |ws|
      && (forall k :: a <= k < b ==> NameLike(ws[k]))
      && (a == 0 || !NameLike(ws[a - 1]))
      && (b == |ws| || !NameLike(ws[b]))
  }

  /** Two maximal runs that start together end together. */
  lemma MaximalRunEnd(ws: seq<string>, a: int, b: int, b': int)
    requires MaximalRun(ws, a, b) && MaximalRun(ws, a, b')
    ensures b == b'
  {
  }

  ghost predicate Ordered(spans: seq<(nat, nat)>) {
    forall k :: 0 <= k < |spans| - 1 ==> spans[k].1 < spans[k + 1].0
  }

  /** The inner loop: from a name-like word at `i`, the end of its run. */
  method RunEnd(ws: seq<string>, i: nat) returns (j: nat)
    requires i < |ws| && NameLike(ws[i])
    ensures i < j <= |ws|
    ensures forall k :: i <= k < j ==> NameLike(ws[k])
    ensures j == |ws| || !NameLike(ws[j])
  {
    j := i + 1;
    while j < |ws| && NameLike(ws[j])
      invariant i < j <= |ws|
      invariant forall k :: i <= k < j ==> NameLike(ws[k])
    {
      j := j + 1;
    }
  }

  /** What the scan knows after the words before `i`: the spans found are
      maximal runs ending by `i`, in order, with their mentions; `i` is not
      inside a run; and every maximal run starting before `i` was found. */
  ghost predicate Scanned(ws: seq<string>, mentions: seq<string>, spans: seq<(nat, nat)>, i: int) {
    0 <= i <= |ws|
      && |mentions| == |spans|
      && (forall k :: 0 <= k < |spans| ==> MaximalRun(ws, spans[k].0, spans[k].1) && spans[k].1 <= i)
      && (forall k :: 0 <= k < |spans| ==> mentions[k] == Join(" ", ws[spans[k].0..spans[k].1]))
      && Ordered(spans)
      && (0 < i < |ws| ==> !NameLike(ws[i - 1]) || !NameLike(ws[i]))
      && (forall a, b :: MaximalRun(ws, a, b) && a < i ==> (a, b) in spans)
  }

  /** Passing a word that does not start a run of two. */
  lemma ScannedSkip(ws: seq<string>, mentions: seq<string>, spans: seq<(nat, nat)>, i: nat)
    requires Scanned(ws, mentions, spans, i) && i < |ws|
    requires !NameLike(ws[i]) || i + 1 == |ws| || !NameLike(ws[i + 1])
    ensures Scanned(ws, mentions, spans, i + 1)
  {
    forall a, b | MaximalRun(ws, a, b) && a < i + 1
      ensures (a, b) in spans
    {
      if a == i {
        assert false;
      }
    }
  }

  /** Taking the run `[i, j)` as a mention. */
  lemma ScannedRun(ws: seq<string>, mentions: seq<string>, spans: seq<(nat, nat)>, i: nat, j: nat)
    requires Scanned(ws, mentions, spans, i) && i < |ws| && NameLike(ws[i])
    requires i + 2 <= j <= |ws|
    requires forall k :: i <= k < j ==> NameLike(ws[k])
    requires j == |ws| || !NameLike(ws[j])
    ensures Scanned(ws, mentions + [Join(" ", ws[i..j])], spans + [(i, j)], j)
  {
    RunFound(ws, spans, i, j);
    var spans' := spans + [(i, j)];
    if spans != [] {
      var last := spans[|spans| - 1];
      assert last.1 != i by {
        if last.1 < |ws| {
          assert !NameLike(ws[last.1]);
        }
      }
    }
    assert Ordered(spans');
  }

  /** `_extract_entity_mentions(query)`, returning also the word positions
      `[a, b)` of every mention. The mentions are exactly the maximal runs
      of at least two name-like words, in query order, each joined with " ". */
  method ExtractEntityMentions(query: string) returns (mentions: seq<string>, spans: seq<(nat, nat)>)
    ensures var ws := Words(query);
      |mentions| == |spans|
      && (forall k :: 0 <= k < |spans| ==> MaximalRun(ws, spans[k].0, spans[k].1))
      && (forall k :: 0 <= k < |spans| ==> mentions[k] == Join(" ", ws[spans[k].0..spans[k].1]))
      && Ordered(spans)
      && (forall a, b :: MaximalRun(ws, a, b) ==> (a, b) in spans)
  {
    var ws := Words(query);
    mentions, spans := [], [];
    var i := 0;
    while i < |ws|
      invariant Scanned(ws, mentions, spans, i)
    {
      if NameLike(ws[i]) {
        var j := RunEnd(ws, i);
        if j - i > 1 {
          ScannedRun(ws, mentions, spans, i, j);
          mentions := mentions + [Join(" ", ws[i..j])];
          spans := spans + [(i, j)];
          i := j;
        } else {
          ScannedSkip(ws, mentions, spans, i);
          i := i + 1;
        }
      } else {
        ScannedSkip(ws, mentions, spans, i);
        i := i + 1;
      }
    }
  }

  /** The run found at `i` is maximal, and no other maximal run starts
      before its end. */
  lemma RunFound(ws: seq<string>, spans: seq<(nat, nat)>, i: nat, j: nat)
    requires i + 2 <= j <= |ws|
    requires forall k :: i <= k < j ==> NameLike(ws[k])
    requires j == |ws| || !NameLike(ws[j])
    requires i == 0 || !NameLike(ws[i - 1])
    requires forall a, b :: MaximalRun(ws, a, b) && a < i ==> (a, b) in spans
    ensures MaximalRun(ws, i, j)
    ensures forall a, b :: MaximalRun(ws, a, b) && a < j ==> (a, b) in spans + [(i, j)]
  {
    forall a, b | MaximalRun(ws, a, b) && a < j
      ensures (a, b) in spans + [(i, j)]
    {
      if a == i {
        MaximalRunEnd(ws, a, b, j);
      } else if a > i {
        assert false;
      }
    }
  }
}

=== FILE: normalization.dfy ===
/** `DocumentProcessor._preprocess_text`: the normalisation every extracted
    text goes through. Bullets become dashes, each run of non-ASCII
    characters becomes one space, each run of whitespace becomes one space,
    and the ends are stripped. */
module Normalization {
  import opened Text

  /** U+2022, the bullet glyph. */
  const Bullet: char := '\U{2022}'

  /** Step one: every bullet becomes `-`. */
  function ReplaceBullets(s: string): (r: string)
    ensures |r| == |s|
    ensures forall i :: 0 <= i < |s| ==> r[i] == (if s[i] == Bullet then '-' else s[i])
  {
    seq(|s|, i requires 0 <= i < |s| => if s[i] == Bullet then '-' else s[i])
  }

  predicate AllAscii(s: string) {
    forall i :: 0 <= i < |s| ==> IsAscii(s[i])
  }

  /** Length of the run of non-ASCII characters that starts `s`. */
  function NonAsciiLen(s: string): (k: nat)
    ensures k <= |s|
    ensures |s| > 0 && !IsAscii(s[0]) ==> k > 0
    ensures k < |s| ==> IsAscii(s[k])
  {
    if |s| > 0 && !IsAscii(s[0]) then 1 + NonAsciiLen(s[1..]) else 0
  }

  /** Step two, `re.sub(r'[^\x00-\x7F]+', ' ', s)`. */
  function StripNonAscii(s: string): (r: string)
    ensures AllAscii(r)
    decreases |s|
  {
    if s == [] then []
    else if !IsAscii(s[0]) then [' '] + StripNonAscii(s[NonAsciiLen(s)..])
    else [s[0]] + StripNonAscii(s[1..])
  }

  /** Every whitespace character is a plain space and is not followed by
      another whitespace character. */
  predicate SingleSpaced(s: string) {
    forall i :: 0 <= i < |s| && IsSpace(s[i]) ==> s[i] == ' ' && (i + 1 < |s| ==> !IsSpace(s[i + 1]))
  }

  /** Step three before the strip, `re.sub(r'\s+', ' ', s)`. */
  function CollapseSpace(s: string): (r: string)
    ensures SingleSpaced(r)
    ensures AllAscii(s) ==> AllAscii(r)
    ensures r == [] <==> s == []
    ensures s != [] && !IsSpace(s[0]) ==> r[0] == s[0]
    decreases |s|
  {
    if s == [] then []
    else if IsSpace(s[0]) then [' '] + CollapseSpace(s[LeadCount(s)..])
    else [s[0]] + CollapseSpace(s[1..])
  }

  /** The text as `_preprocess_text` returns it. */
  predicate Normalized(s: string) {
    AllAscii(s) && IsStripped(s) && SingleSpaced(s)
  }

  /** A character that survives normalisation unchanged wherever it is. */
  predicate VisibleChar(c: char) {
    IsAscii(c) && !IsSpace(c)
  }

  /** The visible characters of `s`, in order. */
  function Visible(s: string): string {
    if s == [] then [] else (if VisibleChar(s[0]) then [s[0]] else []) + Visible(s[1..])
  }

  function Preprocess(s: string): (r: string)
    ensures Normalized(r)
  {
    var t := CollapseSpace(StripNonAscii(ReplaceBullets(s)));
    StripKeepsSingleSpaced(t);
    Strip(t)
  }

  lemma StripKeepsSingleSpaced(t: string)
    requires AllAscii(t) && SingleSpaced(t)
    ensures AllAscii(Strip(t)) && SingleSpaced(Strip(t))
  {
    var r := Strip(t);
    var k := LeadCount(t);
    forall i | 0 <= i < |r|
      ensures IsAscii(r[i])
      ensures IsSpace(r[i]) ==> r[i] == ' ' && (i + 1 < |r| ==> !IsSpace(r[i + 1]))
    {
      assert r[i] == t[k + i];
      if i + 1 < |r| {
        assert r[i + 1] == t[k + i + 1];
      }
    }
  }

  lemma {:induction false} VisibleAppend(a: string, b: string)
    ensures Visible(a + b) == Visible(a) + Visible(b)
    decreases |a|
  {
    if a == [] {
      assert a + b == b;
    } else {
      var h := if VisibleChar(a[0]) then [a[0]] else [];
      assert (a + b)[0] == a[0] && (a + b)[1..] == a[1..] + b;
      assert Visible(a + b) == h + Visible(a[1..] + b);
      VisibleAppend(a[1..], b);
      assert Visible(a) == h + Visible(a[1..]);
    }
  }

  lemma {:induction false} VisibleOfSpaces(s: string)
    requires AllSpace(s)
    ensures Visible(s) == []
    decreases |s|
  {
    if s != [] {
      VisibleOfSpaces(s[1..]);
    }
  }

  lemma {:induction false} VisibleOfNoVisible(s: string)
    requires forall i :: 0 <= i < |s| ==> !VisibleChar(s[i])
    ensures Visible(s) == []
    decreases |s|
  {
    if s != [] {
      VisibleOfNoVisible(s[1..]);
    }
  }

  lemma {:induction false} StripNonAsciiKeepsVisible(s: string)
    ensures Visible(StripNonAscii(s)) == Visible(s)
    decreases |s|
  {
    if s == [] {
    } else if !IsAscii(s[0]) {
      var k := NonAsciiLen(s);
      StripNonAsciiKeepsVisible(s[k..]);
      assert s == s[..k] + s[k..];
      VisibleAppend(s[..k], s[k..]);
      NonAsciiRunInvisible(s, k);
      VisibleAppend([' '], StripNonAscii(s[k..]));
    } else {
      StripNonAsciiKeepsVisible(s[1..]);
      VisibleAppend([s[0]], StripNonAscii(s[1..]));
    }
  }

  lemma {:induction false} NonAsciiRunInvisible(s: string, k: nat)
    requires k <= NonAsciiLen(s)
    ensures Visible(s[..k]) == []
    decreases k
  {
    if k > 0 {
      assert !IsAscii(s[0]);
      assert s[..k][1..] == s[1..][..k - 1];
      NonAsciiRunInvisible(s[1..], k - 1);
    }
  }

  lemma {:induction false} CollapseKeepsVisible(s: string)
    ensures Visible(CollapseSpace(s)) == Visible(s)
    decreases |s|
  {
    if s == [] {
    } else if IsSpace(s[0]) {
      var k := LeadCount(s);
      CollapseKeepsVisible(s[k..]);
      assert s == s[..k] + s[k..];
      VisibleAppend(s[..k], s[k..]);
      VisibleOfSpaces(s[..k]);
      VisibleAppend([' '], CollapseSpace(s[k..]));
    } else {
      CollapseKeepsVisible(s[1..]);
      VisibleAppend([s[0]], CollapseSpace(s[1..]));
    }
  }

  lemma StripKeepsVisible(s: string)
    ensures Visible(Strip(s)) == Visible(s)
  {
    var r := Strip(s);
    var k := LeadCount(s);
    assert AllSpace(s[..k]);
    assert AllSpace(s[k + |r|..]);
    InfixVisible(s, k, k + |r|);
  }

  /** Cutting whitespace off both ends keeps the visible characters. */
  lemma InfixVisible(s: string, k: nat, e: nat)
    requires k <= e <= |s| && AllSpace(s[..k]) && AllSpace(s[e..])
    ensures Visible(s[k..e]) == Visible(s)
  {
    assert s == s[..k] + s[k..e] + s[e..];
    VisibleAppend(s[..k] + s[k..e], s[e..]);
    VisibleAppend(s[..k], s[k..e]);
    VisibleOfSpaces(s[..k]);
    VisibleOfSpaces(s[e..]);
  }

  /** Normalisation keeps every visible character, in order, and drops
      nothing else: bullets are counted as the dashes they become. */
  lemma PreprocessKeepsVisible(s: string)
    ensures Visible(Preprocess(s)) == Visible(ReplaceBullets(s))
  {
    var a := ReplaceBullets(s);
    var b := StripNonAscii(a);
    var c := CollapseSpace(b);
    StripNonAsciiKeepsVisible(a);
    CollapseKeepsVisible(b);
    StripKeepsVisible(c);
  }

  /** A normalised text is made of visible characters separated by single
      spaces, so it is empty exactly when it has no visible character. */
  lemma {:induction false} NormalizedEmptyIffInvisible(s: string)
    requires IsStripped(s) && SingleSpaced(s) && AllAscii(s)
    ensures s == [] <==> Visible(s) == []
  {
    if s != [] {
      assert VisibleChar(s[0]);
      VisibleAppend([s[0]], s[1..]);
      assert s == [s[0]] + s[1..];
    }
  }

  /** The result is empty exactly when the input holds no visible ASCII
      character and no bullet. */
  lemma PreprocessEmptyIff(s: string)
    ensures Preprocess(s) == [] <==> Visible(ReplaceBullets(s)) == []
  {
    PreprocessKeepsVisible(s);
    NormalizedEmptyIffInvisible(Preprocess(s));
  }

  lemma {:induction false} StripNonAsciiOfAscii(s: string)
    requires AllAscii(s)
    ensures StripNonAscii(s) == s
    decreases |s|
  {
    if s != [] {
      StripNonAsciiOfAscii(s[1..]);
    }
  }

  lemma {:induction false} CollapseOfSingleSpaced(s: string)
    requires SingleSpaced(s)
    ensures CollapseSpace(s) == s
    decreases |s|
  {
    if s != [] {
      if IsSpace(s[0]) {
        assert LeadCount(s) == 1 by {
          if |s| > 1 {
            assert !IsSpace(s[1]);
            assert LeadCount(s[1..]) == 0;
          }
        }
      }
      CollapseOfSingleSpaced(s[1..]);
    }
  }

  /** Already-normalised text is a fixed point. */
  lemma PreprocessOfNormalized(s: string)
    requires Normalized(s)
    ensures Preprocess(s) == s
  {
    assert ReplaceBullets(s) == s;
    StripNonAsciiOfAscii(s);
    CollapseOfSingleSpaced(s);
  }

  /** `_preprocess_text` is idempotent. */
  lemma PreprocessIdempotent(s: string)
    ensures Preprocess(Preprocess(s)) == Preprocess(s)
  {
    PreprocessOfNormalized(Preprocess(s));
  }

  function Count(c: char, s: string): nat {
    if s == [] then 0 else (if s[0] == c then 1 else 0) + Count(c, s[1..])
  }

  lemma {:induction false} CountOfVisible(c: char, s: string)
    requires VisibleChar(c)
    ensures Count(c, Visible(s)) == Count(c, s)
    decreases |s|
  {
    if s != [] {
      CountOfVisible(c, s[1..]);
      CountAppend(c, if VisibleChar(s[0]) then [s[0]] else [], Visible(s[1..]));
    }
  }

  lemma {:induction false} CountAppend(c: char, a: string, b: string)
    ensures Count(c, a + b) == Count(c, a) + Count(c, b)
    decreases |a|
  {
    if a == [] {
      assert a + b == b;
    } else {
      assert (a + b)[1..] == a[1..] + b;
      CountAppend(c, a[1..], b);
    }
  }

  lemma {:induction false} CountOfReplaced(s: string)
    ensures Count('-', ReplaceBullets(s)) == Count('-', s) + Count(Bullet, s)
    decreases |s|
  {
    if s != [] {
      assert ReplaceBullets(s)[1..] == ReplaceBullets(s[1..]);
      CountOfReplaced(s[1..]);
    }
  }

  /** Each bullet turns into a dash that survives the non-ASCII strip: the
      output has as many dashes as the input has dashes and bullets. */
  lemma PreprocessDashes(s: string)
    ensures Count('-', Preprocess(s)) == Count('-', s) + Count(Bullet, s)
  {
    PreprocessKeepsVisible(s);
    CountOfVisible('-', Preprocess(s));
    CountOfVisible('-', ReplaceBullets(s));
    CountOfReplaced(s);
  }
}

=== FILE: response_repair.dfy ===
/** `LLMService._extract_json_from_response`: choosing the JSON text inside
    the language model's reply, and the one-shot repair applied when the
    strict parse fails. `json.loads` itself is not part of this model: it is
    the parameter `parse`, None standing for `json.JSONDecodeError`. */
module ResponseRepair {
  import opened Wrappers
  import opened Text
  import opened JsonValues
  import opened Seqs

  const Fence := "```"

  predicate FenceAt(s: string, i: int) {
    0 <= i && i + 3 <= |s| && s[i..i + 3] == Fence
  }

  /** End of the opening of a fenced block at `p`: the three backticks, an
      optional `json` tag and the whitespace `\s*` takes greedily. */
  function OpenerEnd(s: string, p: nat): (a: nat)
    requires FenceAt(s, p)
    ensures p + 3 <= a <= |s|
    ensures forall i :: p + 3 <= i < a ==> s[i] != '`'
  {
    var a0 := p + 3;
    var a1 := if StartsWith(s[a0..], "json") then a0 + 4 else a0;
    assert forall i :: a0 <= i < a1 ==> s[i] == "json"[i - a0];
    a1 + LeadCount(s[a1..])
  }

  /** Whitespace and then a closing fence follow position `b`. */
  predicate CloseAt(s: string, b: int) {
    0 <= b <= |s| && FenceAt(s, b + LeadCount(s[b..]))
  }

  /** The lazy group `([\s\S]*?)` followed by `\s*```: the first end `b`
      from which whitespace and then a fence follow. */
  function CloseFrom(s: string, b: nat): (r: Option<nat>)
    requires b <= |s|
    ensures r.Some? ==> b <= r.value <= |s| && CloseAt(s, r.value)
    ensures r.Some? ==> forall b' :: b <= b' < r.value ==> !CloseAt(s, b')
    ensures r.None? ==> forall b' :: b <= b' <= |s| ==> !CloseAt(s, b')
    decreases |s| - b
  {
    if CloseAt(s, b) then Some(b)
    else if b == |s| then None
    else CloseFrom(s, b + 1)
  }

  /** The pattern ```` ```(?:json)?\s*([\s\S]*?)\s*``` ```` tried at `p`:
      the bounds of group 1. */
  function FenceMatchAt(s: string, p: nat): (r: Option<(nat, nat)>)
    requires p <= |s|
    ensures r.Some? ==> FenceAt(s, p) && p + 3 <= r.value.0 <= r.value.1 <= |s|
    ensures r.Some? ==> CloseAt(s, r.value.1)
  {
    if !FenceAt(s, p) then None
    else
      match CloseFrom(s, OpenerEnd(s, p))
      case Some(b) => Some((OpenerEnd(s, p), b))
      case None => None
  }

  /** `re.search` of the fence pattern from `p` on. */
  function SearchFence(s: string, p: nat): (r: Option<(nat, nat)>)
    requires p <= |s|
    ensures r.Some? ==> exists q :: p <= q <= |s| && FenceMatchAt(s, q) == r
    ensures r.None? ==> forall q :: p <= q <= |s| ==> FenceMatchAt(s, q).None?
    decreases |s| - p
  {
    match FenceMatchAt(s, p)
    case Some(m) => Some(m)
    case None => if p == |s| then None else SearchFence(s, p + 1)
  }

  /** Bounds of the fenced block's content, if the reply has one. */
  function FencedSpan(s: string): Option<(nat, nat)> {
    SearchFence(s, 0)
  }

  /** Two non-overlapping fences, the first at `p`, always give a match at
      `p`: nothing between the opening fence and the end of its opener is a
      backtick. */
  lemma FenceMatchFound(s: string, p: nat, q: nat)
    requires FenceAt(s, p) && FenceAt(s, q) && p + 3 <= q
    ensures FenceMatchAt(s, p).Some?
  {
    var a := OpenerEnd(s, p);
    assert s[q] == s[q..q + 3][0] == '`';
    assert q >= a;
    assert s[q..][0] == '`';
    assert LeadCount(s[q..]) == 0;
    assert CloseAt(s, q);
  }

  lemma FencedSpanSound(s: string)
    requires FencedSpan(s).Some?
    ensures exists p, q :: FenceAt(s, p) && FenceAt(s, q) && p + 3 <= q
  {
    var m := FencedSpan(s).value;
    var p :| 0 <= p <= |s| && FenceMatchAt(s, p) == Some(m);
    CloseWitness(s, m.0, m.1);
  }

  lemma CloseWitness(s: string, a: nat, b: nat)
    requires a <= b && CloseAt(s, b)
    ensures exists q :: FenceAt(s, q) && a <= q
  {
    var q := b + LeadCount(s[b..]);
    assert FenceAt(s, q);
  }

  lemma FencedSpanComplete(s: string, p: nat, q: nat)
    requires FenceAt(s, p) && FenceAt(s, q) && p + 3 <= q
    ensures FencedSpan(s).Some?
  {
    FenceMatchFound(s, p, q);
  }

  /** A fenced block is found exactly when the reply holds two
      non-overlapping runs of three backticks. */
  lemma FencedSpanIff(s: string)
    ensures FencedSpan(s).Some? <==> exists p, q :: FenceAt(s, p) && FenceAt(s, q) && p + 3 <= q
  {
    if FencedSpan(s).Some? {
      FencedSpanSound(s);
    }
    if exists p, q :: FenceAt(s, p) && FenceAt(s, q) && p + 3 <= q {
      var p, q :| FenceAt(s, p) && FenceAt(s, q) && p + 3 <= q;
      FencedSpanComplete(s, p, q);
    }
  }

  function FirstIndex(s: string, c: char, from: nat): (r: Option<nat>)
    requires from <= |s|
    ensures r.Some? ==> from <= r.value < |s| && s[r.value] == c
    ensures r.Some? ==> forall i :: from <= i < r.value ==> s[i] != c
    ensures r.None? ==> forall i :: from <= i < |s| ==> s[i] != c
    decreases |s| - from
  {
    if from == |s| then None
    else if s[from] == c then Some(from)
    else FirstIndex(s, c, from + 1)
  }

  function LastIndex(s: string, c: char): (r: Option<nat>)
    ensures r.Some? ==> r.value < |s| && s[r.value] == c
    ensures r.Some? ==> forall i :: r.value < i < |s| ==> s[i] != c
    ensures r.None? ==> forall i :: 0 <= i < |s| ==> s[i] != c
  {
    if s == [] then None
    else if s[|s| - 1] == c then Some(|s| - 1)
    else LastIndex(s[..|s| - 1], c)
  }

  /** `re.search(r'(\{[\s\S]*\})', s)`: from the first `{` to the last `}`
      after it. */
  function CurlySpan(s: string): (r: Option<(nat, nat)>)
    ensures r.Some? ==> r.value.0 + 1 < r.value.1 <= |s|
    ensures r.Some? ==> s[r.value.0] == '{' && s[r.value.1 - 1] == '}'
    ensures r.Some? ==> forall i :: 0 <= i < r.value.0 ==> s[i] != '{'
    ensures r.Some? ==> forall i :: r.value.1 <= i < |s| ==> s[i] != '}'
    ensures r.None? <==> forall i, j :: 0 <= i < j < |s| && s[i] == '{' ==> s[j] != '}'
  {
    match (FirstIndex(s, '{', 0), LastIndex(s, '}'))
    case (Some(p), Some(q)) =>
      if p < q then Some((p, q + 1))
      else
        assert forall i, j :: 0 <= i < j < |s| && s[i] == '{' ==> s[j] != '}' by {
          forall i, j | 0 <= i < j < |s| && s[i] == '{' ensures s[j] != '}' {
            assert p <= i;
          }
        }
        None
    case _ => None
  }

  /** The text handed to the strict parse: the fenced block's content when
      there is one, else the brace-delimited span, else nothing. */
  function CandidateText(s: string): (r: Option<string>)
    ensures FencedSpan(s).Some? ==> r == Some(s[FencedSpan(s).value.0..FencedSpan(s).value.1])
    ensures FencedSpan(s).None? && CurlySpan(s).Some? ==> r == Some(s[CurlySpan(s).value.0..CurlySpan(s).value.1])
    ensures r.None? <==> FencedSpan(s).None? && CurlySpan(s).None?
  {
    match FencedSpan(s)
    case Some((a, b)) => Some(s[a..b])
    case None =>
      match CurlySpan(s)
      case Some((p, e)) => Some(s[p..e])
      case None => None
  }

  // --------------------------------------------------------------- repair

  /** `s.replace("'", "\"")`. */
  function ReplaceQuotes(s: string): (r: string)
    ensures |r| == |s|
    ensures forall i :: 0 <= i < |s| ==> r[i] == (if s[i] == '\'' then '"' else s[i])
  {
    seq(|s|, i requires 0 <= i < |s| => if s[i] == '\'' then '"' else s[i])
  }

  /** `re.sub(r',\s*' + close, close, s)`: a single left-to-right pass that
      removes each comma followed by optional whitespace and `close`,
      together with that whitespace. */
  function DropTrailingCommas(s: string, close: char): (r: string)
    ensures forall i :: 0 <= i < |r| ==> r[i] == close || r[i] in s
    ensures |r| <= |s|
    decreases |s|
  {
    if s == [] then []
    else if s[0] == ',' && 1 + LeadCount(s[1..]) < |s| && s[1 + LeadCount(s[1..])] == close then
      [close] + DropTrailingCommas(s[2 + LeadCount(s[1..])..], close)
    else
      [s[0]] + DropTrailingCommas(s[1..], close)
  }

  /** The repair applied after a failed strict parse. */
  function Repair(s: string): (r: string)
    ensures forall i :: 0 <= i < |r| ==> r[i] != '\''
  {
    DropTrailingCommas(DropTrailingCommas(ReplaceQuotes(s), '}'), ']')
  }

  /** `_extract_json_from_response`: no candidate text gives None; otherwise
      the strict parse is tried, and only when it fails is the repaired text
      parsed, exactly once more. */
  function ExtractJson(response: string, parse: string -> Option<Json>): (r: Option<Json>)
    ensures CandidateText(response).None? ==> r.None?
    ensures CandidateText(response).Some? && parse(CandidateText(response).value).Some? ==>
      r == parse(CandidateText(response).value)
    ensures CandidateText(response).Some? && parse(CandidateText(response).value).None? ==>
      r == parse(Repair(CandidateText(response).value))
    ensures r.Some? ==> CandidateText(response).Some?
  {
    match CandidateText(response)
    case None => None
    case Some(text) =>
      match parse(text)
      case Some(v) => Some(v)
      case None => parse(Repair(text))
  }

  /** A fenced block wins over any brace-delimited span. */
  lemma FenceTakesPriority(response: string, parse: string -> Option<Json>)
    requires FencedSpan(response).Some?
    ensures var (a, b) := FencedSpan(response).value;
      ExtractJson(response, parse) ==
        if parse(response[a..b]).Some? then parse(response[a..b]) else parse(Repair(response[a..b]))
  {
  }

  // ------------------------------------------------- what the repair does

  /** The first non-whitespace character after the comma at `i`, if any. */
  function CommaFollower(s: string, i: nat): Option<char>
    requires i < |s|
  {
    var t := s[i + 1..];
    if LeadCount(t) < |t| then Some(t[LeadCount(t)]) else None
  }

  /** No comma in `s` is followed, after optional whitespace, by a
      character of `xs`. */
  predicate CommasAvoid(s: string, xs: set<char>) {
    forall i :: 0 <= i < |s| && s[i] == ',' ==> CommaFollower(s, i).None? || CommaFollower(s, i).value !in xs
  }

  lemma CommaFollowerShift(h: char, d: string, i: nat)
    requires i < |d|
    ensures CommaFollower([h] + d, i + 1) == CommaFollower(d, i)
  {
    assert ([h] + d)[i + 2..] == d[i + 1..];
  }

  lemma CommasAvoidSuffix(s: string, j: nat, xs: set<char>)
    requires j <= |s| && CommasAvoid(s, xs)
    ensures CommasAvoid(s[j..], xs)
  {
    forall i | 0 <= i < |s[j..]| && s[j..][i] == ','
      ensures CommaFollower(s[j..], i).None? || CommaFollower(s[j..], i).value !in xs
    {
      assert s[j..][i + 1..] == s[j + i + 1..];
      assert CommaFollower(s[j..], i) == CommaFollower(s, j + i);
    }
  }

  lemma CommasAvoidCons(h: char, d: string, xs: set<char>)
    requires CommasAvoid(d, xs)
    requires h == ',' ==> CommaFollower([h] + d, 0).None? || CommaFollower([h] + d, 0).value !in xs
    ensures CommasAvoid([h] + d, xs)
  {
    var s := [h] + d;
    forall i | 1 <= i < |s| && s[i] == ','
      ensures CommaFollower(s, i).None? || CommaFollower(s, i).value !in xs
    {
      assert s[i] == d[i - 1];
      assert CommaFollower(d, i - 1).None? || CommaFollower(d, i - 1).value !in xs;
      CommaFollowerShift(h, d, i - 1);
    }
    assert s[0] == h;
  }

  /** The pass copies leading whitespace and the first other character
      unchanged when that character is not a comma. */
  lemma {:induction false} DropKeepsLead(t: string, close: char)
    ensures LeadCount(t) == |t| ==> DropTrailingCommas(t, close) == t
    ensures LeadCount(t) < |t| && t[LeadCount(t)] != ',' ==>
      LeadCount(DropTrailingCommas(t, close)) == LeadCount(t) < |DropTrailingCommas(t, close)|
      && DropTrailingCommas(t, close)[LeadCount(t)] == t[LeadCount(t)]
    decreases |t|
  {
    if t != [] && IsSpace(t[0]) {
      DropKeepsLead(t[1..], close);
    }
  }

  /** A comma the pass keeps is followed in the output by what followed it
      in the input. */
  lemma KeptCommaAvoids(s: string, close: char, xs: set<char>)
    requires ',' in xs && s != [] && s[0] == ',' && CommasAvoid(s, xs)
    requires !(1 + LeadCount(s[1..]) < |s| && s[1 + LeadCount(s[1..])] == close)
    ensures var h := [s[0]] + DropTrailingCommas(s[1..], close);
      CommaFollower(h, 0).None? || CommaFollower(h, 0).value !in xs + {close}
  {
    var d := DropTrailingCommas(s[1..], close);
    assert CommaFollower(s, 0).None? || CommaFollower(s, 0).value !in xs;
    assert CommaFollower(s, 0) == CommaFollower([','] + s[1..], 0) by {
      assert s == [','] + s[1..];
    }
    DropKeepsLead(s[1..], close);
    assert ([s[0]] + d)[1..] == d;
  }

  /** One pass removes every comma followed by `close` and introduces no new
      comma follower: if no comma of the input is followed by a character of
      `xs` (a set holding the comma), none of the output is followed by one
      of `xs` or by `close`. */
  lemma {:induction false} DropAvoids(s: string, close: char, xs: set<char>)
    requires ',' in xs && close != ','
    requires CommasAvoid(s, xs)
    ensures CommasAvoid(DropTrailingCommas(s, close), xs + {close})
    decreases |s|
  {
    if s == [] {
    } else if s[0] == ',' && 1 + LeadCount(s[1..]) < |s| && s[1 + LeadCount(s[1..])] == close {
      var j := 2 + LeadCount(s[1..]);
      CommasAvoidSuffix(s, j, xs);
      DropAvoids(s[j..], close, xs);
      assert DropTrailingCommas(s, close) == [close] + DropTrailingCommas(s[j..], close);
      CommasAvoidCons(close, DropTrailingCommas(s[j..], close), xs + {close});
    } else {
      CommasAvoidSuffix(s, 1, xs);
      DropAvoids(s[1..], close, xs);
      var d := DropTrailingCommas(s[1..], close);
      if s[0] == ',' {
        KeptCommaAvoids(s, close, xs);
      }
      assert DropTrailingCommas(s, close) == [s[0]] + d;
      CommasAvoidCons(s[0], d, xs + {close});
    }
  }

  lemma {:induction false} ReplaceQuotesKeepsLead(t: string)
    ensures LeadCount(ReplaceQuotes(t)) == LeadCount(t)
    decreases |t|
  {
    if t != [] {
      assert ReplaceQuotes(t)[1..] == ReplaceQuotes(t[1..]);
      ReplaceQuotesKeepsLead(t[1..]);
    }
  }

  lemma ReplaceQuotesKeepsCommas(s: string)
    requires CommasAvoid(s, {','})
    ensures CommasAvoid(ReplaceQuotes(s), {','})
  {
    var r := ReplaceQuotes(s);
    forall i | 0 <= i < |r| && r[i] == ','
      ensures CommaFollower(r, i).None? || CommaFollower(r, i).value != ','
    {
      assert r[i + 1..] == ReplaceQuotes(s[i + 1..]);
      ReplaceQuotesKeepsLead(s[i + 1..]);
    }
  }

  /** As long as the text never has two commas separated only by whitespace,
      the repaired text has no trailing comma before `}` or `]` and no
      apostrophe, so a string value that contained an apostrophe cannot
      come through the repair unchanged. */
  lemma RepairRemovesTrailingCommas(s: string)
    requires CommasAvoid(s, {','})
    ensures CommasAvoid(Repair(s), {',', '}', ']'})
    ensures forall i :: 0 <= i < |Repair(s)| ==> Repair(s)[i] != '\''
  {
    ReplaceQuotesKeepsCommas(s);
    var q := ReplaceQuotes(s);
    DropAvoids(q, '}', {','});
    var d := DropTrailingCommas(q, '}');
    DropAvoids(d, ']', {',', '}'});
    assert {',', '}'} + {']'} == {',', '}', ']'};
  }

  lemma {:induction false} DropOfClean(s: string, close: char)
    requires CommasAvoid(s, {close})
    ensures DropTrailingCommas(s, close) == s
    decreases |s|
  {
    if s != [] {
      CommasAvoidSuffix(s, 1, {close});
      DropOfClean(s[1..], close);
      if s[0] == ',' && 1 + LeadCount(s[1..]) < |s| {
        assert CommaFollower(s, 0) == Some(s[1 + LeadCount(s[1..])]);
      }
    }
  }

  /** Text without apostrophes and without trailing commas is left exactly
      as it is. */
  lemma RepairOfClean(s: string)
    requires forall i :: 0 <= i < |s| ==> s[i] != '\''
    requires CommasAvoid(s, {'}', ']'})
    ensures Repair(s) == s
  {
    assert ReplaceQuotes(s) == s;
    assert CommasAvoid(s, {'}'}) && CommasAvoid(s, {']'});
    DropOfClean(s, '}');
    DropOfClean(s, ']');
  }

  // ------------------------------------------------ what the repair keeps

  /** A character the comma pass never deletes: neither a comma nor
      whitespace. Both closers are solid. */
  predicate Solid(c: char) {
    c != ',' && !IsSpace(c)
  }

  /** Occurrences of `x` in `s`. */
  function Count(s: string, x: char): nat {
    if s == [] then 0 else (if s[0] == x then 1 else 0) + Count(s[1..], x)
  }

  lemma {:induction false} CountAppend(a: string, b: string, x: char)
    ensures Count(a + b, x) == Count(a, x) + Count(b, x)
  {
    if a == [] {
      assert a + b == b;
    } else {
      assert (a + b)[1..] == a[1..] + b;
      CountAppend(a[1..], b, x);
    }
  }

  lemma {:induction false} CountAbsent(s: string, x: char)
    requires forall i :: 0 <= i < |s| ==> s[i] != x
    ensures Count(s, x) == 0
  {
    if s != [] {
      CountAbsent(s[1..], x);
    }
  }

  /** What the pass deletes in one step: a comma, the whitespace after it,
      and nothing of the `close` that ends the match. */
  lemma DeletedShape(s: string, close: char)
    requires s != [] && s[0] == ',' && 1 + LeadCount(s[1..]) < |s| && s[1 + LeadCount(s[1..])] == close
    ensures var j := 2 + LeadCount(s[1..]);
      s == [','] + s[1..j - 1] + [close] + s[j..] && AllSpace(s[1..j - 1])
  {
    var j := 2 + LeadCount(s[1..]);
    assert s[1..j - 1] == s[1..][..LeadCount(s[1..])];
  }

  /** The pass deletes only commas and whitespace: every solid character
      of the input comes through, in order, and no other is added. */
  lemma {:induction false} DropKeepsSolid(s: string, close: char)
    requires Solid(close)
    ensures Filter(DropTrailingCommas(s, close), Solid) == Filter(s, Solid)
    decreases |s|
  {
    if s == [] {
    } else if s[0] == ',' && 1 + LeadCount(s[1..]) < |s| && s[1 + LeadCount(s[1..])] == close {
      var j := 2 + LeadCount(s[1..]);
      DeletedShape(s, close);
      var gap := [','] + s[1..j - 1];
      assert s == gap + ([close] + s[j..]);
      forall i | 0 <= i < |gap| ensures !Solid(gap[i]) {
        if i > 0 {
          assert gap[i] == s[1..j - 1][i - 1];
        }
      }
      FilterNone(gap, Solid);
      FilterAppend(gap, [close] + s[j..], Solid);
      FilterCons(close, s[j..], Solid);
      var d := DropTrailingCommas(s[j..], close);
      DropKeepsSolid(s[j..], close);
      assert DropTrailingCommas(s, close) == [close] + d;
      FilterCons(close, d, Solid);
    } else {
      var d := DropTrailingCommas(s[1..], close);
      assert s == [s[0]] + s[1..];
      DropKeepsSolid(s[1..], close);
      assert DropTrailingCommas(s, close) == [s[0]] + d;
      FilterCons(s[0], s[1..], Solid);
      FilterCons(s[0], d, Solid);
    }
  }

  /** The pass adds no comma, keeps every `close`, and deletes at most one
      comma per `close` of the input. */
  lemma {:induction false} DropCountsCommas(s: string, close: char)
    requires Solid(close)
    ensures var r := DropTrailingCommas(s, close);
      && Count(r, close) == Count(s, close)
      && Count(r, ',') <= Count(s, ',')
      && Count(s, ',') - Count(r, ',') <= Count(s, close)
    decreases |s|
  {
    if s == [] {
    } else if s[0] == ',' && 1 + LeadCount(s[1..]) < |s| && s[1 + LeadCount(s[1..])] == close {
      var j := 2 + LeadCount(s[1..]);
      var d := DropTrailingCommas(s[j..], close);
      DropCountsCommas(s[j..], close);
      DeletedCounts(s, close);
      assert DropTrailingCommas(s, close) == [close] + d;
      CountCons(close, d, ',');
      CountCons(close, d, close);
    } else {
      var d := DropTrailingCommas(s[1..], close);
      DropCountsCommas(s[1..], close);
      assert DropTrailingCommas(s, close) == [s[0]] + d;
      CountCons(s[0], d, ',');
      CountCons(s[0], d, close);
    }
  }

  lemma CountCons(c: char, d: string, x: char)
    ensures Count([c] + d, x) == (if c == x then 1 else 0) + Count(d, x)
  {
    assert ([c] + d)[1..] == d;
  }

  /** A match holds one comma and one `close`, and nothing else counted. */
  lemma DeletedCounts(s: string, close: char)
    requires Solid(close)
    requires s != [] && s[0] == ',' && 1 + LeadCount(s[1..]) < |s| && s[1 + LeadCount(s[1..])] == close
    ensures var j := 2 + LeadCount(s[1..]);
      && Count(s, ',') == 1 + Count(s[j..], ',')
      && Count(s, close) == 1 + Count(s[j..], close)
  {
    var t := s[1..];
    assert s == [','] + t;
    assert t[LeadCount(t)..] == [close] + s[2 + LeadCount(t)..];
    CountsOfMatch(t, s[2 + LeadCount(t)..], close);
  }

  lemma CountsOfMatch(t: string, rest: string, close: char)
    requires Solid(close) && LeadCount(t) < |t| && t[LeadCount(t)..] == [close] + rest
    ensures Count([','] + t, ',') == 1 + Count(rest, ',')
    ensures Count([','] + t, close) == 1 + Count(rest, close)
  {
    var n := LeadCount(t);
    assert t == t[..n] + ([close] + rest);
    CountAbsent(t[..n], ',');
    CountAppend(t[..n], [close] + rest, ',');
    CountCons(close, rest, ',');
    CountAbsent(t[..n], close);
    CountAppend(t[..n], [close] + rest, close);
    CountCons(close, rest, close);
    CountCons(',', t, ',');
    CountCons(',', t, close);
  }

  /** One comma, with any whitespace after it, put before a `close` of a
      text that has no trailing comma is removed again and nothing else
      changes: the pass undoes exactly the defect it is meant for. */
  lemma {:induction false} DropRemovesInserted(t: string, k: nat, w: string, close: char)
    requires Solid(close) && AllSpace(w)
    requires k < |t| && t[k] == close && CommasAvoid(t, {close})
    ensures DropTrailingCommas(t[..k] + [','] + w + t[k..], close) == t
    decreases k
  {
    CommasAvoidSuffix(t, 1, {close});
    if k == 0 {
      assert t[..k] + [','] + w + t[k..] == [','] + w + t;
      DropAtInserted(t, w, close);
    } else {
      DropRemovesInserted(t[1..], k - 1, w, close);
      InsertedStep(t, k, w, close);
      DropCopiesHead(t[..k] + [','] + w + t[k..], t, close);
    }
  }

  /** The step: the head of the text comes first and is copied, and the
      rest is the shorter instance. */
  lemma InsertedStep(t: string, k: nat, w: string, close: char)
    requires Solid(close) && AllSpace(w)
    requires 0 < k < |t| && t[k] == close && CommasAvoid(t, {close})
    ensures var u := t[..k] + [','] + w + t[k..];
      && u != [] && u[0] == t[0]
      && u[1..] == t[1..][..k - 1] + [','] + w + t[1..][k - 1..]
      && !(u[0] == ',' && 1 + LeadCount(u[1..]) < |u| && u[1 + LeadCount(u[1..])] == close)
  {
    var u := t[..k] + [','] + w + t[k..];
    var x := [','] + w;
    InsertedTail(t, k, x);
    assert u == t[..k] + x + t[k..];
    assert t[1..][..k - 1] + [','] + w + t[1..][k - 1..] == t[1..][..k - 1] + x + t[1..][k - 1..];
    if t[0] == ',' {
      KeptHeadComma(t, k, w, close);
    }
  }

  /** Dropping the head of a text with an insertion after it. */
  lemma InsertedTail<T>(t: seq<T>, k: nat, x: seq<T>)
    requires 0 < k <= |t|
    ensures var u := t[..k] + x + t[k..];
      u != [] && u[0] == t[0] && u[1..] == t[1..][..k - 1] + x + t[1..][k - 1..]
  {
    assert t[1..][..k - 1] == t[1..k] && t[1..][k - 1..] == t[k..];
    assert (t[..k] + x + t[k..])[1..] == t[1..k] + x + t[k..];
  }

  /** Anything but a comma followed by whitespace and `close` is copied. */
  lemma DropCopiesHead(s: string, t: string, close: char)
    requires s != [] && !(s[0] == ',' && 1 + LeadCount(s[1..]) < |s| && s[1 + LeadCount(s[1..])] == close)
    requires t != [] && s[0] == t[0] && DropTrailingCommas(s[1..], close) == t[1..]
    ensures DropTrailingCommas(s, close) == t
  {
    assert t == [t[0]] + t[1..];
  }

  /** The inserted comma itself: it, its whitespace and nothing more go. */
  lemma DropAtInserted(t: string, w: string, close: char)
    requires Solid(close) && AllSpace(w)
    requires t != [] && t[0] == close && CommasAvoid(t[1..], {close})
    ensures DropTrailingCommas([','] + w + t, close) == t
  {
    var u := [','] + w + t;
    assert u[1..] == w + t;
    LeadCountAppend(w, t);
    assert u[1 + |w|] == close;
    assert u[2 + |w|..] == t[1..];
    DropOfClean(t[1..], close);
    assert t == [close] + t[1..];
  }

  /** A comma of the text before the inserted one is not followed by
      `close`: its whitespace ends at a solid character of the text, or at
      the inserted comma. */
  lemma KeptHeadComma(t: string, k: nat, w: string, close: char)
    requires Solid(close) && AllSpace(w)
    requires 0 < k < |t| && t[0] == ',' && t[k] == close && CommasAvoid(t, {close})
    ensures var u := t[..k] + [','] + w + t[k..];
      !(1 + LeadCount(u[1..]) < |u| && u[1 + LeadCount(u[1..])] == close)
  {
    var u := t[..k] + [','] + w + t[k..];
    var a := t[1..k];
    assert t[1..] == a + t[k..];
    LeadCountAppend(a, t[k..]);
    assert CommaFollower(t, 0) == Some(t[1 + LeadCount(t[1..])]);
    assert LeadCount(a) < |a|;
    assert u[1..] == a + ([','] + w + t[k..]);
    LeadCountAppend(a, [','] + w + t[k..]);
    assert u[1 + LeadCount(u[1..])] == t[1 + LeadCount(t[1..])];
  }

  /** The inserted comma is followed by `close` and by nothing else, so a
      text free of commas before `other` stays free of them. */
  lemma InsertedAvoids(t: string, k: nat, w: string, close: char, other: char)
    requires Solid(close) && AllSpace(w) && other != ',' && other != close
    requires k < |t| && t[k] == close && CommasAvoid(t, {other})
    ensures CommasAvoid(t[..k] + [','] + w + t[k..], {other})
  {
    var u := t[..k] + [','] + w + t[k..];
    forall i | 0 <= i < |u| && u[i] == ','
      ensures CommaFollower(u, i).None? || CommaFollower(u, i).value != other
    {
      if i < k {
        FollowerBefore(t, k, w, i);
      } else if i == k {
        FollowerAtInserted(t, k, w);
      } else if i >= k + 1 + |w| {
        FollowerAfter(t, k, w, i);
      }
    }
  }

  /** A comma before the insertion has the follower it had, or the
      inserted comma. */
  lemma FollowerBefore(t: string, k: nat, w: string, i: nat)
    requires i < k < |t|
    ensures var u := t[..k] + [','] + w + t[k..];
      i < |u| && u[i] == t[i]
      && (CommaFollower(u, i) == CommaFollower(t, i) || CommaFollower(u, i) == Some(','))
  {
    var u := t[..k] + [','] + w + t[k..];
    var a := t[i + 1..k];
    assert u[i] == t[i];
    assert t[i + 1..] == a + t[k..];
    assert u[i + 1..] == a + ([','] + w + t[k..]);
    LeadCountAppend(a, t[k..]);
    LeadCountAppend(a, [','] + w + t[k..]);
  }

  lemma FollowerAtInserted(t: string, k: nat, w: string)
    requires AllSpace(w) && k < |t| && !IsSpace(t[k])
    ensures var u := t[..k] + [','] + w + t[k..];
      k < |u| && CommaFollower(u, k) == Some(t[k])
  {
    var u := t[..k] + [','] + w + t[k..];
    assert u[k + 1..] == w + t[k..];
    LeadCountAppend(w, t[k..]);
  }

  /** A comma after the insertion has the follower it had. */
  lemma FollowerAfter(t: string, k: nat, w: string, i: nat)
    requires k < |t| && k + 1 + |w| <= i < |t| + 1 + |w|
    ensures var u := t[..k] + [','] + w + t[k..];
      i < |u| && u[i] == t[i - 1 - |w|] && CommaFollower(u, i) == CommaFollower(t, i - 1 - |w|)
  {
    var u := t[..k] + [','] + w + t[k..];
    assert u[i] == t[i - 1 - |w|];
    assert u[i + 1..] == t[i - |w|..];
  }

  /** The repair deletes only commas and whitespace: the solid characters
      of the input come through in order, apostrophes turned into double
      quotes. */
  lemma RepairKeepsSolid(s: string)
    ensures Filter(Repair(s), Solid) == Filter(ReplaceQuotes(s), Solid)
  {
    var q := ReplaceQuotes(s);
    DropKeepsSolid(q, '}');
    DropKeepsSolid(DropTrailingCommas(q, '}'), ']');
  }

  lemma {:induction false} ReplaceQuotesCounts(s: string, x: char)
    requires x != '\'' && x != '"'
    ensures Count(ReplaceQuotes(s), x) == Count(s, x)
  {
    if s != [] {
      assert ReplaceQuotes(s)[1..] == ReplaceQuotes(s[1..]);
      ReplaceQuotesCounts(s[1..], x);
    }
  }

  /** The repair adds no comma and deletes at most one per closer. */
  lemma RepairCountsCommas(s: string)
    ensures Count(Repair(s), ',') <= Count(s, ',')
    ensures Count(s, ',') - Count(Repair(s), ',') <= Count(s, '}') + Count(s, ']')
  {
    var q := ReplaceQuotes(s);
    ReplaceQuotesCounts(s, ',');
    ReplaceQuotesCounts(s, '}');
    ReplaceQuotesCounts(s, ']');
    DropCountsCommas(q, '}');
    var d := DropTrailingCommas(q, '}');
    DropCountsCommas(d, ']');
    DropKeepsSolid(q, '}');
    SolidCount(d, q, ']');
  }

  /** Texts with the same solid characters hold the same number of each. */
  lemma {:induction false} SolidCount(a: string, b: string, x: char)
    requires Solid(x) && Filter(a, Solid) == Filter(b, Solid)
    ensures Count(a, x) == Count(b, x)
  {
    SolidCountIsFiltered(a, x);
    SolidCountIsFiltered(b, x);
  }

  lemma {:induction false} SolidCountIsFiltered(s: string, x: char)
    requires Solid(x)
    ensures Count(s, x) == Count(Filter(s, Solid), x)
  {
    if s != [] {
      SolidCountIsFiltered(s[1..], x);
      assert s == [s[0]] + s[1..];
      FilterCons(s[0], s[1..], Solid);
      if Solid(s[0]) {
        assert ([s[0]] + Filter(s[1..], Solid))[1..] == Filter(s[1..], Solid);
      }
    }
  }

  /** A text without apostrophes or trailing commas, given one trailing
      comma before a `}` or a `]`, is repaired back to itself. */
  lemma RepairRemovesInserted(t: string, k: nat, w: string)
    requires forall i :: 0 <= i < |t| ==> t[i] != '\''
    requires CommasAvoid(t, {'}', ']'}) && AllSpace(w)
    requires k < |t| && (t[k] == '}' || t[k] == ']')
    ensures Repair(t[..k] + [','] + w + t[k..]) == t
  {
    var u := t[..k] + [','] + w + t[k..];
    assert forall i :: 0 <= i < |u| ==> u[i] != '\'';
    assert ReplaceQuotes(u) == u;
    assert CommasAvoid(t, {'}'}) && CommasAvoid(t, {']'});
    if t[k] == '}' {
      DropRemovesInserted(t, k, w, '}');
      DropOfClean(t, ']');
    } else {
      InsertedAvoids(t, k, w, ']', '}');
      DropOfClean(u, '}');
      DropRemovesInserted(t, k, w, ']');
    }
  }
}

=== FILE: round_trip.dfy ===
/** The context text the chat page sends and the pairs the service reads
    back from it: for messages that are single lines, not blank and without
    whitespace at either end, reading the formatted pairs gives the pairs. */
module RoundTrip {
  import opened Wrappers
  import opened Text
  import opened Seqs
  import opened Conversation
  import opened ChatHistory

  /** A message text that survives formatting and reading unchanged. */
  predicate Plain(t: string) {
    t != "" && IsStripped(t) && '\n' !in t
  }

  predicate PlainPair(p: QA) {
    Plain(p.user) && Plain(p.assistant)
  }

  function UserLine(p: QA): string {
    "User: " + p.user
  }

  function AssistantLine(p: QA): string {
    "Assistant: " + p.assistant
  }

  /** The lines of the formatted text: each pair's two lines, with a blank
      line between pairs. */
  function Lines(ps: seq<QA>): seq<string> {
    if ps == [] then []
    else
      var init := ps[..|ps| - 1];
      var last := ps[|ps| - 1];
      Lines(init) + (if init == [] then [] else [""]) + [UserLine(last), AssistantLine(last)]
  }

  lemma {:induction false} LinesNonEmpty(ps: seq<QA>)
    requires ps != []
    ensures |Lines(ps)| >= 2
  {
  }

  lemma RenderPairLines(p: QA)
    ensures RenderPair(p) == UserLine(p) + "\n" + AssistantLine(p)
  {
    assert "\nAssistant: " == "\n" + "Assistant: ";
  }

  /** One more pair adds a blank line and its two lines. */
  lemma JoinBlock(li: seq<string>, u: string, a: string)
    requires li != []
    ensures Join("\n", li + [""] + [u] + [a]) == Join("\n", li) + "\n\n" + (u + "\n" + a)
  {
    JoinSnoc("\n", li, "");
    JoinSnoc("\n", li + [""], u);
    JoinSnoc("\n", li + [""] + [u], a);
    Regroup(Join("\n", li), "\n", u, a);
    assert "\n" + "\n" == "\n\n";
  }

  lemma Regroup(j: string, n: string, u: string, a: string)
    ensures j + n + "" + n + u + n + a == j + (n + n) + (u + n + a)
  {
  }

  /** The text joined with blank lines between pairs is the lines joined
      with newlines. */
  lemma {:induction false} RenderedLines(ps: seq<QA>)
    ensures Join("\n\n", RenderPairs(ps)) == Join("\n", Lines(ps))
  {
    if ps != [] {
      var init := ps[..|ps| - 1];
      var last := ps[|ps| - 1];
      var u, a := UserLine(last), AssistantLine(last);
      RenderPairLines(last);
      if init == [] {
        assert Lines(ps) == [u, a];
        assert RenderPairs(ps) == [RenderPair(last)];
        assert Join("\n", [u, a]) == u + "\n" + a by {
          assert [u, a][1..] == [a];
        }
      } else {
        RenderedLines(init);
        LinesNonEmpty(init);
        assert RenderPairs(ps) == RenderPairs(init) + [RenderPair(last)];
        JoinSnoc("\n\n", RenderPairs(init), RenderPair(last));
        assert Lines(ps) == Lines(init) + [""] + [u] + [a];
        JoinBlock(Lines(init), u, a);
      }
    }
  }

  lemma {:induction false} LinesPlain(ps: seq<QA>)
    requires forall k :: 0 <= k < |ps| ==> PlainPair(ps[k])
    ensures forall k :: 0 <= k < |Lines(ps)| ==> '\n' !in Lines(ps)[k]
  {
    if ps != [] {
      var init := ps[..|ps| - 1];
      var last := ps[|ps| - 1];
      LinesPlain(init);
      assert PlainPair(last);
      assert '\n' !in UserLine(last) && '\n' !in AssistantLine(last);
    }
  }

  lemma UserLineStep(st: State, p: QA)
    requires PlainPair(p)
    requires st.role == Some(AssistantRole) && st.message != "" ==> st.pairs != []
    ensures Step(st, UserLine(p), false) == Success(State(Some(UserRole), p.user,
      (if st.role == Some(AssistantRole) && st.message != "" then SetLast(st.pairs, AssistantRole, Strip(st.message))
       else st.pairs) + [QA("", "")]))
  {
    UserTagged(p.user);
    StepUser(st, UserLine(p), false);
  }

  lemma AssistantLineStep(st: State, p: QA)
    requires PlainPair(p)
    requires st.role == Some(UserRole) && st.message == p.user && st.pairs != []
    ensures Step(st, AssistantLine(p), false) ==
      Success(State(Some(AssistantRole), p.assistant, SetLast(st.pairs, UserRole, p.user)))
  {
    AssistantTagged(p.assistant);
    StepAssistant(st, AssistantLine(p), false);
  }

  /** One pair's two lines, read after a state that is not in the middle of
      a user message. */
  lemma ReadPair(st: State, p: QA)
    requires PlainPair(p)
    requires st.role != Some(UserRole)
    requires st.role == Some(AssistantRole) && st.message != "" ==> st.pairs != []
    ensures Run(st, [UserLine(p), AssistantLine(p)], false) == Success(State(Some(AssistantRole), p.assistant,
      (if st.role == Some(AssistantRole) && st.message != "" then SetLast(st.pairs, AssistantRole, Strip(st.message))
       else st.pairs) + [QA(p.user, "")]))
  {
    var closed := if st.role == Some(AssistantRole) && st.message != "" then SetLast(st.pairs, AssistantRole, Strip(st.message)) else st.pairs;
    var st1 := State(Some(UserRole), p.user, closed + [QA("", "")]);
    var st2 := State(Some(AssistantRole), p.assistant, closed + [QA(p.user, "")]);
    UserLineStep(st, p);
    AssistantLineStep(st1, p);
    assert SetLast(st1.pairs, UserRole, p.user) == st2.pairs;
    RunTwo(st, UserLine(p), AssistantLine(p));
  }

  lemma RunTwo(st: State, x: string, y: string)
    requires Step(st, x, false).Success?
    requires Step(Step(st, x, false).value, y, false).Success?
    ensures Run(st, [x, y], false) == Step(Step(st, x, false).value, y, false)
  {
    var st1 := Step(st, x, false).value;
    assert [x, y][0] == x && [x, y][1..] == [y];
    assert Run(st, [x, y], false) == Run(st1, [y], false);
    assert [y][0] == y && [y][1..] == [];
    assert Run(st1, [y], false) == Run(Step(st1, y, false).value, [], false);
  }

  /** `Run` over two stretches of lines runs the second from where the
      first stopped. */
  lemma {:induction false} RunAppend(st: State, xs: seq<string>, ys: seq<string>)
    requires Run(st, xs, false).Success?
    ensures Run(st, xs + ys, false) == Run(Run(st, xs, false).value, ys, false)
    decreases |xs|
  {
    if xs != [] {
      var x, rest := xs[0], xs[1..];
      assert xs == [x] + rest;
      assert xs + ys == [x] + (rest + ys);
      RunCons(st, x, rest, false);
      RunCons(st, x, rest + ys, false);
      RunAppend(Step(st, x, false).value, rest, ys);
    } else {
      assert xs + ys == ys;
    }
  }

  lemma SkipBlank(st: State, lines: seq<string>)
    ensures Run(st, [""] + lines, false) == Run(st, lines, false)
  {
    StepBlank(st, "", false);
    assert ([""] + lines)[0] == "" && ([""] + lines)[1..] == lines;
  }

  /** After the lines of the first pairs, the reader holds the last answer
      as its message and every earlier pair complete. */
  lemma {:induction false} RunLines(ps: seq<QA>)
    requires ps != []
    requires forall k :: 0 <= k < |ps| ==> PlainPair(ps[k])
    ensures Run(Start, Lines(ps), false) == Success(Pending(ps))
  {
    var init := ps[..|ps| - 1];
    var last := ps[|ps| - 1];
    if init == [] {
      assert Lines(ps) == [UserLine(last), AssistantLine(last)];
      ReadPair(Start, last);
    } else {
      assert forall k :: 0 <= k < |init| ==> init[k] == ps[k];
      RunLines(init);
      var block := [UserLine(last), AssistantLine(last)];
      assert Lines(ps) == Lines(init) + ([""] + block);
      RunAppend(Start, Lines(init), [""] + block);
      SkipBlank(Pending(init), block);
      ReadPair(Pending(init), last);
      PendingCloses(init);
    }
  }

  /** The reader's state after the lines of `ps`: the last answer pending,
      the last pair still without it. */
  function Pending(ps: seq<QA>): State
    requires ps != []
  {
    State(Some(AssistantRole), ps[|ps| - 1].assistant, ps[..|ps| - 1] + [QA(ps[|ps| - 1].user, "")])
  }

  /** Closing the pending answer completes the pairs. */
  lemma PendingCloses(ps: seq<QA>)
    requires ps != [] && PlainPair(ps[|ps| - 1])
    ensures SetLast(Pending(ps).pairs, AssistantRole, Strip(Pending(ps).message)) == ps
  {
    assert Strip(ps[|ps| - 1].assistant) == ps[|ps| - 1].assistant;
  }

  /** After the last line the pending answer completes the last pair. */
  lemma FinishLines(ps: seq<QA>)
    requires ps != []
    requires forall k :: 0 <= k < |ps| ==> PlainPair(ps[k])
    ensures Finish(Pending(ps)) == ps
  {
    PendingCloses(ps);
    FilterAll(ps, Complete);
  }

  /** Reading the formatted text of plain pairs gives the pairs back. */
  lemma ReadFormattedPairs(ps: seq<QA>)
    requires forall k :: 0 <= k < |ps| ==> PlainPair(ps[k])
    ensures ParseConversationContext(Join("\n\n", RenderPairs(ps))) == Success(ps)
  {
    RenderedLines(ps);
    if ps != [] {
      var lines := Lines(ps);
      var text := Join("\n", lines);
      LinesNonEmpty(ps);
      LinesPlain(ps);
      JoinSplit(lines, '\n');
      assert |Split(text, '\n')| >= 2;
      RunLines(ps);
      FinishLines(ps);
    }
  }

  /** The pairs of a history whose messages are plain are plain. */
  lemma {:induction false} PairsPlain(h: seq<Message>, n: nat)
    requires n <= |h|
    requires forall i :: 0 <= i < |h| ==> Plain(h[i].text)
    ensures forall k :: 0 <= k < |AnswerThenQuestion(h, n)| ==> PlainPair(AnswerThenQuestion(h, n)[k])
    ensures forall k :: 0 <= k < |QuestionThenAnswer(h, n)| ==> PlainPair(QuestionThenAnswer(h, n)[k])
  {
    if n > 0 {
      PairsPlain(h, n - 1);
    }
  }

  /** The context the page sends is read back by the service as the pairs
      the page chose, for both pairings. */
  lemma ContextRoundTrip(h: seq<Message>)
    requires forall i :: 0 <= i < |h| ==> Plain(h[i].text)
    ensures ParseConversationContext(FormatConversationForContext(h)) == Success(TakeLast(HistoryPairs(h), ContextPairs))
    ensures ParseConversationContext(FormatConversationCorrected(h)) == Success(TakeLast(HistoryPairsCorrected(h), ContextPairs))
  {
    PairsPlain(h, |h|);
    HistoryPairsCorrectedReplies(h);
    ReadFormattedPairs(TakeLast(HistoryPairs(h), ContextPairs));
    ReadFormattedPairs(TakeLast(HistoryPairsCorrected(h), ContextPairs));
  }
}

=== FILE: seqs.dfy ===
/** Order-preserving selection from a sequence, the list comprehension
    `[x for x in xs if p(x)]`. */
module Seqs {

  function Filter<T>(xs: seq<T>, p: T -> bool): (r: seq<T>)
    ensures |r| <= |xs|
  {
    if xs == [] then []
    else if p(xs[0]) then [xs[0]] + Filter(xs[1..], p)
    else Filter(xs[1..], p)
  }

  /** Selection keeps exactly the elements that pass. */
  lemma {:induction false} FilterMembers<T>(xs: seq<T>, p: T -> bool)
    ensures forall x :: x in Filter(xs, p) <==> x in xs && p(x)
  {
    if xs != [] {
      FilterMembers(xs[1..], p);
      assert xs == [xs[0]] + xs[1..];
    }
  }

  /** What selection does with the first element. */
  function Keep<T>(x: T, p: T -> bool): seq<T> {
    if p(x) then [x] else []
  }

  lemma FilterCons<T>(x: T, xs: seq<T>, p: T -> bool)
    ensures Filter([x] + xs, p) == Keep(x, p) + Filter(xs, p)
  {
    assert ([x] + xs)[1..] == xs;
  }

  /** Selection distributes over concatenation, so it keeps the order of
      the input. */
  lemma {:induction false} FilterAppend<T>(xs: seq<T>, ys: seq<T>, p: T -> bool)
    ensures Filter(xs + ys, p) == Filter(xs, p) + Filter(ys, p)
  {
    if xs == [] {
      assert xs + ys == ys;
    } else {
      var x, t := xs[0], xs[1..];
      assert xs == [x] + t;
      calc {
        Filter(xs + ys, p);
        { assert xs + ys == [x] + (t + ys); }
        Filter([x] + (t + ys), p);
        { FilterCons(x, t + ys, p); }
        Keep(x, p) + Filter(t + ys, p);
        { FilterAppend(t, ys, p); }
        Keep(x, p) + (Filter(t, p) + Filter(ys, p));
        (Keep(x, p) + Filter(t, p)) + Filter(ys, p);
        { FilterCons(x, t, p); }
        Filter(xs, p) + Filter(ys, p);
      }
    }
  }

  /** Selection keeps every copy of an element that passes and no copy of
      one that fails. */
  lemma {:induction false} FilterMultiplicity<T>(xs: seq<T>, p: T -> bool, x: T)
    ensures multiset(Filter(xs, p))[x] == if p(x) then multiset(xs)[x] else 0
  {
    if xs != [] {
      FilterMultiplicity(xs[1..], p, x);
      assert xs == [xs[0]] + xs[1..];
    }
  }

  /** Selection keeps a sequence whose elements all pass. */
  lemma {:induction false} FilterAll<T>(xs: seq<T>, p: T -> bool)
    requires forall k :: 0 <= k < |xs| ==> p(xs[k])
    ensures Filter(xs, p) == xs
  {
    if xs != [] {
      FilterAll(xs[1..], p);
    }
  }

  /** Selection drops a sequence none of whose elements passes. */
  lemma {:induction false} FilterNone<T>(xs: seq<T>, p: T -> bool)
    requires forall k :: 0 <= k < |xs| ==> !p(xs[k])
    ensures Filter(xs, p) == []
  {
    if xs != [] {
      FilterNone(xs[1..], p);
    }
  }

  /** The positions `o`, `o + 1`, ... of the elements that pass, in order:
      the indices that `Filter` keeps. */
  function Positions<T>(xs: seq<T>, p: T -> bool, o: nat): seq<nat> {
    if xs == [] then []
    else (if p(xs[0]) then [o] else []) + Positions(xs[1..], p, o + 1)
  }

  lemma PositionsCons<T>(x: T, xs: seq<T>, p: T -> bool, o: nat)
    ensures Positions([x] + xs, p, o) == (if p(x) then [o] else []) + Positions(xs, p, o + 1)
  {
    assert ([x] + xs)[1..] == xs;
  }

  lemma {:induction false} PositionsLength<T>(xs: seq<T>, p: T -> bool, o: nat)
    ensures |Positions(xs, p, o)| == |Filter(xs, p)|
  {
    if xs != [] {
      assert [xs[0]] + xs[1..] == xs;
      FilterCons(xs[0], xs[1..], p);
      PositionsLength(xs[1..], p, o + 1);
    }
  }

  /** The `k`-th position holds the `k`-th element kept. */
  lemma {:induction false} PositionAt<T>(xs: seq<T>, p: T -> bool, o: nat, k: nat)
    requires k < |Filter(xs, p)|
    ensures k < |Positions(xs, p, o)|
    ensures o <= Positions(xs, p, o)[k] < o + |xs|
    ensures xs[Positions(xs, p, o)[k] - o] == Filter(xs, p)[k]
  {
    PositionsLength(xs, p, o);
    assert [xs[0]] + xs[1..] == xs;
    FilterCons(xs[0], xs[1..], p);
    PositionsCons(xs[0], xs[1..], p, o);
    if !(p(xs[0]) && k == 0) {
      var k' := if p(xs[0]) then k - 1 else k;
      PositionAt(xs[1..], p, o + 1, k');
      PositionShift(xs, p, o, k, k');
    }
  }

  /** What `PositionAt` says of the tail at `k'` it says of the whole
      sequence at `k`. */
  lemma PositionShift<T>(xs: seq<T>, p: T -> bool, o: nat, k: nat, k': nat)
    requires xs != [] && !(p(xs[0]) && k == 0)
    requires k' == if p(xs[0]) then k - 1 else k
    requires Positions(xs, p, o) == (if p(xs[0]) then [o] else []) + Positions(xs[1..], p, o + 1)
    requires Filter(xs, p) == Keep(xs[0], p) + Filter(xs[1..], p)
    requires k' < |Positions(xs[1..], p, o + 1)| && k' < |Filter(xs[1..], p)|
    requires o + 1 <= Positions(xs[1..], p, o + 1)[k'] < o + 1 + |xs[1..]|
    requires xs[1..][Positions(xs[1..], p, o + 1)[k'] - (o + 1)] == Filter(xs[1..], p)[k']
    ensures k < |Positions(xs, p, o)|
    ensures o <= Positions(xs, p, o)[k] < o + |xs|
    ensures xs[Positions(xs, p, o)[k] - o] == Filter(xs, p)[k]
  {
  }

  /** The slice `xs[:n]`: the first `n` elements, or all of them when there
      are fewer. */
  function Take<T>(xs: seq<T>, n: nat): (r: seq<T>)
    ensures |r| <= n && |r| <= |xs|
    ensures forall k :: 0 <= k < |r| ==> r[k] == xs[k]
    ensures |xs| <= n ==> r == xs
    ensures n <= |xs| ==> |r| == n
  {
    if |xs| <= n then xs else xs[..n]
  }

  /** The slice `xs[-n:]` for `n > 0`, JavaScript's `xs.slice(-n)`: the last
      `n` elements, or all of them when there are fewer. */
  function TakeLast<T>(xs: seq<T>, n: nat): (r: seq<T>)
    ensures |r| <= n && |r| <= |xs|
    ensures forall k :: 0 <= k < |r| ==> r[k] == xs[|xs| - |r| + k]
    ensures |xs| <= n ==> r == xs
    ensures n <= |xs| ==> |r| == n
  {
    if |xs| <= n then xs else xs[|xs| - n..]
  }

  /** `[x for chunk in xss for x in chunk]`, JavaScript's `xss.flat()`. */
  function Flatten<T>(xss: seq<seq<T>>): seq<T> {
    if xss == [] then [] else xss[0] + Flatten(xss[1..])
  }
}

=== FILE: skill_groups.dfy ===
/** Skills grouped by category, as both text builders of `LLMService` do it:
    a dict filled in one pass over the skills, keyed by `skill.category or
    "Other"`, each key listing the names filed under it in skill order, and
    iterated in insertion order. The dict is a sequence of (category, names)
    pairs here. */
module SkillGroups {
  import opened Wrappers
  import opened Text
  import opened Documents

  /** `skill.category or "Other"`: an absent or empty category is "Other". */
  function CategoryOf(s: Skill): (c: string)
    ensures c != ""
    ensures Present(s.category) ==> c == s.category.value
  {
    if Present(s.category) then s.category.value else "Other"
  }

  type Groups = seq<(string, seq<string>)>

  function Keys(g: Groups): (ks: seq<string>)
    ensures |ks| == |g|
  {
    if g == [] then [] else [g[0].0] + Keys(g[1..])
  }

  lemma {:induction false} KeysIndex(g: Groups, i: nat)
    requires i < |g|
    ensures Keys(g)[i] == g[i].0
  {
    if i > 0 {
      KeysIndex(g[1..], i - 1);
    }
  }

  predicate Distinct(ks: seq<string>) {
    forall i, j :: 0 <= i < j < |ks| ==> ks[i] != ks[j]
  }

  /** Reference for the names under one category: the names of the skills
      filed under it, in skill order. */
  function NamesIn(skills: seq<Skill>, c: string): seq<string> {
    if skills == [] then []
    else
      var last := skills[|skills| - 1];
      NamesIn(skills[..|skills| - 1], c) + (if CategoryOf(last) == c then [last.name] else [])
  }

  /** Reference for the key order: every category once, at its first
      appearance. */
  function FirstSeen(cs: seq<string>): seq<string> {
    if cs == [] then []
    else
      var seen := FirstSeen(cs[..|cs| - 1]);
      if cs[|cs| - 1] in seen then seen else seen + [cs[|cs| - 1]]
  }

  /** Nothing is lost or invented: every category appears among the keys,
      and only those. */
  lemma {:induction false} FirstSeenMembers(cs: seq<string>)
    ensures forall x :: x in FirstSeen(cs) <==> x in cs
  {
    if cs != [] {
      FirstSeenMembers(cs[..|cs| - 1]);
      assert cs == cs[..|cs| - 1] + [cs[|cs| - 1]];
    }
  }

  function Categories(skills: seq<Skill>): (cs: seq<string>)
    ensures |cs| == |skills|
    ensures forall i :: 0 <= i < |skills| ==> cs[i] == CategoryOf(skills[i])
  {
    seq(|skills|, i requires 0 <= i < |skills| => CategoryOf(skills[i]))
  }

  /** `groups.setdefault(c, []).append(n)` on an insertion-ordered dict. */
  function AddTo(g: Groups, c: string, n: string): (r: Groups)
    ensures Keys(r) == if c in Keys(g) then Keys(g) else Keys(g) + [c]
  {
    if g == [] then [(c, [n])]
    else if g[0].0 == c then
      assert ([(c, g[0].1 + [n])] + g[1..])[1..] == g[1..];
      [(c, g[0].1 + [n])] + g[1..]
    else
      var rest := AddTo(g[1..], c, n);
      assert ([g[0]] + rest)[1..] == rest;
      [g[0]] + rest
  }

  /** Adding a name touches only the list of its own category, and only at
      its end. */
  lemma {:induction false} AddToValues(g: Groups, c: string, n: string, i: nat)
    requires Distinct(Keys(g))
    requires i < |AddTo(g, c, n)|
    ensures AddTo(g, c, n)[i].1 == (if i < |g| then g[i].1 else []) + (if AddTo(g, c, n)[i].0 == c then [n] else [])
  {
    if g == [] {
      assert AddTo(g, c, n) == [(c, [n])];
    } else if i == 0 {
      assert AddTo(g, c, n)[0] == if g[0].0 == c then (c, g[0].1 + [n]) else g[0];
    } else {
      if g[0].0 == c {
        AddToLaterKey(g, c, n, i);
      } else {
        DistinctTail(g);
        AddToValues(g[1..], c, n, i - 1);
        AddToPassesHead(g, c, n, i);
      }
    }
  }

  /** When the head holds `c`, a later entry is untouched. */
  lemma AddToLaterKey(g: Groups, c: string, n: string, i: nat)
    requires Distinct(Keys(g))
    requires g != [] && g[0].0 == c && 0 < i < |AddTo(g, c, n)|
    ensures i < |g| && g[i].0 != c && AddTo(g, c, n)[i] == g[i]
  {
    assert AddTo(g, c, n) == [(c, g[0].1 + [n])] + g[1..];
    KeysIndex(g, 0);
    KeysIndex(g, i);
  }

  /** When the head does not hold `c`, entry `i` is entry `i - 1` of the
      tail's update. */
  lemma AddToPassesHead(g: Groups, c: string, n: string, i: nat)
    requires g != [] && g[0].0 != c && 0 < i < |AddTo(g, c, n)|
    ensures AddTo(g, c, n)[i] == AddTo(g[1..], c, n)[i - 1]
    ensures i < |g| ==> g[1..][i - 1] == g[i]
  {
  }

  lemma DistinctTail(g: Groups)
    requires g != [] && Distinct(Keys(g))
    ensures Distinct(Keys(g[1..]))
  {
    assert Keys(g)[1..] == Keys(g[1..]);
    forall i, j | 0 <= i < j < |Keys(g[1..])| ensures Keys(g[1..])[i] != Keys(g[1..])[j] {
      assert Keys(g[1..])[i] == Keys(g)[i + 1] && Keys(g[1..])[j] == Keys(g)[j + 1];
    }
  }

  lemma {:induction false} AddToKeys(g: Groups, c: string, n: string, i: nat)
    requires i < |AddTo(g, c, n)|
    ensures AddTo(g, c, n)[i].0 == (if i < |g| then g[i].0 else c)
  {
    KeysIndex(AddTo(g, c, n), i);
    if i < |g| {
      KeysIndex(g, i);
    }
  }

  /** The pass over `cv.skills` that fills the dict. */
  function GroupByCategory(skills: seq<Skill>): (g: Groups)
    ensures Distinct(Keys(g))
  {
    if skills == [] then []
    else AddTo(GroupByCategory(skills[..|skills| - 1]), CategoryOf(skills[|skills| - 1]), skills[|skills| - 1].name)
  }

  /** The keys are the categories in order of first appearance. */
  lemma {:induction false} GroupKeys(skills: seq<Skill>)
    ensures Keys(GroupByCategory(skills)) == FirstSeen(Categories(skills))
  {
    if skills != [] {
      var init := skills[..|skills| - 1];
      assert Categories(skills)[..|skills| - 1] == Categories(init);
      GroupKeys(init);
    }
  }

  /** Each category lists exactly the names filed under it, in skill order. */
  lemma {:induction false} GroupNames(skills: seq<Skill>, i: nat)
    requires i < |GroupByCategory(skills)|
    ensures GroupByCategory(skills)[i].1 == NamesIn(skills, GroupByCategory(skills)[i].0)
  {
    var init := skills[..|skills| - 1];
    var last := skills[|skills| - 1];
    var g := GroupByCategory(init);
    AddToValues(g, CategoryOf(last), last.name, i);
    AddToKeys(g, CategoryOf(last), last.name, i);
    if i < |g| {
      GroupNames(init, i);
    } else {
      assert Keys(AddTo(g, CategoryOf(last), last.name)) == Keys(g) + [CategoryOf(last)];
      NamesInAbsent(init, CategoryOf(last), g);
    }
  }

  /** A category that is not yet a key has no names filed under it. */
  lemma {:induction false} NamesInAbsent(skills: seq<Skill>, c: string, g: Groups)
    requires g == GroupByCategory(skills)
    requires c !in Keys(g)
    ensures NamesIn(skills, c) == []
  {
    if skills != [] {
      var init := skills[..|skills| - 1];
      var last := skills[|skills| - 1];
      var g0 := GroupByCategory(init);
      assert c !in Keys(g0) && CategoryOf(last) != c by {
        assert Keys(g) == if CategoryOf(last) in Keys(g0) then Keys(g0) else Keys(g0) + [CategoryOf(last)];
      }
      NamesInAbsent(init, c, g0);
    }
  }

  /** A skill's name is filed under its own category. */
  lemma {:induction false} NamesInHas(skills: seq<Skill>, j: nat)
    requires j < |skills|
    ensures skills[j].name in NamesIn(skills, CategoryOf(skills[j]))
  {
    var init := skills[..|skills| - 1];
    if j < |skills| - 1 {
      assert skills[j] == init[j];
      NamesInHas(init, j);
    }
  }

  /** A skill's category is a key of the grouping, and the names under
      that key include the skill's name. */
  lemma SkillGrouped(skills: seq<Skill>, j: nat) returns (i: nat)
    requires j < |skills|
    ensures i < |GroupByCategory(skills)|
    ensures GroupByCategory(skills)[i].0 == CategoryOf(skills[j])
    ensures skills[j].name in GroupByCategory(skills)[i].1
  {
    var c := CategoryOf(skills[j]);
    var g := GroupByCategory(skills);
    GroupKeys(skills);
    FirstSeenMembers(Categories(skills));
    assert c == Categories(skills)[j];
    assert c in Keys(g);
    i :| 0 <= i < |Keys(g)| && Keys(g)[i] == c;
    KeysIndex(g, i);
    GroupNames(skills, i);
    NamesInHas(skills, j);
  }
}

=== FILE: text.dfy ===
/** The few Python `str` operations the services rely on, written out over
    `seq<char>`: the whitespace class shared by `str.strip()`, `str.split()`
    and the regular-expression class `\s`, ASCII case mapping, prefix and
    substring tests, joining, and decimal formatting of integers. */
module Text {
  import opened Wrappers

  /** The characters CPython treats as whitespace in `str.strip()`,
      `str.split()` and `\s` of a `str` pattern: the ASCII controls
      tab through carriage return, the four separators U+001C..U+001F, the
      space, and the Unicode space separators. */
  predicate IsSpace(c: char) {
    || c == ' '
    || ('\t' <= c <= '\r')
    || ('\U{1C}' <= c <= '\U{1F}')
    || c == '\U{85}'
    || c == '\U{A0}'
    || c == '\U{1680}'
    || ('\U{2000}' <= c <= '\U{200A}')
    || c == '\U{2028}'
    || c == '\U{2029}'
    || c == '\U{202F}'
    || c == '\U{205F}'
    || c == '\U{3000}'
  }

  predicate IsAscii(c: char) {
    c as int < 128
  }

  predicate IsAsciiUpper(c: char) {
    'A' <= c <= 'Z'
  }

  predicate IsAsciiLower(c: char) {
    'a' <= c <= 'z'
  }

  predicate IsAsciiLetter(c: char) {
    IsAsciiUpper(c) || IsAsciiLower(c)
  }

  predicate IsAsciiDigit(c: char) {
    '0' <= c <= '9'
  }

  /** `\w` restricted to ASCII: letters, digits and the underscore. */
  predicate IsWordChar(c: char) {
    IsAsciiLetter(c) || IsAsciiDigit(c) || c == '_'
  }

  function LowerChar(c: char): char {
    if IsAsciiUpper(c) then (c as int + 32) as char else c
  }

  /** `str.lower()` on the ASCII letters. */
  function Lower(s: string): (r: string)
    ensures |r| == |s|
    ensures forall i :: 0 <= i < |s| ==> r[i] == LowerChar(s[i])
  {
    seq(|s|, i requires 0 <= i < |s| => LowerChar(s[i]))
  }

  predicate IsLowerCase(s: string) {
    forall i :: 0 <= i < |s| ==> !IsAsciiUpper(s[i])
  }

  lemma LowerIsLowerCase(s: string)
    ensures IsLowerCase(Lower(s))
    ensures Lower(Lower(s)) == Lower(s)
  {
  }

  lemma LowerOfLowerCase(s: string)
    requires IsLowerCase(s)
    ensures Lower(s) == s
  {
  }

  predicate StartsWith(s: string, prefix: string) {
    |prefix| <= |s| && s[..|prefix|] == prefix
  }

  /** `t` occurs in `s` starting at position `i`. */
  predicate OccursAt(s: string, t: string, i: int) {
    0 <= i <= |s| - |t| && s[i..i + |t|] == t
  }

  /** Python's `t in s` for strings. */
  predicate Contains(s: string, t: string) {
    exists i | 0 <= i <= |s| - |t| :: OccursAt(s, t, i)
  }

  predicate AllSpace(s: string) {
    forall i :: 0 <= i < |s| ==> IsSpace(s[i])
  }

  /** Number of leading whitespace characters. */
  function LeadCount(s: string): (k: nat)
    ensures k <= |s|
    ensures forall i :: 0 <= i < k ==> IsSpace(s[i])
    ensures k < |s| ==> !IsSpace(s[k])
  {
    if |s| > 0 && IsSpace(s[0]) then 1 + LeadCount(s[1..]) else 0
  }

  /** Leading whitespace of a concatenation: that of the first part, running
      on into the second only when the first part is all whitespace. */
  lemma {:induction false} LeadCountAppend(a: string, b: string)
    ensures LeadCount(a + b) == if LeadCount(a) < |a| then LeadCount(a) else |a| + LeadCount(b)
  {
    if a != [] {
      assert (a + b)[0] == a[0];
      assert (a + b)[1..] == a[1..] + b;
      LeadCountAppend(a[1..], b);
    } else {
      assert a + b == b;
    }
  }

  /** Number of trailing whitespace characters. */
  function TrailCount(s: string): (k: nat)
    ensures k <= |s|
    ensures forall i :: |s| - k <= i < |s| ==> IsSpace(s[i])
    ensures k < |s| ==> !IsSpace(s[|s| - 1 - k])
  {
    if |s| > 0 && IsSpace(s[|s| - 1]) then 1 + TrailCount(s[..|s| - 1]) else 0
  }

  /** True of a string that `str.strip()` leaves as it is. */
  predicate IsStripped(s: string) {
    s == [] || (!IsSpace(s[0]) && !IsSpace(s[|s| - 1]))
  }

  /** `str.strip()`: the infix left after removing whitespace at both ends. */
  function Strip(s: string): (r: string)
    ensures IsStripped(r)
    ensures LeadCount(s) + |r| <= |s|
    ensures r == s[LeadCount(s)..LeadCount(s) + |r|]
    ensures forall i :: LeadCount(s) + |r| <= i < |s| ==> IsSpace(s[i])
    ensures IsStripped(s) ==> r == s
    ensures r == [] <==> AllSpace(s)
  {
    var t := s[LeadCount(s)..];
    t[..|t| - TrailCount(t)]
  }

  /** Stripping keeps a property every character has. */
  lemma StripKeepsClass(s: string, cls: char -> bool)
    requires forall i :: 0 <= i < |s| ==> cls(s[i])
    ensures forall i :: 0 <= i < |Strip(s)| ==> cls(Strip(s)[i])
  {
    var r := Strip(s);
    var lead := LeadCount(s);
    forall i | 0 <= i < |r| ensures cls(r[i]) {
      assert r[i] == s[lead + i];
    }
  }

  /** Length of the run of non-whitespace characters that starts `s`. */
  function WordLen(s: string): (k: nat)
    ensures k <= |s|
    ensures forall i :: 0 <= i < k ==> !IsSpace(s[i])
    ensures k < |s| ==> IsSpace(s[k])
    ensures |s| > 0 && !IsSpace(s[0]) ==> k > 0
  {
    if |s| > 0 && !IsSpace(s[0]) then 1 + WordLen(s[1..]) else 0
  }

  predicate IsWord(w: string) {
    w != [] && forall i :: 0 <= i < |w| ==> !IsSpace(w[i])
  }

  predicate AllWords(ws: seq<string>) {
    forall i :: 0 <= i < |ws| ==> IsWord(ws[i])
  }

  /** `str.split()` with no separator: the maximal runs of non-whitespace. */
  function Words(s: string): (ws: seq<string>)
    ensures AllWords(ws)
    ensures ws == [] <==> AllSpace(s)
    decreases |s|
  {
    if s == [] then []
    else if IsSpace(s[0]) then
      assert AllSpace(s) <==> AllSpace(s[1..]) by {
        assert forall i :: 0 <= i < |s[1..]| ==> s[1..][i] == s[i + 1];
      }
      Words(s[1..])
    else
      var k := WordLen(s);
      var rest := Words(s[k..]);
      assert AllWords([s[..k]] + rest) by {
        forall i | 0 <= i < |rest| + 1 ensures IsWord(([s[..k]] + rest)[i]) {
          if i > 0 {
            assert ([s[..k]] + rest)[i] == rest[i - 1];
          }
        }
      }
      [s[..k]] + rest
  }

  /** The pieces `str.split()` returns are pieces of the string, so they
      inherit its lower case. */
  lemma {:induction false} WordsOfLowerCase(s: string)
    requires IsLowerCase(s)
    ensures forall i :: 0 <= i < |Words(s)| ==> IsLowerCase(Words(s)[i])
    decreases |s|
  {
    if s == [] {
    } else if IsSpace(s[0]) {
      assert IsLowerCase(s[1..]) by {
        forall i | 0 <= i < |s[1..]| ensures !IsAsciiUpper(s[1..][i]) {
          assert s[1..][i] == s[i + 1];
        }
      }
      WordsOfLowerCase(s[1..]);
    } else {
      var k := WordLen(s);
      var rest := Words(s[k..]);
      assert Words(s) == [s[..k]] + rest;
      assert IsLowerCase(s[..k]) by {
        forall i | 0 <= i < k ensures !IsAsciiUpper(s[..k][i]) {
          assert s[..k][i] == s[i];
        }
      }
      assert IsLowerCase(s[k..]) by {
        forall i | 0 <= i < |s[k..]| ensures !IsAsciiUpper(s[k..][i]) {
          assert s[k..][i] == s[k + i];
        }
      }
      WordsOfLowerCase(s[k..]);
      forall i | 0 <= i < |Words(s)| ensures IsLowerCase(Words(s)[i]) {
        if i > 0 {
          assert Words(s)[i] == rest[i - 1];
        }
      }
    }
  }

  predicate EndsWith(s: string, suffix: string) {
    |suffix| <= |s| && s[|s| - |suffix|..] == suffix
  }

  lemma EndsWithAppend(a: string, b: string)
    ensures EndsWith(a + b, b)
  {
    assert (a + b)[|a|..] == b;
  }

  /** `sep.join(parts)`. */
  function Join(sep: string, parts: seq<string>): string {
    if |parts| == 0 then ""
    else if |parts| == 1 then parts[0]
    else parts[0] + sep + Join(sep, parts[1..])
  }

  /** Joining one more part appends the separator and the part. */
  lemma {:induction false} JoinSnoc(sep: string, parts: seq<string>, x: string)
    requires parts != []
    ensures Join(sep, parts + [x]) == Join(sep, parts) + sep + x
  {
    if |parts| == 1 {
      assert (parts + [x])[1..] == [x];
    } else {
      assert (parts + [x])[1..] == parts[1..] + [x];
      JoinSnoc(sep, parts[1..], x);
    }
  }

  /** `"".join(parts)`. */
  function Concat(parts: seq<string>): string {
    if |parts| == 0 then "" else parts[0] + Concat(parts[1..])
  }

  /** Python's truth value of an `Optional[str]`: present and non-empty. */
  predicate Present(o: Option<string>) {
    o.Some? && o.value != ""
  }

  /** How an f-string renders an `Optional[str]`: the text, or `None`. */
  function Show(o: Option<string>): string {
    match o
    case Some(s) => s
    case None => "None"
  }

  function DigitChar(d: nat): char
    requires d < 10
  {
    ('0' as int + d) as char
  }

  /** `str(n)` for a non-negative integer. */
  function NatToString(n: nat): (r: string)
    ensures r != []
    ensures forall i :: 0 <= i < |r| ==> IsAsciiDigit(r[i])
  {
    if n < 10 then [DigitChar(n)] else NatToString(n / 10) + [DigitChar(n % 10)]
  }

  /** `str(i)` for any integer. */
  function IntToString(i: int): string {
    if i < 0 then "-" + NatToString(-i) else NatToString(i)
  }
}

=== FILE: vector_index.dfy ===
/** `LLMService.build_index` and `LLMService._get_relevant_cvs`: the CVs
    with an embedding are put into a flat vector index, and a query's
    nearest vectors select CVs from a list. The embedding model and the
    nearest-neighbour search are foreign: whether a model is loaded is a
    flag, and the positions the search returns are a parameter. */
module VectorIndex {
  import opened Wrappers
  import opened Seqs
  import opened Documents

  /** `cv.embedding and len(cv.embedding) > 0`. */
  predicate HasEmbedding(cv: ParsedCV) {
    cv.embedding.Some? && |cv.embedding.value| > 0
  }

  /** `faiss.IndexFlatL2(dimension)` after `add`: the vectors in the order
      they were added. */
  datatype FlatIndex = FlatIndex(dimension: nat, vectors: seq<seq<real>>)

  /** `self.index` and `self.cv_ids`. */
  datatype IndexState = IndexState(index: Option<FlatIndex>, cvIds: seq<nat>)

  const NoIndex := IndexState(None, [])

  /** `valid_cvs`. */
  function ValidCvs(cvs: seq<ParsedCV>): (r: seq<ParsedCV>)
    ensures forall cv :: cv in r ==> cv in cvs && HasEmbedding(cv)
    ensures forall cv :: cv in cvs && HasEmbedding(cv) ==> cv in r
  {
    FilterMembers(cvs, HasEmbedding);
    Filter(cvs, HasEmbedding)
  }

  /** `[cv.embedding for cv in cvs]`, on CVs that all have one. */
  function Embeddings(cvs: seq<ParsedCV>): (r: seq<seq<real>>)
    ensures |r| == |cvs|
    ensures forall k :: 0 <= k < |cvs| ==> r[k] == cvs[k].embedding.GetOr([])
  {
    seq(|cvs|, k requires 0 <= k < |cvs| => cvs[k].embedding.GetOr([]))
  }

  /** `list(range(n))`. */
  function Range(n: nat): (r: seq<nat>)
    ensures |r| == n
    ensures forall k :: 0 <= k < n ==> r[k] == k
  {
    seq(n, k requires 0 <= k < n => k)
  }

  /** The index over the valid CVs; its dimension is the length of the
      first embedding. */
  function IndexOf(valid: seq<ParsedCV>): (r: FlatIndex)
    requires valid != []
    ensures r.vectors == Embeddings(valid) && r.dimension == |valid[0].embedding.GetOr([])|
  {
    FlatIndex(|valid[0].embedding.GetOr([])|, Embeddings(valid))
  }

  /** `build_index(cvs)` as written: with no CVs, no model or no CV with an
      embedding the state is left as it was; otherwise the index holds the
      embeddings of the valid CVs and `cv_ids` numbers them from zero, as
      positions in the FILTERED list. */
  function BuildIndex(st: IndexState, cvs: seq<ParsedCV>, hasModel: bool): (r: IndexState)
    ensures cvs == [] || !hasModel || ValidCvs(cvs) == [] ==> r == st
    ensures !(cvs == [] || !hasModel || ValidCvs(cvs) == []) ==>
      r.index.Some? && r.index.value.vectors == Embeddings(ValidCvs(cvs)) && r.cvIds == Range(|ValidCvs(cvs)|)
  {
    if cvs == [] || !hasModel then st
    else
      var valid := ValidCvs(cvs);
      if valid == [] then st
      else
        IndexState(Some(IndexOf(valid)), Range(|valid|))
  }

  /** `[cv_data[idx] for idx in ids if idx < len(cv_data)]`. */
  function Gather(cvData: seq<ParsedCV>, ids: seq<nat>): (r: seq<ParsedCV>)
    ensures |r| <= |ids|
    ensures forall cv :: cv in r ==> cv in cvData
    ensures (forall k :: 0 <= k < |ids| ==> ids[k] < |cvData|) ==>
      |r| == |ids| && forall k :: 0 <= k < |ids| ==> r[k] == cvData[ids[k]]
  {
    if ids == [] then []
    else
      var rest := Gather(cvData, ids[1..]);
      if ids[0] < |cvData| then
        assert forall k :: 1 <= k < |ids| ==> ids[1..][k - 1] == ids[k];
        [cvData[ids[0]]] + rest
      else rest
  }

  /** `_get_relevant_cvs(query, cv_data, top_k)` as written. Without an
      index or a model: the first `top_k` CVs. Otherwise `hits`, the
      positions the search returns for the query, are read as positions in
      `cv_data` itself. */
  function GetRelevantCvs(st: IndexState, hasModel: bool, cvData: seq<ParsedCV>, topK: nat, hits: seq<nat>): (r: seq<ParsedCV>)
    ensures st.index.None? || !hasModel ==>
      r == cvData[..if topK < |cvData| then topK else |cvData|]
    ensures st.index.Some? && hasModel ==>
      (forall cv :: cv in r ==> cv in cvData) && |r| <= |hits|
  {
    if st.index.None? || !hasModel then Take(cvData, if topK < |cvData| then topK else |cvData|)
    else Gather(cvData, hits)
  }

  // ------------------------------------------------------------ corrected

  /** Positions `o`, `o + 1`, ... of the CVs that have an embedding. */
  function ValidPositions(cvs: seq<ParsedCV>, o: nat): seq<nat> {
    Positions(cvs, HasEmbedding, o)
  }

  /** The positions pick out exactly the valid CVs, in order. */
  lemma ValidPositionsMatch(cvs: seq<ParsedCV>, o: nat)
    ensures |ValidPositions(cvs, o)| == |ValidCvs(cvs)|
    ensures forall k :: 0 <= k < |ValidCvs(cvs)| ==>
      o <= ValidPositions(cvs, o)[k] < o + |cvs| && cvs[ValidPositions(cvs, o)[k] - o] == ValidCvs(cvs)[k]
  {
    PositionsLength(cvs, HasEmbedding, o);
    forall k | 0 <= k < |ValidCvs(cvs)|
      ensures o <= ValidPositions(cvs, o)[k] < o + |cvs| && cvs[ValidPositions(cvs, o)[k] - o] == ValidCvs(cvs)[k]
    {
      PositionAt(cvs, HasEmbedding, o, k);
    }
  }

  /** The intended `build_index`: `cv_ids` holds each indexed CV's position
      in the list it came from. */
  function BuildIndexCorrected(st: IndexState, cvs: seq<ParsedCV>, hasModel: bool): (r: IndexState)
    ensures r.index == BuildIndex(st, cvs, hasModel).index
  {
    if cvs == [] || !hasModel then st
    else
      var valid := ValidCvs(cvs);
      if valid == [] then st
      else
        IndexState(Some(IndexOf(valid)), ValidPositions(cvs, 0))
  }

  /** `[cv_ids[h] for h in hits if h < len(cv_ids)]`. */
  function IdsOf(cvIds: seq<nat>, hits: seq<nat>): (r: seq<nat>)
    ensures |r| <= |hits|
    ensures (forall k :: 0 <= k < |hits| ==> hits[k] < |cvIds|) ==>
      |r| == |hits| && forall k :: 0 <= k < |hits| ==> r[k] == cvIds[hits[k]]
  {
    if hits == [] then []
    else
      var rest := IdsOf(cvIds, hits[1..]);
      if hits[0] < |cvIds| then
        assert forall k :: 1 <= k < |hits| ==> hits[1..][k - 1] == hits[k];
        [cvIds[hits[0]]] + rest
      else rest
  }

  /** The intended `_get_relevant_cvs`: each hit goes through `cv_ids` to
      the position of its CV. */
  function GetRelevantCvsCorrected(st: IndexState, hasModel: bool, cvData: seq<ParsedCV>, topK: nat, hits: seq<nat>): (r: seq<ParsedCV>)
    ensures st.index.None? || !hasModel ==> r == GetRelevantCvs(st, hasModel, cvData, topK, hits)
    ensures forall cv :: cv in r ==> cv in cvData
  {
    if st.index.None? || !hasModel then Take(cvData, if topK < |cvData| then topK else |cvData|)
    else Gather(cvData, IdsOf(st.cvIds, hits))
  }

  // ------------------------------------------------------------ lemmas

  /** The hits as written land on the CVs at the same positions of the
      unfiltered list. */
  lemma HitsAsWritten(cvs: seq<ParsedCV>, topK: nat, hits: seq<nat>)
    requires forall k :: 0 <= k < |hits| ==> hits[k] < |cvs|
    requires ValidCvs(cvs) != []
    ensures var st := BuildIndex(NoIndex, cvs, true);
      GetRelevantCvs(st, true, cvs, topK, hits) == seq(|hits|, k requires 0 <= k < |hits| => cvs[hits[k]])
  {
  }

  /** With the corrected ids, when the CVs searched are the CVs indexed,
      every hit returns the CV whose embedding is the vector the search
      matched; in particular every returned CV has an embedding. */
  lemma HitsCorrected(st0: IndexState, cvs: seq<ParsedCV>, topK: nat, hits: seq<nat>)
    requires ValidCvs(cvs) != []
    requires forall k :: 0 <= k < |hits| ==> hits[k] < |ValidCvs(cvs)|
    ensures var st := BuildIndexCorrected(st0, cvs, true);
      var r := GetRelevantCvsCorrected(st, true, cvs, topK, hits);
      |r| == |hits|
      && forall k :: 0 <= k < |hits| ==>
        HasEmbedding(r[k]) && r[k].embedding.value == st.index.value.vectors[hits[k]]
  {
    var valid := ValidCvs(cvs);
    var st := BuildIndexCorrected(st0, cvs, true);
    ValidPositionsMatch(cvs, 0);
    var ids := IdsOf(st.cvIds, hits);
    assert forall k :: 0 <= k < |hits| ==> ids[k] < |cvs| && cvs[ids[k]] == valid[hits[k]];
    assert forall k :: 0 <= k < |valid| ==> valid[k] in valid;
  }

  /** Of two CVs, the first without an embedding, only the second is valid,
      at position 1. */
  lemma ValidOfTwo(a: ParsedCV, b: ParsedCV)
    requires !HasEmbedding(a) && HasEmbedding(b)
    ensures ValidCvs([a, b]) == [b]
    ensures ValidPositions([a, b], 0) == [1]
  {
    FilterCons(a, [b], HasEmbedding);
    FilterCons(b, [], HasEmbedding);
    assert [a] + [b] == [a, b];
    PositionsCons(a, [b], HasEmbedding, 0);
    PositionsCons(b, [], HasEmbedding, 1);
    assert [b] + [] == [b];
  }

  /** Two CVs, the first without an embedding: the index holds only the
      second, yet the search hit on its vector returns the first. */
  lemma FilteredPositionMismatch(a: ParsedCV, b: ParsedCV)
    requires !HasEmbedding(a) && HasEmbedding(b)
    ensures var st := BuildIndex(NoIndex, [a, b], true);
      st.index.value.vectors == [b.embedding.value]
      && GetRelevantCvs(st, true, [a, b], 30, [0]) == [a]
      && GetRelevantCvsCorrected(BuildIndexCorrected(NoIndex, [a, b], true), true, [a, b], 30, [0]) == [b]
  {
    ValidOfTwo(a, b);
    var st := BuildIndex(NoIndex, [a, b], true);
    assert st.index.value.vectors == [b.embedding.value];
    assert GetRelevantCvs(st, true, [a, b], 30, [0]) == Gather([a, b], [0]);
    var st' := BuildIndexCorrected(NoIndex, [a, b], true);
    assert st'.cvIds == [1];
    assert IdsOf([1], [0]) == [1];
  }
}

=== FILE: wrappers.dfy ===
/** Optional values and results with an error, used wherever the source
    returns None or raises. */
module Wrappers {

  /** Python's `Optional[T]`: `None` or a present value. */
  datatype Option<+T> = None | Some(value: T) {

    /** The present value, or `default` when absent (Python's `x or default`
        for values that are never falsy). */
    function GetOr(default: T): T {
      match this
      case Some(v) => v
      case None => default
    }
  }

  /** The outcome of a Python call that may raise: `Failure` carries a short
      description of the exception. */
  datatype Result<+T> = Success(value: T) | Failure(error: string) {

    predicate IsFailure() {
      Failure?
    }

    function PropagateFailure<U>(): Result<U>
      requires Failure?
    {
      Failure(error)
    }

    function Extract(): T
      requires Success?
    {
      value
    }
  }
}
